=== FILE: README.md ===
# A verified model of the DNA image codec

This project models, in Dafny, the core of a codec between a four-colour raster image and a pool of addressed DNA oligos.

- **Encoder** (`Encoding/encoding.py`):
  - each pixel becomes a 2-bit colour code, so a 350-pixel row is 700 bits;
  - each 8-bit group is split 2/3/3 and written as one nucleotide and two codewords from the 3-bit sub-code;
  - the 4-bit tail of a row becomes two single nucleotides, so every row becomes a 437-nucleotide strand;
  - the joined strands are cut back into 437-nucleotide rows, and each row into payloads of 90, 90, 90, 90 and 77 nucleotides;
  - each payload is prefixed with a 10-nucleotide address: the tag `str(row).zfill(3) + str(col)` as four BCD digits, 16 bits packed [2,3,3,2,3,3];
  - the oligos are grouped five to a row.
- **Pool reader** (`Decoding/recovery.py`):
  - takes the first word of every line after the header;
  - decodes each read's address and stores `seq[10:]` into a 341 x 5 matrix;
  - keeps a running error score and a count of placed reads.
- **Gap filler** (`Decoding/picture_recovery.py`): two sweeps replace missing cells and cells of the wrong length with runs of `G`, counting what they replaced.
- **Picture decoder** (`Decoding/to_picture.py`):
  - reads each 437-nucleotide row back as 700 bits, counting unreadable fields and reading them as zero bits;
  - cuts the bits into 350 colour codes and maps the codes to pixels.

The model is functional:
- Python's `None` results become `Option`, and raised exceptions become `Result` with the exception class kept (`IndexError`, `ValueError`, `TypeError`).
- Module-level counters are returned values.
- The image, the read file and the CSV matrices are parameters: an in-memory grid of `Rgb`, a sequence of lines, and grids of strings.

Modules:

| module | what it holds |
|---|---|
| `Results` | `Option`, `Result` and the fault kinds |
| `Seqs` | join, Python slicing, fixed-size grouping, `zip` prefixing |
| `PyStr` | `strip`, `lower`, `upper`, `zfill`, `str(n)`, `bin(n)`, `int(s, 2)` |
| `Tables` | the sub-code tables |
| `Packer` | the byte and row packer |
| `Addressing` | address encode and decode |
| `Assembler` | the encoder's main flow |
| `Reconstructor` | the pool reader |
| `GapFill` | the two sweeps |
| `RasterDecoder` | the picture decoder |
| `EndToEnd` | the whole chain: a clean 341 x 350 image, encoded, read back one oligo per line, swept and decoded, gives back the image with every counter at zero |

In these places the code is easy to misread; the model follows it:
- **Order of checks.** The reader decodes the address first. The read's length (100 or 87) is checked only in the store condition. No length check comes before decoding, and no length is checked against the column.
- **One error score.** There is no separate counter per error kind. A read with any unreadable address field adds 1, once, however many of its fields are unreadable. A matrix index out of range adds 18.
- **No duplicate counter.** A second read for an occupied cell is dropped without a count. It still adds 1 to the placed-read count, as every read addressed to a cell does.
- **Row and column 0 are accepted.** They index the matrix at -1, that is, the last row or the last column, as NumPy does.
- **Unreadable group fields do not fail.** The decoder reads them as `00` or `000` and counts one error per field.
- **Unreadable tail letters do fail.** An unreadable tail letter raises `TypeError`.
- **Reads are processed in file order.** That order decides which read wins a cell.

## Model

| member | source | states |
|---|---|---|
| Tables.NucleotideOfInt | Encoding/encoding.py:77-87 | get_mapping_value: defined exactly on 0..3, giving one nucleotide letter |
| Tables.DinucleotideOfInt | Encoding/encoding.py:116-126 | get_tri_mapping_value: defined exactly on 0..7, giving one of the eight codewords |
| Tables.NucleotideOfBits | Encoding/encoding.py:90-100 | xuhao_binary: defined only on 2-bit strings, giving one nucleotide letter |
| Tables.DinucleotideOfBits | Encoding/encoding.py:103-113 | xuhao_threebits: defined only on 3-bit strings, giving a two-letter codeword |
| Tables.BitsOfNucleotide | Decoding/to_picture.py:62-78 | get_mapping_value (also recovery.py's xuhao_binary): defined exactly on the four upper-case letters, giving a 2-bit string |
| Tables.BitsOfNucleotideAnyCase | Decoding/to_picture.py:22-38 | char_to_number: defined exactly when the upper-cased character is a nucleotide, giving a 2-bit string |
| Tables.BitsOfDinucleotide | Decoding/to_picture.py:40-60 | get_tri_mapping_value (also threebits_xuhao): defined exactly on the eight codewords, giving a 3-bit string |
| Tables.IntTablesInjective | Encoding/encoding.py:54-71 | distinct keys of INT_TO_NUCLEOTIDE (0..3) and of INT_TO_DINUCLEOTIDE (0..7) map to distinct strings |
| Tables.NucleotideOfBitsAgrees | Encoding/encoding.py:34-59 | BINARY_TO_NUCLEOTIDE is defined exactly on the 2-bit strings and agrees with INT_TO_NUCLEOTIDE at the string's value |
| Tables.DinucleotideOfBitsAgrees | Encoding/encoding.py:42-71 | THREEBITS_TO_DINUCLEOTIDE is defined exactly on the 3-bit strings and agrees with INT_TO_DINUCLEOTIDE at the string's value |
| Tables.DinucleotideOfBitsValue | Encoding/encoding.py:42-71 | every 3-bit string has a codeword, the one INT_TO_DINUCLEOTIDE gives for its value |
| Tables.NucleotideRoundTrip | Decoding/recovery.py:28-36 | the reader's 2-bit table inverts the encoder's, in both directions |
| Tables.DinucleotideRoundTrip | Decoding/recovery.py:38-50 | the reader's 3-bit table inverts the encoder's, in both directions |
| Tables.CaseSensitivity | Decoding/to_picture.py:22-78 | char_to_number gives the same for a letter and its upper case; get_mapping_value gives None for a lower-case nucleotide that char_to_number accepts |
| Tables.NotCodewords | Decoding/to_picture.py:50-60 | an illustration of BitsOfDinucleotide's contract: "GG" and "AT" have no 3-bit value |
| Tables.ColorTables | Decoding/to_picture.py:8-20 | COLOR_ENCODING_FOR_PICTURE equals the encoder's COLOR_ENCODING; the decoder's COLOR_ENCODING is its inverse in both directions; the decoder's keys are exactly the 2-bit strings |
| Tables.PairColor | Decoding/to_picture.py:105-108 | for two bit characters, the colour the decoder's table gives their 2-bit code |
| Seqs.Slice | Decoding/recovery.py:55-60 | Python slicing: `s[i:j]` for in-range bounds, `s[i:]` when only the end runs past the string, empty when the range is reversed or starts past the end; the length is the clipped range's |
| Seqs.Chunks | Encoding/encoding.py:189-191 | split_string_into_groups: every group non-empty and at most n long, every group but the last exactly n long |
| Seqs.ChunksJoin | Encoding/encoding.py:189-191 | the groups joined give back the input |
| Seqs.ChunksOfFlatten | Encoding/encoding.py:228-233 | string_to_matrix on a join of rows of length n returns those rows |
| Seqs.ChunksExact | Encoding/encoding.py:276-279 | a list of k*n items groups into exactly k groups, each n long |
| Seqs.PrependEach | Encoding/encoding.py:270-273 | prepend_characters: as many entries as the shorter list, entry k being list2[k] + list1[k] |
| Seqs.PrependFlatten | Encoding/encoding.py:362-363 | prefixing the flattened payloads with the flattened addresses equals prefixing row by row |
| PyStr.StripLeft | Decoding/picture_recovery.py:15-16 | lstrip: the suffix after the longest all-whitespace prefix |
| PyStr.StripRight | Decoding/picture_recovery.py:15-16 | rstrip: the prefix before the longest all-whitespace suffix |
| PyStr.Lower | Decoding/picture_recovery.py:15-16 | lower: the same length, each character lower-cased |
| PyStr.StripNoSpace | Decoding/picture_recovery.py:41-44 | strip leaves a string without whitespace unchanged |
| PyStr.TakeWord | Decoding/recovery.py:25 | the longest whitespace-free prefix, ending at the end of the string or at whitespace |
| PyStr.ZFill | Encoding/encoding.py:251 | zfill: the input left-padded with '0' to the width, never truncated |
| PyStr.ZFill3 | Encoding/encoding.py:251 | `str(n).zfill(3)` for n < 1000 spells its hundreds, tens and units |
| PyStr.DecimalString | Encoding/encoding.py:251-253 | `str(n)` is a non-empty digit string whose decimal value is n, with no leading zero except for "0" itself |
| PyStr.ParseBinary | Encoding/encoding.py:142-143 | `int(s, 2)` succeeds exactly on non-empty bit strings, giving the number they spell (most significant bit first), below 2 to the length |
| PyStr.BinaryString | Encoding/encoding.py:264 | `bin(n)[2:]`: a bit string of value n with no leading zero (it starts with '1', or is "0"), at most 4 bits for n < 16 |
| PyStr.ZFillValue | Encoding/encoding.py:264-265 | zero-padding a bit string keeps its value |
| Packer.ByteSplit | Encoding/encoding.py:217-219 | an 8-character string is bits exactly when its 2/3/3 parts are, and its value is the parts' values at weights 64, 8, 1 |
| Packer.ConvertBinaryParts | Encoding/encoding.py:201-225 | ValueError on any length other than 8 or any non-bit character; otherwise fields first < 4, middle < 8, last < 8 with first*64 + middle*8 + last equal to the byte's value |
| Packer.LastFourBits | Encoding/encoding.py:129-145 | succeeds exactly on bit strings of length at least 3, else ValueError; the two numbers are the value of the first two bits and of the rest, recombining to the string's value |
| Packer.PackFields | Encoding/encoding.py:318-324 | five nucleotides: INT_TO_NUCLEOTIDE of the first field, then INT_TO_DINUCLEOTIDE of the middle and the last |
| Packer.PackByte | Encoding/encoding.py:318-324 | one 8-bit group packs to five nucleotide letters |
| Packer.PackByteFields | Encoding/encoding.py:318-324 | the five letters are the 2-bit, 3-bit and 3-bit fields through BINARY_TO_NUCLEOTIDE and THREEBITS_TO_DINUCLEOTIDE |
| Packer.PackGroups | Encoding/encoding.py:317-324 | the group loop succeeds exactly when every group is 8 bits (else ValueError), giving 5 nucleotides per group |
| Packer.PackGroupsEach | Encoding/encoding.py:317-324 | the group loop's output is the join of each group's packing, in order |
| Packer.RowGroups | Encoding/encoding.py:312-313 | a row of at most 696 bits has no group 87 (the IndexError); a longer row's first 87 groups are those of its first 696 bits, and group 87 is the following up to 8 bits |
| Packer.FullGroups | Encoding/encoding.py:312-318 | the first 696 bits form 87 groups of 8, all bits exactly when the 696 are |
| Packer.PackRow | Encoding/encoding.py:310-328 | a row shorter than 699 bits fails; a 700-character row packs exactly when it is bits; a packed row is 437 nucleotide letters |
| Packer.PackRowParts | Encoding/encoding.py:310-327 | a 700-bit row packs to its 87 groups' packings, then the nucleotides of bits 696-697 and 698-699 |
| Addressing.Label | Encoding/encoding.py:251-253 | a tag is a digit string of at least four characters |
| Addressing.LabelDigits | Encoding/encoding.py:249-254 | the tag of (row, col), row < 1000 and col < 10, is the digits of row/100, row/10%10, row%10 and col |
| Addressing.DigitBits | Encoding/encoding.py:264-265 | defined exactly on digits, giving four bits whose value is the digit |
| Addressing.StringToBinary | Encoding/encoding.py:259-267 | defined exactly on digit strings (int raises otherwise), one entry per character |
| Addressing.StringToBinaryDigits | Encoding/encoding.py:259-267 | entry k is four bits whose value is digit k |
| Addressing.PackAddressBits | Encoding/encoding.py:345-358 | for bit strings, all six fields are in their tables exactly when there are at least 16 bits; the address is 10 letters shaped 1,2,2,1,2,2 |
| Addressing.AddressFieldsDefined | Encoding/encoding.py:345-356 | each of the six fields of 16 bits is in its table; with fewer than 16 bits the last field is not |
| Addressing.AddressOfLabel | Encoding/encoding.py:340-359 | succeeds exactly on digit tags of at least four characters, failing with ValueError on a non-digit and TypeError on a short tag; a 10-letter address shaped 1,2,2,1,2,2 |
| Addressing.LabelBits | Encoding/encoding.py:342-343 | the joined string_to_binary of a tag is 4 bits per character |
| Addressing.TagGroups | Encoding/encoding.py:342-343 | the 16 bits of a four-digit tag regroup into its four digits |
| Addressing.LabelGroups | Encoding/encoding.py:340-343 | the 16 bits of tag (row, col) spell row/100, row/10%10, row%10 and col in 4-bit groups |
| Addressing.EncodeAddress | Encoding/encoding.py:340-359 | every (row, col) has a 10-letter address shaped 1,2,2,1,2,2 |
| Addressing.EncodedBits | Encoding/encoding.py:340-359 | the address of (row, col) is the packing of 16 bits whose groups give row = d0*100 + d1*10 + d2 and col = d3 |
| Addressing.AddressBits | Decoding/recovery.py:53-72 | the six fields are in their tables exactly when the read is address-shaped, giving 16 bits |
| Addressing.Payload | Decoding/recovery.py:87 | `seq[10:]`: the address followed by the payload is the read; empty for reads under 10 |
| Addressing.Chunks16 | Decoding/recovery.py:79-80 | 16 bits group into four 4-bit digits |
| Addressing.AddressDigits | Decoding/recovery.py:79-81 | four digits, each below 16, exactly for address-shaped reads |
| Addressing.DigitsOfBits | Decoding/recovery.py:79-81 | the digits are the values of the four 4-bit groups of the 16 bits |
| Addressing.DecodeAddress | Decoding/recovery.py:53-83 | decodes exactly the address-shaped reads, to a row 0..1665 and a column 0..15 |
| Addressing.DecodeAddressPrefix | Decoding/recovery.py:55-60 | only the first ten letters of a read matter to its address |
| Addressing.PackUnpackBits | Decoding/recovery.py:53-72 | unpacking the encoder's packing of any 16 bits gives the 16 bits back |
| Addressing.DecodePacked | Decoding/recovery.py:79-83 | the packing of 16 bits decodes to d0*100 + d1*10 + d2 and d3 of its 4-bit groups |
| Addressing.AddressRoundTrip | Decoding/recovery.py:53-83 | decoding the encoder's address of (row, col), row < 1000 and col < 10, gives (row, col) |
| Assembler.PixelRowCodes | Encoding/encoding.py:173-181 | succeeds exactly when every pixel is in the palette (else ValueError), one code per pixel, each the code of that pixel's colour |
| Assembler.PixelsToCodes | Encoding/encoding.py:164-186 | succeeds exactly for palette images, with the codes of every row |
| Assembler.RowBits | Encoding/encoding.py:310-311 | a row's joined codes are two bits per pixel |
| Assembler.PackRows | Encoding/encoding.py:310-328 | succeeds exactly when every row packs, with each row's strand; a failure is the fault of the first row that does not pack |
| Assembler.SplitRows | Encoding/encoding.py:236-242 | split_matrix_rows: each row cut into groups of 90 |
| Assembler.StrandPayloads | Encoding/encoding.py:236-242 | a 437-letter strand cuts into payloads of 90, 90, 90, 90 and 77 |
| Assembler.StrandGrid | Encoding/encoding.py:228-233 | re-splitting joined 437-letter strands returns them, five payloads each |
| Assembler.LabelGrid | Encoding/encoding.py:245-256 | one tag per payload, in the payloads' shape, the tag of (i+1, j+1) at (i, j) |
| Assembler.LabelAt | Encoding/encoding.py:245-256 | in a grid five wide, label 5i+j is the tag of (i+1, j+1) |
| Assembler.AddressesOf | Encoding/encoding.py:340-359 | the address loop succeeds exactly when every tag has an address, one address per tag |
| Assembler.LabelsAreAddressable | Encoding/encoding.py:340-359 | every generated tag has an address, as many as payloads |
| Assembler.AddressLengths | Encoding/encoding.py:340-359 | every generated address is 10 letters shaped 1,2,2,1,2,2 |
| Assembler.PrefixedAt | Encoding/encoding.py:362-363 | in a grid five wide, oligo 5i+j is the address of (i+1, j+1) followed by payload (i, j) |
| Assembler.GroupedAt | Encoding/encoding.py:276-279 | create_matrix_from_string_list puts item 5i+j at row i, column j |
| Assembler.PoolCell | Encoding/encoding.py:331-364 | for whole strands, pool row i holds five oligos, oligo j being the address of (i+1, j+1) and payload j of strand i |
| Assembler.OligoLength | Encoding/encoding.py:331-364 | pool oligos are 100 letters in columns 1-4 and 87 in column 5 |
| Assembler.FlattenSplitRows | Encoding/encoding.py:332-362 | joining the payloads of the split rows gives the rows joined |
| Assembler.OligosAddressed | Encoding/encoding.py:331-363 | for any strand, however long, every oligo starts with a well-formed address |
| Assembler.PayloadsJoin | Encoding/encoding.py:331-364 | for any strand, the payloads of the pool in pool order join back to the strand |
| Assembler.EncodeImage | Encoding/encoding.py:306-364 | ValueError for an image outside the palette; otherwise success exactly when every row packs |
| Assembler.CleanImageEncodes | Encoding/encoding.py:306-364 | an image of 350-pixel palette rows encodes, one 437-letter strand per row, to the pool of those strands |
| Reconstructor.FirstToken | Decoding/recovery.py:25 | IndexError exactly on blank lines; otherwise a non-empty whitespace-free word |
| Reconstructor.FirstTokenOf | Decoding/recovery.py:25 | a word followed by whitespace and anything else yields the word |
| Reconstructor.WordIsToken | Decoding/recovery.py:25 | a line that is one word yields itself |
| Reconstructor.FirstTokens | Decoding/recovery.py:23-26 | a failure is IndexError; otherwise one word per line |
| Reconstructor.FirstTokensMeaning | Decoding/recovery.py:23-26 | the loop succeeds exactly when no line is blank, giving each line's first word |
| Reconstructor.FirstTokensOfReads | Decoding/recovery.py:23-26 | lines that are single words are returned unchanged |
| Reconstructor.ReadLinesOk | Decoding/recovery.py:23-26 | the lines after the header all yield a word exactly when none of them is blank |
| Reconstructor.AxisIndex | Decoding/recovery.py:86-87 | NumPy indexing: defined exactly on -n..n-1, a negative index counting from the end |
| Reconstructor.Locate | Decoding/recovery.py:53-91 | a bad address exactly when the read is not address-shaped; out of range exactly when the decoded row exceeds 341 or the column exceeds 5; otherwise cell (row-1, col-1), with 0 wrapping to the last row or column |
| Reconstructor.EmptyPool | Decoding/recovery.py:21 | a 341 x 5 matrix of None, both counters zero |
| Reconstructor.StoreRead | Decoding/recovery.py:53-92 | bad address: score +1 and nothing else; out of range: score +18 and nothing else; addressed: count +1, and seq[10:] stored only if the cell is empty and the read is 100 or 87 long; no other cell changes |
| Reconstructor.StoreAll | Decoding/recovery.py:53-92 | the reads stored in file order keep the 341 x 5 shape |
| Reconstructor.Recover | Decoding/recovery.py:16-92 | the reader succeeds exactly when no line after the header is blank, with a 341 x 5 matrix |
| Reconstructor.KeepsFilled | Decoding/recovery.py:86-87 | a filled cell is never overwritten by later reads |
| Reconstructor.CellIsFirstStore | Decoding/recovery.py:85-92 | each cell ends as it was if filled, else as the payload of the first keepable read addressed to it |
| Reconstructor.FirstStoreIs | Decoding/recovery.py:86-87 | the first keepable read addressed to a cell is the one stored there |
| Reconstructor.ReadMatrix | Decoding/recovery.py:21-92 | from the empty matrix, every cell holds the payload of the first keepable read addressed to it, or None |
| Reconstructor.ReadCounts | Decoding/recovery.py:71-92 | the score adds 1 per undecodable address and 18 per out-of-range one; the count adds 1 per read addressed to a cell; every read is of exactly one kind |
| Reconstructor.AllTargeted | Decoding/recovery.py:71-92 | when every read is addressed to a cell, there are no bad or out-of-range reads |
| Reconstructor.TargetedCounts | Decoding/recovery.py:85-92 | reads all addressed to cells leave the score unchanged and add their number to the count |
| GapFill.Sentinel | Decoding/picture_recovery.py:21-26 | the filler is all 'G', 90 long in columns 0-3 and 77 in column 4 |
| GapFill.Fix | Decoding/picture_recovery.py:18-27 | a cell that needs the sweep becomes the filler; any other cell is unchanged |
| GapFill.SweepRow | Decoding/picture_recovery.py:19-27 | the inner loop fixes every cell of the row that needs it and counts them |
| GapFill.Sweep | Decoding/picture_recovery.py:18-27 | the nested loops fix every cell that needs it and count them |
| GapFill.FillIndividualNulls | Decoding/picture_recovery.py:12-29 | the shape is kept; a cell in columns 0-4 that is None, or whose stripped, lower-cased text is "" or "null", becomes the filler; every other cell is unchanged; the count is the number replaced |
| GapFill.FixLength | Decoding/picture_recovery.py:32-52 | the shape is kept; afterwards every cell of columns 0-4 has stripped length 90, or 77 in column 4; a cell already of the right length is kept verbatim, and a cell of the wrong length becomes 'G'×90, or 'G'×77 in column 4; the count is the number replaced |
| GapFill.SentinelPasses | Decoding/picture_recovery.py:21-26 | the filler needs neither sweep |
| GapFill.FixSettles | Decoding/picture_recovery.py:46-51 | a fixed cell needs no further fix, and fixing it again changes nothing |
| GapFill.SweptNone | Decoding/picture_recovery.py:18-27 | an array with nothing to fix is returned unchanged, with count 0 |
| GapFill.SweepIdempotent | Decoding/picture_recovery.py:35-51 | a second sweep changes nothing and counts 0 |
| GapFill.RowNeedsBound | Decoding/picture_recovery.py:21-26 | a row has at most five replacements, since only columns 0-4 are checked |
| GapFill.GridNeedsBound | Decoding/picture_recovery.py:18-27 | a sweep replaces at most five cells per row |
| RasterDecoder.DecodeChunk | Decoding/to_picture.py:185-203 | every group gives exactly 8 bits and one error for each unreadable field: the first letter (any case) not a nucleotide, [1:3] not a codeword, [3:5] not a codeword |
| RasterDecoder.ChunkFields | Decoding/to_picture.py:186-203 | the bits are the three fields' lookups, with '00' and '000' for an unreadable field |
| RasterDecoder.ChunkRoundTrip | Decoding/to_picture.py:185-203 | decoding the encoder's packing of an 8-bit group gives the group back with no error |
| RasterDecoder.ChunkReencode | Decoding/to_picture.py:185-203 | a five-letter upper-case group that decodes without error is the packing of its bits |
| RasterDecoder.DecodeChunks | Decoding/to_picture.py:182-205 | a row's groups give 8 bits each; the error total is the sum over the groups of their unreadable fields, at most 3 each |
| RasterDecoder.DecodeChunksBits | Decoding/to_picture.py:203-205 | the bits of a list of groups are the join of each group's bits |
| RasterDecoder.DecodeChunksClean | Decoding/to_picture.py:185-203 | a list of groups has no error exactly when no group has one |
| RasterDecoder.ChunksRoundTrip | Decoding/to_picture.py:182-205 | decoding the packings of 8-bit groups gives their join with no error |
| RasterDecoder.DecodeRowText | Decoding/to_picture.py:179-212 | succeeds exactly when the row has at least 437 letters and letters 435 and 436 are upper-case nucleotides, else TypeError; gives 700 bits and counts the unreadable fields of the groups of row[0:435] |
| RasterDecoder.RowTextOf | Decoding/to_picture.py:181-211 | a 437-letter row decodes as its 87 groups' bits and errors, then the bits of its two tail letters |
| RasterDecoder.RowRoundTrip | Decoding/to_picture.py:177-212 | decoding the encoder's packing of a 700-bit row gives the row back with no error |
| RasterDecoder.RowReencode | Decoding/to_picture.py:177-212 | an upper-case 437-letter row always decodes, and if it decodes without error it is the packing of its bits |
| RasterDecoder.DecodeRow | Decoding/to_picture.py:178-179 | a joined matrix row that decodes gives 700 bits and counts the unreadable group fields of the joined row |
| RasterDecoder.DecodeRows | Decoding/to_picture.py:177-212 | the row loop gives one result per row, or fails with IndexError or TypeError |
| RasterDecoder.DecodeRowsMeaning | Decoding/to_picture.py:177-212 | the loop over n rows succeeds exactly when there are at least n rows (later rows are ignored) and the first n each decode, with each row's result in order |
| RasterDecoder.DecodeRowsAll | Decoding/to_picture.py:177-212 | rows that each decode to their entry of a list decode together to that list |
| RasterDecoder.DecodedRows | Decoding/to_picture.py:177-212 | the loop's results are the 341 rows' results, each 700 bits |
| RasterDecoder.FillMatrix | Decoding/to_picture.py:80-94 | succeeds exactly on 341 strings of 700 characters (else ValueError), giving a 341 x 350 grid of 2-character cells whose join per row is the input string |
| RasterDecoder.Pairs | Decoding/to_picture.py:89-93 | cell j is characters 2j and 2j+1, and the cells join back to the row |
| RasterDecoder.RestoreRow | Decoding/to_picture.py:102-110 | succeeds exactly when the row reaches the width and every code up to it is in the table, giving the colour of each code |
| RasterDecoder.RestoreRows | Decoding/to_picture.py:102-112 | succeeds exactly when every row does, with each row's colours |
| RasterDecoder.RestorePixelMatrix | Decoding/to_picture.py:96-112 | succeeds exactly when every row reaches the first row's width with every code in the colour table; then the same number of rows, each as wide as the first, every pixel the colour of the code at its position |
| RasterDecoder.ErrorSumZero | Decoding/to_picture.py:190-201 | the total error count is 0 exactly when no row has an error |
| RasterDecoder.PairsAreCodes | Decoding/to_picture.py:105-107 | every pair of a bit string is a code of the colour table |
| RasterDecoder.RestorePairs | Decoding/to_picture.py:102-110 | the pairs of a 700-bit row restore to 350 colours, the colour of each pair |
| RasterDecoder.RasterCodes | Decoding/to_picture.py:214-215 | 341 rows of 700 bits always fill the matrix and restore to 341 x 350 pixels, each the colour of its pair |
| RasterDecoder.DecodeRaster | Decoding/to_picture.py:177-215 | succeeds exactly when there are at least 341 rows (later rows are ignored) and the first 341 each decode (else IndexError or TypeError); 341 x 350 pixels; the count is the total of unreadable group fields over the 341 rows, 0 exactly when no row has an error |
| RasterDecoder.RasterPixels | Decoding/to_picture.py:177-215 | each decoded pixel is the colour of the matching pair of its row's bits |
| EndToEnd.CsvCell | Decoding/recovery.py:95-97 | a cell written and read back through CSV is its text, or "" for None |
| EndToEnd.CsvGrid | Decoding/recovery.py:95-97 | the matrix read back through CSV, cell by cell, in the same shape |
| EndToEnd.EncodedRows | Encoding/encoding.py:306-331 | for a clean image: each row's codes are 700 bits packing to a 437-letter strand, and the encoder's pool is that of the strands |
| EndToEnd.PoolOrder | Encoding/encoding.py:362-369 | the pool read row by row is the list of oligos in the order made |
| EndToEnd.PoolReads | Encoding/encoding.py:331-364 | for 341 strands, oligo 5i+j is the address of (i+1, j+1) followed by piece j of strand i |
| EndToEnd.PrefixedGrid | Encoding/encoding.py:362-363 | for 341 rows of five payloads, oligo 5i+j is the address of (i+1, j+1) followed by payload (i, j) |
| EndToEnd.PiecesOfRows | Encoding/encoding.py:332 | each split strand has five payloads, payload j being piece j |
| EndToEnd.PieceOf | Encoding/encoding.py:236-242 | a 437-letter strand splits into exactly its five pieces |
| EndToEnd.ReadAddress | Decoding/recovery.py:53-91 | the reader sends the oligo of cell (i, j) to cell (i, j) |
| EndToEnd.ReadOf | Decoding/recovery.py:85-87 | the oligo of (i, j) is kept in (i, j) with its payload intact, and is one word |
| EndToEnd.ReadsStored | Decoding/recovery.py:23-92 | every oligo of a pool laid out by the encoder is a single word kept in its own cell with its piece as payload |
| EndToEnd.PlacedMatrix | Decoding/recovery.py:53-92 | 1705 reads, one keepable read per cell in row-major order, fill every cell with its read's payload, with score 0 and count 1705 |
| EndToEnd.FirstPlaced | Decoding/recovery.py:86-87 | no earlier read is kept in a cell than the read of that cell |
| EndToEnd.ReadsRecovered | Decoding/recovery.py:12-92 | after a header, one keepable single-word read per cell in order gives a full matrix, score 0 and count 1705 |
| EndToEnd.ReadBack | Decoding/recovery.py:12-92 | the reader given the encoder's pool one oligo per line fills each cell with its piece, with score 0 and count 1705 |
| EndToEnd.CleanCell | Decoding/picture_recovery.py:12-52 | a nucleotide payload of its column's length needs neither sweep |
| EndToEnd.NothingToFill | Decoding/picture_recovery.py:12-52 | on the matrix read back from the encoder's pool, neither sweep changes anything or counts anything |
| EndToEnd.CsvRows | Decoding/to_picture.py:169-179 | the CSV hand-off of that matrix gives each strand's 90-letter split |
| EndToEnd.PixelOfCodes | Encoding/encoding.py:177-181 | the two bits of pixel x in a row's joined codes spell that pixel's colour |
| EndToEnd.DecodedMatrix | Decoding/to_picture.py:177-212 | the matrix rows the reader hands on decode to the image's bits with no error |
| EndToEnd.DecodedRowOf | Decoding/to_picture.py:178-212 | the 90-letter split of a packed row decodes to the row's bits with no error |
| EndToEnd.PixelsMatch | Decoding/to_picture.py:96-112 | pixels spelled by the pairs of each row's colour codes are the image's pixels |
| EndToEnd.DecodeBack | Decoding/to_picture.py:167-215 | the decoder turns the matrix back into the image, with error count 0 |
| EndToEnd.ImageRoundTrip | Encoding/encoding.py:285-369 | a clean 341 x 350 image encodes; its 1705 oligos read back after any header line with score 0 and count 1705; both sweeps do nothing; the decoder gives back the image with error count 0 |

## Left out

- Image files (PIL `Image.open`, `getpixel`, `putpixel`, `show`, `save`): the image is an in-memory grid of `Rgb`. `restore_image` is not modelled.
- The second `process_image` in `Decoding/to_picture.py` is not modelled. It is a copy of the encoder's, and is used only by commented-out code.
- CSV and text-file I/O, `numpy.array` construction and `print`: the reader takes the file as a list of lines, and the CSV hand-offs are grids of strings (`EndToEnd.CsvCell`). A matrix of ragged CSV rows is not modelled: NumPy would not build a two-dimensional array from it, so `GapFill` requires a rectangular array.
- NumPy's fixed-width string cells: `np.array(rows)` gives every cell the width of the longest text read, and a filler assigned into a narrower array would be cut to that width. The model stores the whole filler.
- The manual hand-off between stages: the output of the gap filler (`matrix_del_d2.csv`) is not the file `to_picture.py` reads (`matrix_tmp.csv`). `EndToEnd` joins the stages directly.
- The commented-out error-rate comparison at the end of `Decoding/to_picture.py`: it uses file I/O and floating-point division.
- `int()` accepts anything beyond the bare bit and digit strings (signs, underscores, surrounding whitespace, a `0b` prefix for base 2, so the middle field `0b1` of `000b1111` parses to 1, and non-ASCII decimal digits): the model's `int(s, 2)` and `int(c)` accept only the bit strings and ASCII digits and raise ValueError on the rest.
- `str.upper` and `str.lower` are modelled on ASCII letters only; other characters do not map to a nucleotide letter either way.
- `zfill` of a signed number is not modelled: tags are built from natural numbers.
- Tables.PairColor: reads any character other than '0' as the bit 1, which matters only for characters that are not bits; every use is on bit strings.
- RasterDecoder.DecodeRows: evaluates the rows present before raising IndexError for the first missing one. The source raises IndexError when it reaches the first missing row. Either way the result is the fault of the first failing row: a decoding fault before the missing row, or IndexError.
- The end-to-end chain reads each oligo once, in pool order. Reads lost, duplicated, reordered or corrupted are covered only by the per-read lemmas of `Reconstructor` and by the sweeps' lemmas, not by a round-trip theorem.
- Addressing.AddressRoundTrip: stated for row < 1000 and col < 10, where the tag has four digits; a row of 1000 or more, or a column of 10 or more, gives a five-digit tag whose last digit the address drops.

=== FILE: addressing.dfy ===
/** The strand address: a (row, column) tag written as four BCD digits,
    i.e. 16 bits, packed [2,3,3,2,3,3] into 10 nucleotides by the encoder
    (Encoding/encoding.py) and unpacked by the pool reader (Decoding/recovery.py). */
module Addressing {
  import opened Results
  import opened Seqs
  import opened PyStr
  import opened Tables
  import Packer

  /** One entry of generate_indexed_list: `str(row).zfill(3)` followed by `str(col)`. */
  function Label(row: nat, col: nat): (r: string)
    ensures IsDigits(r) && |r| >= 4
  {
    ZFill(DecimalString(row), 3) + DecimalString(col)
  }

  /** `bin(int(c))[2:].zfill(4)` for one character; `int` raises ValueError on a non-digit. */
  function DigitBits(c: char): (r: Option<string>)
    ensures r.Some? <==> IsDigit(c)
    ensures r.Some? ==> |r.value| == 4 && IsBits(r.value) && BitsValue(r.value) == DigitValue(c)
  {
    if IsDigit(c) then
      ZFillValue(BinaryString(DigitValue(c)), 4);
      Some(ZFill(BinaryString(DigitValue(c)), 4))
    else None
  }

  /** string_to_binary: the 4-bit spelling of every character of a tag; the
      comprehension raises at a non-digit, which yields None here. */
  function StringToBinary(s: string): (r: Option<seq<string>>)
    ensures r.Some? <==> IsDigits(s)
    ensures r.Some? ==> |r.value| == |s|
  {
    if |s| == 0 then Some([])
    else
      var first, rest := DigitBits(s[0]), StringToBinary(s[1..]);
      assert forall k :: 1 <= k < |s| ==> s[k] == s[1..][k - 1];
      if first.None? || rest.None? then None else Some([first.value] + rest.value)
  }

  /** Entry k of string_to_binary is the four bits of digit k. */
  lemma {:induction false} StringToBinaryDigits(s: string)
    ensures StringToBinary(s).Some? ==> forall k :: 0 <= k < |s| ==>
              var b := StringToBinary(s).value[k]; |b| == 4 && IsBits(b) && BitsValue(b) == DigitValue(s[k])
  {
    if |s| > 0 && StringToBinary(s).Some? {
      StringToBinaryDigits(s[1..]);
      var r, rest := StringToBinary(s).value, StringToBinary(s[1..]).value;
      assert r == [DigitBits(s[0]).value] + rest;
      forall k | 0 <= k < |s|
        ensures |r[k]| == 4 && IsBits(r[k]) && BitsValue(r[k]) == DigitValue(s[k])
      {
        if k > 0 {
          assert r[k] == rest[k - 1] && s[k] == s[1..][k - 1];
        }
      }
    }
  }

  /** The ten nucleotides of an address have the shape 1,2,2,1,2,2: a nucleotide,
      two codewords, a nucleotide, two codewords. */
  predicate AddressShaped(s: string) {
    && |s| >= 10
    && IsNucleotide(s[0]) && s[1..3] in Codewords && s[3..5] in Codewords
    && IsNucleotide(s[5]) && s[6..8] in Codewords && s[8..10] in Codewords
  }

  /** encoding.py:345-358: the six fields [0:2], [2:5], [5:8], [8:10], [10:13],
      [13:16] through xuhao_binary / xuhao_threebits; None where a field is not
      in its table (the source's join then raises TypeError). */
  function PackAddressBits(bits: string): (r: Option<string>)
    ensures IsBits(bits) ==> (r.Some? <==> |bits| >= 16)
    ensures r.Some? ==> |r.value| == 10 && AddressShaped(r.value)
  {
    var a, b, c := NucleotideOfBits(Slice(bits, 0, 2)), DinucleotideOfBits(Slice(bits, 2, 5)), DinucleotideOfBits(Slice(bits, 5, 8));
    var d, e, f := NucleotideOfBits(Slice(bits, 8, 10)), DinucleotideOfBits(Slice(bits, 10, 13)), DinucleotideOfBits(Slice(bits, 13, 16));
    AddressFieldsDefined(bits);
    if a.None? || b.None? || c.None? || d.None? || e.None? || f.None? then None
    else
      var r := a.value + b.value + c.value + d.value + e.value + f.value;
      assert r[1..3] == b.value && r[3..5] == c.value && r[6..8] == e.value && r[8..10] == f.value;
      Some(r)
  }

  lemma AddressFieldsDefined(bits: string)
    ensures IsBits(bits) && |bits| >= 16 ==>
              && NucleotideOfBits(Slice(bits, 0, 2)).Some? && DinucleotideOfBits(Slice(bits, 2, 5)).Some?
              && DinucleotideOfBits(Slice(bits, 5, 8)).Some? && NucleotideOfBits(Slice(bits, 8, 10)).Some?
              && DinucleotideOfBits(Slice(bits, 10, 13)).Some? && DinucleotideOfBits(Slice(bits, 13, 16)).Some?
    ensures |bits| < 16 ==> DinucleotideOfBits(Slice(bits, 13, 16)).None?
  {
    if IsBits(bits) && |bits| >= 16 {
      NucleotideOfBitsAgrees(bits[0..2]);
      DinucleotideOfBitsAgrees(bits[2..5]);
      DinucleotideOfBitsAgrees(bits[5..8]);
      NucleotideOfBitsAgrees(bits[8..10]);
      DinucleotideOfBitsAgrees(bits[10..13]);
      DinucleotideOfBitsAgrees(bits[13..16]);
    }
  }

  /** The encoder's address for one tag (encoding.py:340-359): string_to_binary,
      joined, then packed. A non-digit raises ValueError; a tag shorter than four
      digits leaves a field empty and the join raises TypeError. */
  function AddressOfLabel(tag: string): (r: Result<string>)
    ensures r.Ok? <==> IsDigits(tag) && |tag| >= 4
    ensures r.Err? ==> (r.fault == ValueError <==> !IsDigits(tag))
    ensures r.Err? ==> r.fault == ValueError || r.fault == TypeError
    ensures r.Ok? ==> |r.value| == 10 && AddressShaped(r.value)
  {
    match StringToBinary(tag)
    case None => Err(ValueError)
    case Some(tmp) =>
      LabelBits(tag, tmp);
      match PackAddressBits(Flatten(tmp))
      case None => Err(TypeError)
      case Some(a) => Ok(a)
  }

  lemma LabelBits(tag: string, tmp: seq<string>)
    requires StringToBinary(tag) == Some(tmp)
    ensures IsBits(Flatten(tmp)) && |Flatten(tmp)| == 4 * |tag|
  {
    StringToBinaryDigits(tag);
    assert Uniform(tmp, 4);
    FlattenUniformLength(tmp, 4);
    Packer.IsBitsFlatten(tmp);
  }

  /** The encoder's address of cell (row, col), both counted from 1. */
  function EncodeAddress(row: nat, col: nat): (r: Result<string>)
    ensures r.Ok? && |r.value| == 10 && AddressShaped(r.value)
  {
    AddressOfLabel(Label(row, col))
  }

  // Decoding (recovery.py)

  /** recovery.py:55-77: the six address fields seq[0:1], seq[1:3], seq[3:5],
      seq[5:6], seq[6:8], seq[8:10] through xuhao_binary / threebits_xuhao, joined;
      None where a field is not in its table (the source catches the TypeError). */
  function AddressBits(read: string): (r: Option<string>)
    ensures r.Some? <==> AddressShaped(read)
    ensures r.Some? ==> |r.value| == 16 && IsBits(r.value)
  {
    var a, b, c := BitsOfNucleotide(Slice(read, 0, 1)), BitsOfDinucleotide(Slice(read, 1, 3)), BitsOfDinucleotide(Slice(read, 3, 5));
    var d, e, f := BitsOfNucleotide(Slice(read, 5, 6)), BitsOfDinucleotide(Slice(read, 6, 8)), BitsOfDinucleotide(Slice(read, 8, 10));
    if a.None? || b.None? || c.None? || d.None? || e.None? || f.None? then None
    else
      var r := a.value + b.value + c.value + d.value + e.value + f.value;
      IsBitsAppend(a.value, b.value);
      IsBitsAppend(a.value + b.value, c.value);
      IsBitsAppend(a.value + b.value + c.value, d.value);
      IsBitsAppend(a.value + b.value + c.value + d.value, e.value);
      IsBitsAppend(a.value + b.value + c.value + d.value + e.value, f.value);
      Some(r)
  }

  /** `seq[10:]`: what follows the 10-nucleotide address of an oligo (recovery.py:87). */
  function Payload(oligo: string): (r: string)
    ensures |oligo| >= 10 ==> oligo[..10] + r == oligo
    ensures |oligo| < 10 ==> r == []
  {
    Slice(oligo, 10, |oligo|)
  }

  /** A decoded (row, column), before the matrix index is taken. */
  datatype Coord = Coord(row: int, col: int)

  /** Sixteen bits regroup into four 4-bit digits. */
  lemma Chunks16(bits: string)
    requires |bits| == 16
    ensures Chunks(bits, 4) == [bits[0..4], bits[4..8], bits[8..12], bits[12..16]]
  {
    var g0, g1, g2, g3 := bits[0..4], bits[4..8], bits[8..12], bits[12..16];
    assert bits == g0 + (g1 + (g2 + g3));
    ChunksCons(g0, g1 + (g2 + g3), 4);
    ChunksCons(g1, g2 + g3, 4);
    ChunksCons(g2, g3, 4);
    assert Chunks(g3, 4) == [g3];
  }

  /** recovery.py:79-83: the four digits of the 16 address bits, each 0..15. */
  function AddressDigits(read: string): (r: Option<seq<nat>>)
    ensures r.Some? <==> AddressShaped(read)
    ensures r.Some? ==> |r.value| == 4 && forall k :: 0 <= k < 4 ==> r.value[k] < 16
  {
    match AddressBits(read)
    case None => None
    case Some(bits) =>
      Chunks16(bits);
      var groups := Chunks(bits, 4);
      BitsValueBound(groups[0]); BitsValueBound(groups[1]);
      BitsValueBound(groups[2]); BitsValueBound(groups[3]);
      assert Pow2(4) == 16;
      Some([BitsValue(groups[0]), BitsValue(groups[1]), BitsValue(groups[2]), BitsValue(groups[3])])
  }

  /** recovery.py:53-83: row = d0*100 + d1*10 + d2 and col = d3 (each digit may be 10..15). */
  function DecodeAddress(read: string): (r: Option<Coord>)
    ensures r.Some? <==> AddressShaped(read)
    ensures r.Some? ==> 0 <= r.value.row <= 1665 && 0 <= r.value.col <= 15
  {
    match AddressDigits(read)
    case None => None
    case Some(d) => Some(Coord(d[0] * 100 + d[1] * 10 + d[2], d[3]))
  }

  /** The decoder reads nothing beyond the first ten nucleotides of an oligo. */
  lemma DecodeAddressPrefix(s: string)
    requires |s| >= 10
    ensures AddressShaped(s) <==> AddressShaped(s[..10])
    ensures AddressBits(s) == AddressBits(s[..10])
    ensures DecodeAddress(s) == DecodeAddress(s[..10])
  {
    var t := s[..10];
    assert s[1..3] == t[1..3] && s[3..5] == t[3..5] && s[6..8] == t[6..8] && s[8..10] == t[8..10];
    assert Slice(s, 0, 1) == Slice(t, 0, 1) && Slice(s, 1, 3) == Slice(t, 1, 3) && Slice(s, 3, 5) == Slice(t, 3, 5);
    assert Slice(s, 5, 6) == Slice(t, 5, 6) && Slice(s, 6, 8) == Slice(t, 6, 8) && Slice(s, 8, 10) == Slice(t, 8, 10);
  }

  // Round trips

  /** The ten letters packed from 16 bits, field by field. */
  lemma PackedFields(bits: string)
    requires |bits| == 16 && IsBits(bits)
    ensures PackAddressBits(bits).Some?
    ensures var a := PackAddressBits(bits).value;
      && a[0..1] == NucleotideOfBits(bits[0..2]).value && a[1..3] == DinucleotideOfBits(bits[2..5]).value
      && a[3..5] == DinucleotideOfBits(bits[5..8]).value && a[5..6] == NucleotideOfBits(bits[8..10]).value
      && a[6..8] == DinucleotideOfBits(bits[10..13]).value && a[8..10] == DinucleotideOfBits(bits[13..16]).value
  {
    AddressFieldsDefined(bits);
    var a := PackAddressBits(bits).value;
    assert a[0..1] == NucleotideOfBits(bits[0..2]).value;
    assert a[5..6] == NucleotideOfBits(bits[8..10]).value;
  }

  /** Ten letters whose fields read as six bit strings read as their join. */
  lemma FieldsRead(a: string, f0: string, f1: string, f2: string, f3: string, f4: string, f5: string)
    requires |a| == 10
    requires BitsOfNucleotide(a[0..1]) == Some(f0) && BitsOfDinucleotide(a[1..3]) == Some(f1)
    requires BitsOfDinucleotide(a[3..5]) == Some(f2) && BitsOfNucleotide(a[5..6]) == Some(f3)
    requires BitsOfDinucleotide(a[6..8]) == Some(f4) && BitsOfDinucleotide(a[8..10]) == Some(f5)
    ensures AddressBits(a) == Some(f0 + f1 + f2 + f3 + f4 + f5)
  {
  }

  /** Unpacking the packed fields of 16 bits gives the 16 bits back. */
  lemma PackUnpackBits(bits: string)
    requires |bits| == 16 && IsBits(bits)
    ensures PackAddressBits(bits).Some?
    ensures AddressBits(PackAddressBits(bits).value) == Some(bits)
  {
    var f0, f1, f2, f3, f4, f5 := bits[0..2], bits[2..5], bits[5..8], bits[8..10], bits[10..13], bits[13..16];
    PackedFields(bits);
    NucleotideRoundTrip(f0); DinucleotideRoundTrip(f1); DinucleotideRoundTrip(f2);
    NucleotideRoundTrip(f3); DinucleotideRoundTrip(f4); DinucleotideRoundTrip(f5);
    FieldsRead(PackAddressBits(bits).value, f0, f1, f2, f3, f4, f5);
    SixFields(bits);
  }

  /** The tag of (row, col) spells the BCD digits of row and col. */
  lemma LabelDigits(row: nat, col: nat)
    requires row < 1000 && col < 10
    ensures Label(row, col) == [DigitChar(row / 100), DigitChar(row / 10 % 10), DigitChar(row % 10), DigitChar(col)]
  {
    ZFill3(row);
  }

  lemma Flatten4(gs: seq<string>)
    requires |gs| == 4
    ensures Flatten(gs) == gs[0] + gs[1] + gs[2] + gs[3]
  {
    var t1 := gs[1..];
    var t2 := t1[1..];
    var t3 := t2[1..];
    assert Flatten(t3[1..]) == [];
    assert Flatten(t3) == gs[3];
    assert Flatten(t2) == gs[2] + gs[3];
    assert Flatten(t1) == gs[1] + (gs[2] + gs[3]);
  }

  /** The 16 bits of a four-digit tag regroup into its four digits. */
  lemma TagGroups(tag: string) returns (bits: string)
    requires |tag| == 4 && IsDigits(tag)
    ensures StringToBinary(tag).Some?
    ensures bits == Flatten(StringToBinary(tag).value)
    ensures |bits| == 16 && IsBits(bits)
    ensures BitsValue(bits[0..4]) == DigitValue(tag[0]) && BitsValue(bits[4..8]) == DigitValue(tag[1])
    ensures BitsValue(bits[8..12]) == DigitValue(tag[2]) && BitsValue(bits[12..16]) == DigitValue(tag[3])
  {
    var tmp := StringToBinary(tag).value;
    LabelBits(tag, tmp);
    StringToBinaryDigits(tag);
    bits := Flatten(tmp);
    FourGroups(tmp);
  }

  /** Four groups of four, joined, are cut back at 4, 8 and 12. */
  lemma FourGroups(gs: seq<string>)
    requires |gs| == 4 && forall k :: 0 <= k < 4 ==> |gs[k]| == 4
    ensures var f := Flatten(gs);
      |f| == 16 && f[0..4] == gs[0] && f[4..8] == gs[1] && f[8..12] == gs[2] && f[12..16] == gs[3]
  {
    Flatten4(gs);
    var a, b, c, d := gs[0], gs[1], gs[2], gs[3];
    var f := a + b + c + d;
    assert |a| == 4 && |b| == 4 && |c| == 4 && |d| == 4;
    assert f[0..4] == a;
    assert f[4..8] == b;
    assert f[8..12] == c;
    assert f[12..16] == d;
  }

  /** Sixteen bits are the join of their six address fields. */
  lemma SixFields(bits: string)
    requires |bits| == 16
    ensures bits == bits[0..2] + bits[2..5] + bits[5..8] + bits[8..10] + bits[10..13] + bits[13..16]
  {
  }

  /** The 16 address bits of (row, col) regroup into its four decimal digits. */
  lemma LabelGroups(row: nat, col: nat) returns (bits: string)
    requires row < 1000 && col < 10
    ensures StringToBinary(Label(row, col)).Some?
    ensures bits == Flatten(StringToBinary(Label(row, col)).value)
    ensures |bits| == 16 && IsBits(bits)
    ensures BitsValue(bits[0..4]) == row / 100 && BitsValue(bits[4..8]) == row / 10 % 10
    ensures BitsValue(bits[8..12]) == row % 10 && BitsValue(bits[12..16]) == col
  {
    var h, t, u := row / 100, row / 10 % 10, row % 10;
    var tag := Label(row, col);
    LabelDigits(row, col);
    assert tag == [DigitChar(h), DigitChar(t), DigitChar(u), DigitChar(col)];
    bits := TagGroups(tag);
    DigitOfChar(h); DigitOfChar(t); DigitOfChar(u); DigitOfChar(col);
  }

  lemma DigitOfChar(d: nat)
    requires d < 10
    ensures DigitValue(DigitChar(d)) == d
  {
  }

  /** The digits of an address are the values of the four 4-bit groups of its bits. */
  lemma DigitsOfBits(a: string, bits: string)
    requires AddressBits(a) == Some(bits)
    ensures AddressDigits(a) == Some([BitsValue(bits[0..4]), BitsValue(bits[4..8]), BitsValue(bits[8..12]), BitsValue(bits[12..16])])
  {
    Chunks16(bits);
  }

  /** The encoder's address of (row, col) is the packing of its 16 label bits. */
  lemma EncodedBits(row: nat, col: nat) returns (bits: string)
    requires row < 1000 && col < 10
    ensures |bits| == 16 && IsBits(bits) && PackAddressBits(bits).Some?
    ensures EncodeAddress(row, col) == Ok(PackAddressBits(bits).value)
    ensures BitsValue(bits[0..4]) * 100 + BitsValue(bits[4..8]) * 10 + BitsValue(bits[8..12]) == row
    ensures BitsValue(bits[12..16]) == col
  {
    bits := LabelGroups(row, col);
    AddressFieldsDefined(bits);
    Decimal3(row);
  }

  lemma DecodeOfDigits(a: string, ds: seq<nat>, row: nat, col: nat)
    requires AddressDigits(a) == Some(ds) && |ds| == 4
    requires ds[0] * 100 + ds[1] * 10 + ds[2] == row && ds[3] == col
    ensures DecodeAddress(a) == Some(Coord(row, col))
  {
  }

  lemma Decimal3(row: nat)
    requires row < 1000
    ensures (row / 100) * 100 + (row / 10 % 10) * 10 + row % 10 == row
  {
  }

  /** The packed fields of 16 bits decode to the row and column their digits spell. */
  lemma DecodePacked(bits: string, row: nat, col: nat)
    requires |bits| == 16 && IsBits(bits)
    requires BitsValue(bits[0..4]) * 100 + BitsValue(bits[4..8]) * 10 + BitsValue(bits[8..12]) == row
    requires BitsValue(bits[12..16]) == col
    ensures PackAddressBits(bits).Some?
    ensures DecodeAddress(PackAddressBits(bits).value) == Some(Coord(row, col))
  {
    var v0, v1, v2, v3 := BitsValue(bits[0..4]), BitsValue(bits[4..8]), BitsValue(bits[8..12]), BitsValue(bits[12..16]);
    PackUnpackBits(bits);
    var a := PackAddressBits(bits).value;
    DigitsOfBits(a, bits);
    assert AddressDigits(a) == Some([v0, v1, v2, v3]);
    DecodeOfDigits(a, [v0, v1, v2, v3], row, col);
  }

  /** Decoding the encoder's address of (row, col) gives (row, col) back, for every
      row of at most three digits and column of one digit. */
  lemma AddressRoundTrip(row: nat, col: nat)
    requires row < 1000 && col < 10
    ensures DecodeAddress(EncodeAddress(row, col).value) == Some(Coord(row, col))
  {
    var bits := EncodedBits(row, col);
    DecodePacked(bits, row, col);
  }
}

=== FILE: assembler.dfy ===
/** The encoder's main flow (Encoding/encoding.py): pixels become 2-bit colour
    codes, every image row becomes a 437-nucleotide strand, the strands are cut
    into 90-nucleotide payloads, each payload is prefixed with its 10-nucleotide
    address, and the oligos are grouped five to a row. */
module Assembler {
  import opened Results
  import opened Seqs
  import opened PyStr
  import opened Tables
  import opened Packer
  import opened Addressing

  /** Rows of pixels, top to bottom. */
  type Image = seq<seq<Rgb>>

  predicate InPalette(img: Image) {
    forall i, j :: 0 <= i < |img| && 0 <= j < |img[i]| ==> img[i][j] in ColorEncoding
  }

  /** process_image for one row: the code of every pixel, or ValueError at the
      first pixel outside the four-colour palette. */
  function PixelRowCodes(row: seq<Rgb>): (r: Result<seq<string>>)
    ensures r.Ok? <==> forall j :: 0 <= j < |row| ==> row[j] in ColorEncoding
    ensures r.Err? ==> r.fault == ValueError
    ensures r.Ok? ==> |r.value| == |row|
    ensures r.Ok? ==> forall j :: 0 <= j < |row| ==> r.value[j] in CodeToColor && CodeToColor[r.value[j]] == row[j]
  {
    ColorTables();
    if |row| == 0 then Ok([])
    else if row[0] !in ColorEncoding then Err(ValueError)
    else
      assert forall j :: 1 <= j < |row| ==> row[j] == row[1..][j - 1];
      var rest :- PixelRowCodes(row[1..]);
      Ok([ColorEncoding[row[0]]] + rest)
  }

  /** process_image (encoding.py:164-186): the codes of every row. */
  function PixelsToCodes(img: Image): (r: Result<seq<seq<string>>>)
    ensures r.Ok? <==> InPalette(img)
    ensures r.Err? ==> r.fault == ValueError
    ensures r.Ok? ==> |r.value| == |img|
    ensures r.Ok? ==> forall i :: 0 <= i < |img| ==> r.value[i] == PixelRowCodes(img[i]).value
  {
    if |img| == 0 then Ok([])
    else
      var first, rest := PixelRowCodes(img[0]), PixelsToCodes(img[1..]);
      assert forall i :: 1 <= i < |img| ==> img[i] == img[1..][i - 1];
      if first.Err? then Err(first.fault)
      else if rest.Err? then Err(rest.fault)
      else Ok([first.value] + rest.value)
  }

  /** The strand of every row (encoding.py:310-328); the first row that fails to
      pack stops the encoder with that row's error. */
  function PackRows(codes: seq<seq<string>>): (r: Result<seq<string>>)
    ensures r.Ok? <==> forall i :: 0 <= i < |codes| ==> PackRow(Flatten(codes[i])).Ok?
    ensures r.Err? ==> exists i :: 0 <= i < |codes| && PackRow(Flatten(codes[i])) == Err(r.fault)
                                && forall k :: 0 <= k < i ==> PackRow(Flatten(codes[k])).Ok?
    ensures r.Ok? ==> |r.value| == |codes|
    ensures r.Ok? ==> forall i :: 0 <= i < |codes| ==> r.value[i] == PackRow(Flatten(codes[i])).value
  {
    var rs := RowPackings(codes);
    AllOkMeaning(rs);
    AllOk(rs)
  }

  /** The packing of each row's joined codes, in order. */
  function RowPackings(codes: seq<seq<string>>): (r: seq<Result<string>>)
    ensures |r| == |codes| && forall i :: 0 <= i < |codes| ==> r[i] == PackRow(Flatten(codes[i]))
  {
    seq(|codes|, i requires 0 <= i < |codes| => PackRow(Flatten(codes[i])))
  }

  /** split_matrix_rows (encoding.py:236-242) with chunk size 90. */
  function SplitRows(m: seq<string>): (r: seq<seq<string>>)
    ensures |r| == |m|
    ensures forall i :: 0 <= i < |m| ==> r[i] == Chunks(m[i], 90)
  {
    seq(|m|, i requires 0 <= i < |m| => Chunks(m[i], 90))
  }

  /** The labels of generate_indexed_list (encoding.py:245-256), one per chunk, in the shape of the chunks. */
  function LabelGrid(y: seq<seq<string>>): (r: seq<seq<string>>)
    ensures |r| == |y|
    ensures forall i :: 0 <= i < |y| ==> |r[i]| == |y[i]|
    ensures forall i, j :: 0 <= i < |y| && 0 <= j < |y[i]| ==> r[i][j] == Label(i + 1, j + 1)
  {
    seq(|y|, i requires 0 <= i < |y| => seq(|y[i]|, j requires 0 <= j < |y[i]| => Label(i + 1, j + 1)))
  }

  function IndexedList(y: seq<seq<string>>): seq<string> {
    Flatten(LabelGrid(y))
  }

  /** The address loop (encoding.py:340-359) over all labels. */
  function AddressesOf(tags: seq<string>): (r: Result<seq<string>>)
    ensures r.Ok? <==> forall k :: 0 <= k < |tags| ==> AddressOfLabel(tags[k]).Ok?
    ensures r.Ok? ==> |r.value| == |tags|
    ensures r.Ok? ==> forall k :: 0 <= k < |tags| ==> r.value[k] == AddressOfLabel(tags[k]).value
  {
    var rs := AddressResults(tags);
    AllOkMeaning(rs);
    AllOk(rs)
  }

  /** The address of each tag, in order. */
  function AddressResults(tags: seq<string>): (r: seq<Result<string>>)
    ensures |r| == |tags| && forall k :: 0 <= k < |tags| ==> r[k] == AddressOfLabel(tags[k])
  {
    seq(|tags|, k requires 0 <= k < |tags| => AddressOfLabel(tags[k]))
  }

  /** encoding.py:331-364: the joined strand cut into rows of 437, each cut into
      payloads of 90, every payload prefixed with its address, five oligos a row.
      Every label has an address, so this stage cannot fail. */
  function AssemblePool(dna: string): seq<seq<string>> {
    Chunks(Oligos(dna), 5)
  }

  /** final_dna (encoding.py:331-363): every payload prefixed with its address. */
  function Oligos(dna: string): seq<string> {
    Prefixed(SplitRows(Chunks(dna, 437)))
  }

  /** The payloads of `y` in order, each prefixed with the address of its label. */
  function Prefixed(y: seq<seq<string>>): seq<string> {
    LabelsAreAddressable(y);
    PrependEach(Flatten(y), AddressesOf(IndexedList(y)).value)
  }

  /** Every label names an address: the address loop never fails. */
  lemma LabelsAreAddressable(y: seq<seq<string>>)
    ensures AddressesOf(IndexedList(y)).Ok?
    ensures |AddressesOf(IndexedList(y)).value| == |Flatten(y)|
  {
    var g := LabelGrid(y);
    LabelsAreDigits(g);
    FlattenSameLength(g, y);
  }

  lemma {:induction false} LabelsAreDigits(g: seq<seq<string>>)
    requires forall i, j :: 0 <= i < |g| && 0 <= j < |g[i]| ==> IsDigits(g[i][j]) && |g[i][j]| >= 4
    ensures forall k :: 0 <= k < |Flatten(g)| ==> IsDigits(Flatten(g)[k]) && |Flatten(g)[k]| >= 4
  {
    if |g| > 0 {
      LabelsAreDigits(g[1..]);
      assert Flatten(g) == g[0] + Flatten(g[1..]);
      forall k | 0 <= k < |Flatten(g)|
        ensures IsDigits(Flatten(g)[k]) && |Flatten(g)[k]| >= 4
      {
        if k >= |g[0]| {
          assert Flatten(g)[k] == Flatten(g[1..])[k - |g[0]|];
        }
      }
    }
  }

  /** Two grids of the same shape flatten to lists of the same length. */
  lemma {:induction false} FlattenSameLength<S, T>(a: seq<seq<S>>, b: seq<seq<T>>)
    requires |a| == |b| && forall i :: 0 <= i < |a| ==> |a[i]| == |b[i]|
    ensures |Flatten(a)| == |Flatten(b)|
  {
    if |a| > 0 {
      FlattenSameLength(a[1..], b[1..]);
    }
  }

  /** The whole encoder: an image to the oligo pool written to DNA.csv. */
  function EncodeImage(img: Image): (r: Result<seq<seq<string>>>)
    ensures !InPalette(img) ==> r == Err(ValueError)
    ensures InPalette(img) ==> (r.Ok? <==> PackRows(PixelsToCodes(img).value).Ok?)
  {
    var codes :- PixelsToCodes(img);
    var rows :- PackRows(codes);
    Ok(AssemblePool(Flatten(rows)))
  }

  // The pool's layout

  /** A 437-nucleotide strand cuts into four payloads of 90 and one of 77. */
  lemma StrandPayloads(s: string)
    requires |s| == 437
    ensures Chunks(s, 90) == [s[0..90], s[90..180], s[180..270], s[270..360], s[360..437]]
  {
    var p0, p1, p2, p3, p4 := s[0..90], s[90..180], s[180..270], s[270..360], s[360..437];
    assert s == p0 + (p1 + (p2 + (p3 + p4)));
    ChunksCons(p0, p1 + (p2 + (p3 + p4)), 90);
    ChunksCons(p1, p2 + (p3 + p4), 90);
    ChunksCons(p2, p3 + p4, 90);
    ChunksCons(p3, p4, 90);
  }

  /** The payloads of the strands, five to a strand. */
  lemma StrandGrid(rows: seq<string>)
    requires Uniform(rows, 437)
    ensures Chunks(Flatten(rows), 437) == rows
    ensures Uniform(SplitRows(rows), 5)
  {
    assert Uniform(rows, 437);
    ChunksOfFlatten(rows, 437);
    var y := SplitRows(rows);
    forall i | 0 <= i < |rows|
      ensures |y[i]| == 5
    {
      StrandPayloads(rows[i]);
    }
  }

  /** Element 5i+j of a list of 5k elements is element j of group i. */
  lemma GroupedAt(pre: seq<string>, k: nat, i: nat, j: nat, x: string)
    requires |pre| == 5 * k && i < k && j < 5 && pre[5 * i + j] == x
    ensures |Chunks(pre, 5)| == k && |Chunks(pre, 5)[i]| == 5 && Chunks(pre, 5)[i][j] == x
  {
    ChunkAt(pre, 5, k, i, j);
  }

  /** Label 5i+j of a grid five wide is that of (i+1, j+1). */
  lemma LabelAt(y: seq<seq<string>>, i: nat, j: nat)
    requires Uniform(y, 5) && i < |y| && j < 5
    ensures 5 * i + j < |IndexedList(y)| && IndexedList(y)[5 * i + j] == Label(i + 1, j + 1)
  {
    var g := LabelGrid(y);
    assert Uniform(g, 5);
    FlattenAt(g, 5, i, j);
  }

  /** In a grid of payloads five wide, oligo 5i+j is the address of (i+1, j+1)
      followed by payload j of row i. */
  lemma PrefixedAt(y: seq<seq<string>>, i: nat, j: nat)
    requires Uniform(y, 5) && i < |y| && j < 5
    ensures |Prefixed(y)| == 5 * |y|
    ensures Prefixed(y)[5 * i + j] == EncodeAddress(i + 1, j + 1).value + y[i][j]
  {
    LabelsAreAddressable(y);
    FlattenUniformLength(y, 5);
    FlattenAt(y, 5, i, j);
    LabelAt(y, i, j);
  }

  /** encoding.py:331-364 on whole strands: row i of the pool holds the five oligos
      of strand i, oligo j being the address of (i+1, j+1) and payload j. */
  lemma PoolCell(rows: seq<string>, i: nat, j: nat)
    requires Uniform(rows, 437)
    requires i < |rows| && j < 5
    ensures |AssemblePool(Flatten(rows))| == |rows|
    ensures |AssemblePool(Flatten(rows))[i]| == 5 && |Chunks(rows[i], 90)| == 5
    ensures AssemblePool(Flatten(rows))[i][j] == EncodeAddress(i + 1, j + 1).value + Chunks(rows[i], 90)[j]
  {
    var y := SplitRows(rows);
    StrandGrid(rows);
    var pre := Prefixed(y);
    assert AssemblePool(Flatten(rows)) == Chunks(pre, 5);
    PrefixedAt(y, i, j);
    GroupedAt(pre, |rows|, i, j, EncodeAddress(i + 1, j + 1).value + y[i][j]);
    StrandPayloads(rows[i]);
  }

  /** Oligo j of a row is 100 nucleotides long for j < 4 and 87 for the last. */
  lemma OligoLength(rows: seq<string>, i: nat, j: nat)
    requires Uniform(rows, 437)
    requires i < |rows| && j < 5
    ensures |AssemblePool(Flatten(rows))| == |rows| && |AssemblePool(Flatten(rows))[i]| == 5
    ensures |AssemblePool(Flatten(rows))[i][j]| == if j < 4 then 100 else 87
  {
    PoolCell(rows, i, j);
    StrandPayloads(rows[i]);
  }

  /** Joining the split rows' payloads gives the rows joined. */
  lemma {:induction false} FlattenSplitRows(m: seq<string>)
    ensures Flatten(Flatten(SplitRows(m))) == Flatten(m)
  {
    if |m| > 0 {
      assert SplitRows(m) == [Chunks(m[0], 90)] + SplitRows(m[1..]);
      FlattenAppend([Chunks(m[0], 90)], SplitRows(m[1..]));
      FlattenAppend(Chunks(m[0], 90), Flatten(SplitRows(m[1..])));
      ChunksJoin(m[0], 90);
      FlattenSplitRows(m[1..]);
    }
  }

  /** `seq[10:]` of every oligo. */
  function Payloads(oligos: seq<string>): (r: seq<string>)
    ensures |r| == |oligos| && forall k :: 0 <= k < |oligos| ==> r[k] == Payload(oligos[k])
  {
    seq(|oligos|, k requires 0 <= k < |oligos| => Payload(oligos[k]))
  }

  /** The addresses, in order, of a list of labels are all ten nucleotides long. */
  lemma AddressLengths(y: seq<seq<string>>)
    ensures var addrs := AddressesOf(IndexedList(y));
            && addrs.Ok? && |addrs.value| == |Flatten(y)|
            && forall k :: 0 <= k < |addrs.value| ==> |addrs.value[k]| == 10 && AddressShaped(addrs.value[k])
  {
    LabelsAreAddressable(y);
  }

  /** For any strand, however long: every oligo starts with a well-formed address. */
  lemma OligosAddressed(dna: string)
    ensures forall k :: 0 <= k < |Oligos(dna)| ==> |Oligos(dna)[k]| >= 10 && AddressShaped(Oligos(dna)[k])
  {
    var y := SplitRows(Chunks(dna, 437));
    AddressLengths(y);
    var addrs := AddressesOf(IndexedList(y)).value;
    forall k | 0 <= k < |Oligos(dna)|
      ensures |Oligos(dna)[k]| >= 10 && AddressShaped(Oligos(dna)[k])
    {
      var o := Oligos(dna)[k];
      assert o == addrs[k] + Flatten(y)[k];
      assert o[..10] == addrs[k];
      DecodeAddressPrefix(o);
    }
  }

  /** For any strand, however long: the payloads of the pool, in pool order, join
      back to the strand. */
  lemma PayloadsJoin(dna: string)
    ensures Flatten(Payloads(Flatten(AssemblePool(dna)))) == dna
  {
    var y := SplitRows(Chunks(dna, 437));
    AddressLengths(y);
    var strands := Oligos(dna);
    ChunksJoin(strands, 5);
    assert Payloads(strands) == Flatten(y);
    FlattenSplitRows(Chunks(dna, 437));
    ChunksJoin(dna, 437);
  }

  // Images the encoder accepts

  /** The joined codes of a row of palette pixels are two bits per pixel. */
  lemma RowBits(row: seq<Rgb>)
    requires PixelRowCodes(row).Ok?
    ensures var bits := Flatten(PixelRowCodes(row).value);
            |bits| == 2 * |row| && IsBits(bits)
  {
    var codes := PixelRowCodes(row).value;
    ColorTables();
    assert forall j :: 0 <= j < |codes| ==> |codes[j]| == 2 && IsBits(codes[j]);
    assert Uniform(codes, 2);
    FlattenUniformLength(codes, 2);
    IsBitsFlatten(codes);
  }

  /** An image of 350-pixel rows in the four-colour palette always encodes, one
      437-nucleotide strand per row. */
  lemma CleanImageEncodes(img: Image)
    requires InPalette(img)
    requires forall i :: 0 <= i < |img| ==> |img[i]| == 350
    ensures PackRows(PixelsToCodes(img).value).Ok?
    ensures var rows := PackRows(PixelsToCodes(img).value).value;
            && |rows| == |img| && Uniform(rows, 437)
            && EncodeImage(img) == Ok(AssemblePool(Flatten(rows)))
  {
    var codes := PixelsToCodes(img).value;
    forall i | 0 <= i < |codes|
      ensures PackRow(Flatten(codes[i])).Ok?
    {
      RowBits(img[i]);
    }
  }
}

=== FILE: endtoend.dfy ===
/** The whole pipeline: an image encoded into an oligo pool (encoding.py), the
    pool read back into the address matrix (recovery.py), the gaps filled
    (picture_recovery.py) and the matrix decoded into pixels (to_picture.py). */
module EndToEnd {
  import opened Results
  import opened Seqs
  import opened PyStr
  import opened Tables
  import opened Packer
  import opened Addressing
  import opened Assembler
  import opened Reconstructor
  import opened GapFill
  import opened RasterDecoder

  /** An image the codec is built for: 341 rows of 350 pixels in the four-colour palette. */
  predicate Clean(img: Image) {
    |img| == 341 && (forall y :: 0 <= y < 341 ==> |img[y]| == 350) && InPalette(img)
  }

  /** `csv.writer` writes an empty cell for `None`, and `csv.reader` reads it back as "". */
  function CsvCell(c: Cell): (r: string)
    ensures c.Some? ==> r == c.value
    ensures c.None? ==> r == ""
  {
    if c.Some? then c.value else ""
  }

  function CsvGrid(m: seq<seq<Cell>>): (r: seq<seq<string>>)
    ensures |r| == |m| && forall i :: 0 <= i < |m| ==> |r[i]| == |m[i]|
    ensures forall i, j :: 0 <= i < |m| && 0 <= j < |m[i]| ==> r[i][j] == CsvCell(m[i][j])
  {
    seq(|m|, i requires 0 <= i < |m| => seq(|m[i]|, j requires 0 <= j < |m[i]| => CsvCell(m[i][j])))
  }

  // The encoder's side

  /** What the encoder computes for a clean image: the colour codes of each row,
      the 437-nucleotide strand of each row, and the pool of their oligos. */
  lemma EncodedRows(img: Image) returns (codes: seq<seq<string>>, rows: seq<string>)
    requires Clean(img)
    ensures |codes| == 341 && |rows| == 341 && Uniform(rows, 437)
    ensures forall y :: 0 <= y < 341 ==> PixelRowCodes(img[y]) == Ok(codes[y])
    ensures forall y :: 0 <= y < 341 ==> |Flatten(codes[y])| == 700 && IsBits(Flatten(codes[y]))
    ensures forall y :: 0 <= y < 341 ==> PackRow(Flatten(codes[y])) == Ok(rows[y]) && IsNucleotideText(rows[y])
    ensures EncodeImage(img) == Ok(AssemblePool(Flatten(rows)))
  {
    codes := PixelsToCodes(img).value;
    CleanImageEncodes(img);
    rows := PackRows(codes).value;
    forall y | 0 <= y < 341
      ensures |Flatten(codes[y])| == 700 && IsBits(Flatten(codes[y]))
    {
      RowBits(img[y]);
    }
  }

  /** The pool, read row by row, is the list of oligos in the order they were made. */
  lemma PoolOrder(dna: string)
    ensures Flatten(AssemblePool(dna)) == Oligos(dna)
  {
    ChunksJoin(Oligos(dna), 5);
  }

  /** The row-major number of cell (i, j) of the 341 x 5 matrix: the pool holds
      the oligo of cell (i, j) at this position. */
  function CellIndex(i: nat, j: nat): nat {
    5 * i + j
  }

  /** Every oligo number names one cell. */
  lemma CellOf(k: nat)
    requires k < 1705
    ensures k / 5 < 341 && k % 5 < 5 && k == CellIndex(k / 5, k % 5)
  {
  }

  /** Oligo 5i + j is the address of (i + 1, j + 1) followed by payload j of strand i. */
  lemma PoolReads(rows: seq<string>)
    requires |rows| == 341 && Uniform(rows, 437)
    ensures |Oligos(Flatten(rows))| == 1705
    ensures forall i, j :: 0 <= i < 341 && 0 <= j < 5 ==>
              Oligos(Flatten(rows))[CellIndex(i, j)] == EncodeAddress(i + 1, j + 1).value + Piece(rows[i], j)
  {
    var y := SplitRows(rows);
    StrandGrid(rows);
    assert Oligos(Flatten(rows)) == Prefixed(y);
    PrefixedGrid(y);
    PiecesOfRows(rows, y);
  }

  /** Oligo 5i + j of a grid of payloads five wide is the address of (i + 1, j + 1)
      followed by payload (i, j). */
  lemma PrefixedGrid(y: seq<seq<string>>)
    requires |y| == 341 && Uniform(y, 5)
    ensures |Prefixed(y)| == 1705
    ensures forall i, j :: 0 <= i < 341 && 0 <= j < 5 ==>
              Prefixed(y)[CellIndex(i, j)] == EncodeAddress(i + 1, j + 1).value + y[i][j]
  {
    PrefixedCell(y, 0, 0);
    forall i, j | 0 <= i < 341 && 0 <= j < 5
      ensures Prefixed(y)[CellIndex(i, j)] == EncodeAddress(i + 1, j + 1).value + y[i][j]
    {
      PrefixedCell(y, i, j);
    }
  }

  lemma PrefixedCell(y: seq<seq<string>>, i: nat, j: nat)
    requires Uniform(y, 5) && i < |y| && j < 5
    ensures |Prefixed(y)| == 5 * |y|
    ensures Prefixed(y)[CellIndex(i, j)] == EncodeAddress(i + 1, j + 1).value + y[i][j]
  {
    var k := CellIndex(i, j);
    assert k == 5 * i + j;
    PrefixedAt(y, i, j);
  }

  /** The payloads of the split strands are their pieces. */
  lemma PiecesOfRows(rows: seq<string>, y: seq<seq<string>>)
    requires |rows| == 341 && Uniform(rows, 437) && y == SplitRows(rows)
    ensures forall i :: 0 <= i < 341 ==> |y[i]| == 5
    ensures forall i, j :: 0 <= i < 341 && 0 <= j < 5 ==> y[i][j] == Piece(rows[i], j)
  {
    forall i | 0 <= i < 341
      ensures |y[i]| == 5 && forall j :: 0 <= j < 5 ==> y[i][j] == Piece(rows[i], j)
    {
      PieceOf(rows[i]);
    }
  }

  /** Payload j of a 437-nucleotide strand: 90 nucleotides, 77 in the last column. */
  function Piece(row: string, j: nat): (r: string)
    requires |row| == 437 && j < 5
    ensures |r| == PayloadLength(j)
    ensures IsNucleotideText(row) ==> IsNucleotideText(r)
  {
    row[90 * j..90 * j + PayloadLength(j)]
  }

  /** The encoder's 90-nucleotide split of a strand is its five pieces. */
  lemma PieceOf(row: string)
    requires |row| == 437
    ensures |Chunks(row, 90)| == 5
    ensures forall j :: 0 <= j < 5 ==> Chunks(row, 90)[j] == Piece(row, j)
  {
    StrandPayloads(row);
  }

  /** The ten letters of an address are nucleotides. */
  lemma AddressLetters(a: string)
    requires |a| == 10 && AddressShaped(a)
    ensures IsNucleotideText(a)
  {
    assert forall c :: c in Codewords ==> |c| == 2 && IsNucleotide(c[0]) && IsNucleotide(c[1]);
    assert a[1] == a[1..3][0] && a[2] == a[1..3][1] && a[3] == a[3..5][0] && a[4] == a[3..5][1];
    assert a[6] == a[6..8][0] && a[7] == a[6..8][1] && a[8] == a[8..10][0] && a[9] == a[8..10][1];
  }

  lemma NucleotideNoSpace(s: string)
    requires IsNucleotideText(s)
    ensures NoSpace(s)
  {
  }

  /** The oligo for cell (i, j) is addressed to cell (i, j). */
  lemma ReadAddress(i: nat, j: nat, p: string)
    requires i < 341 && j < 5
    ensures Locate(EncodeAddress(i + 1, j + 1).value + p) == Target(i, j)
  {
    var a := EncodeAddress(i + 1, j + 1).value;
    var r := a + p;
    assert r[..10] == a;
    DecodeAddressPrefix(r);
    AddressRoundTrip(i + 1, j + 1);
    assert DecodeAddress(r) == Some(Coord(i + 1, j + 1));
  }

  /** The oligo for cell (i, j) is kept whole in cell (i, j), and is a single word. */
  lemma ReadOf(i: nat, j: nat, p: string)
    requires i < 341 && j < 5 && |p| == PayloadLength(j) && IsNucleotideText(p)
    ensures Stores(EncodeAddress(i + 1, j + 1).value + p, i, j)
    ensures Payload(EncodeAddress(i + 1, j + 1).value + p) == p
    ensures NoSpace(EncodeAddress(i + 1, j + 1).value + p)
  {
    var a := EncodeAddress(i + 1, j + 1).value;
    ReadAddress(i, j, p);
    AddressLetters(a);
    NucleotideNoSpace(a);
    NucleotideNoSpace(p);
    NoSpaceAppend(a, p);
  }

  lemma NoSpaceAppend(a: string, b: string)
    requires NoSpace(a) && NoSpace(b)
    ensures NoSpace(a + b)
  {
    forall k | 0 <= k < |a + b|
      ensures !IsSpace((a + b)[k])
    {
      if k >= |a| {
        assert (a + b)[k] == b[k - |a|];
      }
    }
  }

  // The reader's side

  /** A pool with one keepable read for every cell, in row-major order, fills
      every cell with that read's payload, scores no error and counts every read. */
  lemma PlacedMatrix(rs: seq<string>)
    requires |rs| == 1705
    requires forall i, j :: 0 <= i < 341 && 0 <= j < 5 ==> Stores(rs[CellIndex(i, j)], i, j)
    ensures forall i, j :: 0 <= i < 341 && 0 <= j < 5 ==>
              StoreAll(EmptyPool(), rs).matrix[i][j] == Some(Payload(rs[CellIndex(i, j)]))
    ensures StoreAll(EmptyPool(), rs).error == 0 && StoreAll(EmptyPool(), rs).seqNum == 1705
  {
    StoresInOrder(rs);
    forall i, j | 0 <= i < 341 && 0 <= j < 5
      ensures StoreAll(EmptyPool(), rs).matrix[i][j] == Some(Payload(rs[CellIndex(i, j)]))
    {
      FirstPlaced(rs, i, j);
      ReadMatrix(rs, i, j);
    }
    TargetedCounts(EmptyPool(), rs);
  }

  /** Read k of the pool is kept in cell (k / 5, k % 5). */
  lemma StoresInOrder(rs: seq<string>)
    requires |rs| == 1705
    requires forall i, j :: 0 <= i < 341 && 0 <= j < 5 ==> Stores(rs[CellIndex(i, j)], i, j)
    ensures forall k :: 0 <= k < 1705 ==> Stores(rs[k], k / 5, k % 5)
    ensures forall k :: 0 <= k < 1705 ==> Locate(rs[k]).Target?
  {
    forall k | 0 <= k < 1705
      ensures Stores(rs[k], k / 5, k % 5) && Locate(rs[k]).Target?
    {
      CellOf(k);
    }
  }

  /** No read before the one of cell (i, j) is kept in cell (i, j). */
  lemma FirstPlaced(rs: seq<string>, i: nat, j: nat)
    requires |rs| == 1705 && i < 341 && j < 5
    requires forall k :: 0 <= k < 1705 ==> Stores(rs[k], k / 5, k % 5)
    ensures FirstStore(rs, i, j) == Some(Payload(rs[CellIndex(i, j)]))
  {
    var n := CellIndex(i, j);
    assert n / 5 == i && n % 5 == j;
    forall m | 0 <= m < n
      ensures !Stores(rs[m], i, j)
    {
      CellOf(m);
    }
    FirstStoreIs(rs, n, i, j);
  }

  // The gap filler's side

  /** A payload of the right length needs neither sweep. */
  lemma CleanCell(p: string, j: nat)
    requires j < 5 && |p| == PayloadLength(j) && IsNucleotideText(p)
    ensures !Needs(NullCheck, Some(p), j) && !Needs(LengthCheck, Some(p), j)
  {
    NucleotideNoSpace(p);
    StripNoSpace(p);
    assert |Lower(Strip(p))| == |p|;
  }

  // The decoder's side

  /** The two bits of pixel x of a clean row spell its colour. */
  lemma PixelOfCodes(row: seq<Rgb>, x: nat)
    requires PixelRowCodes(row).Ok? && x < |row|
    ensures var bits := Flatten(PixelRowCodes(row).value);
            && 2 * x + 1 < |bits|
            && PairColor(bits[2 * x], bits[2 * x + 1]) == row[x]
  {
    var codes := PixelRowCodes(row).value;
    ColorTables();
    CodePair(codes, x);
    assert IsBit(codes[x][0]) && IsBit(codes[x][1]);
  }

  /** The two characters at 2x of joined two-bit codes are code x. */
  lemma CodePair(codes: seq<string>, x: nat)
    requires forall j :: 0 <= j < |codes| ==> codes[j] in CodeToColor
    requires x < |codes|
    ensures |codes[x]| == 2 && IsBits(codes[x])
    ensures 2 * x + 1 < |Flatten(codes)|
    ensures [Flatten(codes)[2 * x], Flatten(codes)[2 * x + 1]] == codes[x]
  {
    ColorTables();
    assert Uniform(codes, 2);
    FlattenAt(codes, 2, x, 0);
    FlattenAt(codes, 2, x, 1);
    var c := codes[x];
    assert c == [c[0], c[1]];
  }

  /** The rows of the matrix the reader hands on decode to the image's bits. */
  lemma DecodedMatrix(codes: seq<seq<string>>, rows: seq<string>, data: seq<seq<string>>)
    requires |codes| == 341 && |rows| == 341 && |data| == 341
    requires forall y :: 0 <= y < 341 ==> |Flatten(codes[y])| == 700 && IsBits(Flatten(codes[y]))
    requires forall y :: 0 <= y < 341 ==> PackRow(Flatten(codes[y])) == Ok(rows[y])
    requires forall y :: 0 <= y < 341 ==> data[y] == Chunks(rows[y], 90)
    ensures DecodeRows(data, 341).Ok?
    ensures forall y :: 0 <= y < 341 ==> DecodeRows(data, 341).value[y] == Decoded(Flatten(codes[y]), 0)
  {
    var ds := seq(341, y requires 0 <= y < 341 => Decoded(Flatten(codes[y]), 0));
    forall y | 0 <= y < 341
      ensures DecodeRow(data[y]) == Ok(ds[y])
    {
      DecodedRowOf(Flatten(codes[y]), rows[y], data[y]);
    }
    DecodeRowsAll(data, 341, ds);
  }

  /** The 90-nucleotide split of a packed row decodes to the row's bits, with no error. */
  lemma DecodedRowOf(bits: string, row: string, cells: seq<string>)
    requires |bits| == 700 && IsBits(bits) && PackRow(bits) == Ok(row) && cells == Chunks(row, 90)
    ensures DecodeRow(cells) == Ok(Decoded(bits, 0))
  {
    ChunksJoin(row, 90);
    RowRoundTrip(bits);
  }

  /** Oligos laid out as the encoder lays them out are single words that the
      reader keeps whole in their own cells, and their payloads are the pieces
      of the strands. */
  lemma ReadsStored(rows: seq<string>, oligos: seq<string>)
    requires |rows| == 341 && Uniform(rows, 437)
    requires forall i :: 0 <= i < 341 ==> IsNucleotideText(rows[i])
    requires |oligos| == 1705
    requires forall i, j :: 0 <= i < 341 && 0 <= j < 5 ==>
               oligos[CellIndex(i, j)] == EncodeAddress(i + 1, j + 1).value + Piece(rows[i], j)
    ensures forall i, j :: 0 <= i < 341 && 0 <= j < 5 ==>
              var o := oligos[CellIndex(i, j)];
              Stores(o, i, j) && |o| > 0 && NoSpace(o) && Payload(o) == Piece(rows[i], j)
  {
    forall i, j | 0 <= i < 341 && 0 <= j < 5
      ensures var o := oligos[CellIndex(i, j)];
              Stores(o, i, j) && |o| > 0 && NoSpace(o) && Payload(o) == Piece(rows[i], j)
    {
      ReadStored(oligos[CellIndex(i, j)], i, j, Piece(rows[i], j));
    }
  }

  lemma ReadStored(oligo: string, i: nat, j: nat, p: string)
    requires i < 341 && j < 5 && |p| == PayloadLength(j) && IsNucleotideText(p)
    requires oligo == EncodeAddress(i + 1, j + 1).value + p
    ensures Stores(oligo, i, j) && |oligo| > 0 && NoSpace(oligo) && Payload(oligo) == p
  {
    ReadOf(i, j, p);
  }

  /** Given a header line and then one keepable single-word read per cell, in
      row-major order, the reader fills every cell with its read's payload. */
  lemma ReadsRecovered(header: string, oligos: seq<string>)
    requires |oligos| == 1705
    requires forall i, j :: 0 <= i < 341 && 0 <= j < 5 ==>
               var o := oligos[CellIndex(i, j)];
               Stores(o, i, j) && |o| > 0 && NoSpace(o)
    ensures Recover([header] + oligos).Ok?
    ensures var p := Recover([header] + oligos).value;
            && p.error == 0 && p.seqNum == 1705 && Shaped(p.matrix)
            && forall i, j :: 0 <= i < 341 && 0 <= j < 5 ==> p.matrix[i][j] == Some(Payload(oligos[CellIndex(i, j)]))
  {
    forall k | 0 <= k < 1705
      ensures |oligos[k]| > 0 && NoSpace(oligos[k])
    {
      CellOf(k);
    }
    var lines := [header] + oligos;
    assert Slice(lines, 1, |lines|) == oligos;
    FirstTokensOfReads(oligos);
    assert Recover(lines) == Ok(StoreAll(EmptyPool(), oligos));
    PlacedMatrix(oligos);
  }

  /** Stage two: the reader, given the pool one oligo per line after a header
      line, puts payload j of strand i into cell (i, j), with no error. */
  lemma ReadBack(rows: seq<string>, header: string)
    requires |rows| == 341 && Uniform(rows, 437)
    requires forall i :: 0 <= i < 341 ==> IsNucleotideText(rows[i])
    ensures Recover([header] + Flatten(AssemblePool(Flatten(rows)))).Ok?
    ensures var p := Recover([header] + Flatten(AssemblePool(Flatten(rows)))).value;
            && p.error == 0 && p.seqNum == 1705 && Shaped(p.matrix)
            && forall i, j :: 0 <= i < 341 && 0 <= j < 5 ==> p.matrix[i][j] == Some(Piece(rows[i], j))
  {
    PoolOrder(Flatten(rows));
    PoolReads(rows);
    var oligos := Oligos(Flatten(rows));
    ReadsStored(rows, oligos);
    ReadsRecovered(header, oligos);
  }

  /** Stage three: neither gap-filling sweep has anything to do. */
  lemma NothingToFill(rows: seq<string>, m: seq<seq<Cell>>)
    requires |rows| == 341 && Uniform(rows, 437)
    requires forall i :: 0 <= i < 341 ==> IsNucleotideText(rows[i])
    requires Shaped(m) && forall i, j :: 0 <= i < 341 && 0 <= j < 5 ==> m[i][j] == Some(Piece(rows[i], j))
    ensures Swept(NullCheck, m) == m && GridNeeds(NullCheck, m) == 0
    ensures Swept(LengthCheck, m) == m && GridNeeds(LengthCheck, m) == 0
  {
    forall i, j | 0 <= i < |m| && 0 <= j < |m[i]|
      ensures !Needs(NullCheck, m[i][j], j) && !Needs(LengthCheck, m[i][j], j)
    {
      CleanCell(Piece(rows[i], j), j);
    }
    SweptNone(NullCheck, m);
    SweptNone(LengthCheck, m);
  }

  /** The CSV hand-off of a filled matrix gives back each strand's 90-nucleotide split. */
  lemma CsvRows(rows: seq<string>, m: seq<seq<Cell>>)
    requires |rows| == 341 && Uniform(rows, 437)
    requires Shaped(m) && forall i, j :: 0 <= i < 341 && 0 <= j < 5 ==> m[i][j] == Some(Piece(rows[i], j))
    ensures |CsvGrid(m)| == 341
    ensures forall y :: 0 <= y < 341 ==> CsvGrid(m)[y] == Chunks(rows[y], 90)
  {
    forall y | 0 <= y < 341
      ensures CsvGrid(m)[y] == Chunks(rows[y], 90)
    {
      PieceOf(rows[y]);
    }
  }

  /** Pixels spelled by the bits of each row's colour codes are the image's pixels. */
  lemma PixelsMatch(img: Image, codes: seq<seq<string>>, ds: seq<Decoded>, px: seq<seq<Rgb>>)
    requires Clean(img) && |codes| == 341 && |ds| == 341 && |px| == 341
    requires forall y :: 0 <= y < 341 ==> PixelRowCodes(img[y]) == Ok(codes[y])
    requires forall y :: 0 <= y < 341 ==> ds[y] == Decoded(Flatten(codes[y]), 0) && |ds[y].bits| == 700
    requires forall y :: 0 <= y < 341 ==> |px[y]| == 350
    requires forall y, x :: 0 <= y < 341 && 0 <= x < 350 ==> px[y][x] == PairColor(ds[y].bits[2 * x], ds[y].bits[2 * x + 1])
    ensures px == img
  {
    forall y | 0 <= y < 341
      ensures px[y] == img[y]
    {
      forall x | 0 <= x < 350
        ensures px[y][x] == img[y][x]
      {
        PixelOfCodes(img[y], x);
      }
    }
  }

  /** Stage four: the decoder turns the matrix back into the image, with no error. */
  lemma DecodeBack(img: Image, codes: seq<seq<string>>, rows: seq<string>, m: seq<seq<Cell>>)
    requires Clean(img) && |codes| == 341 && |rows| == 341 && Uniform(rows, 437)
    requires forall y :: 0 <= y < 341 ==> PixelRowCodes(img[y]) == Ok(codes[y])
    requires forall y :: 0 <= y < 341 ==> |Flatten(codes[y])| == 700 && IsBits(Flatten(codes[y]))
    requires forall y :: 0 <= y < 341 ==> PackRow(Flatten(codes[y])) == Ok(rows[y])
    requires Shaped(m) && forall i, j :: 0 <= i < 341 && 0 <= j < 5 ==> m[i][j] == Some(Piece(rows[i], j))
    ensures DecodeRaster(CsvGrid(m)) == Ok((img, 0))
  {
    var data := CsvGrid(m);
    CsvRows(rows, m);
    DecodedMatrix(codes, rows, data);
    var ds := DecodeRows(data, 341).value;
    RasterPixels(data, ds);
    PixelsMatch(img, codes, ds, DecodeRaster(data).value.0);
  }

  /** The round trip: a clean image, encoded, its oligos read back one per line
      after a header line, the gaps filled and the matrix decoded, is the image
      again, with no error anywhere along the way. */
  lemma ImageRoundTrip(img: Image, header: string)
    requires Clean(img)
    ensures EncodeImage(img).Ok?
    ensures |Flatten(EncodeImage(img).value)| == 1705
    ensures Recover([header] + Flatten(EncodeImage(img).value)).Ok?
    ensures var p := Recover([header] + Flatten(EncodeImage(img).value)).value;
            && p.error == 0 && p.seqNum == 1705
            && Swept(NullCheck, p.matrix) == p.matrix && GridNeeds(NullCheck, p.matrix) == 0
            && Swept(LengthCheck, p.matrix) == p.matrix && GridNeeds(LengthCheck, p.matrix) == 0
            && DecodeRaster(CsvGrid(p.matrix)) == Ok((img, 0))
  {
    var codes, rows := EncodedRows(img);
    PoolOrder(Flatten(rows));
    PoolReads(rows);
    ReadBack(rows, header);
    var p := Recover([header] + Flatten(AssemblePool(Flatten(rows)))).value;
    NothingToFill(rows, p.matrix);
    DecodeBack(img, codes, rows, p.matrix);
  }
}

=== FILE: gapfill.dfy ===
/** The gap filler (Decoding/picture_recovery.py): two sweeps over the recovered
    matrix that replace missing or malformed payloads with runs of 'G', the
    nucleotide that decodes to the bits 00, and count what they replaced. */
module GapFill {
  import opened Results
  import opened PyStr

  /** A matrix cell: None, or the string the CSV file held. */
  type Cell = Option<string>

  /** A two-dimensional array: every row as wide as the first. */
  predicate Rectangular(grid: seq<seq<Cell>>) {
    forall i :: 0 <= i < |grid| ==> |grid[i]| == |grid[0]|
  }

  /** is_empty_or_null (picture_recovery.py:15-16). */
  predicate IsEmptyOrNull(c: Cell) {
    c.None? || Lower(Strip(c.value)) in {"", "null"}
  }

  /** The length a payload in column j should have: 90, and 77 in the last column. */
  function PayloadLength(j: nat): nat
    requires j < 5
  {
    if j < 4 then 90 else 77
  }

  /** The filler written into column j: 'G' * 90, or 'G' * 77 in the last column. */
  function Sentinel(j: nat): (r: string)
    requires j < 5
    ensures |r| == PayloadLength(j) && NoSpace(r)
    ensures forall k :: 0 <= k < |r| ==> r[k] == 'G'
  {
    Repeat('G', PayloadLength(j))
  }

  /** The two sweeps: fill_individual_nulls_with_G and fix_length_with_G. */
  datatype Check = NullCheck | LengthCheck

  /** Whether a sweep replaces the cell in column j. Columns from 5 on are never touched. */
  predicate Needs(check: Check, c: Cell, j: nat) {
    && j < 5
    && match check
       case NullCheck => IsEmptyOrNull(c)
       case LengthCheck => |if c.None? then "" else Strip(c.value)| != PayloadLength(j)
  }

  function Fix(check: Check, c: Cell, j: nat): (r: Cell)
    ensures Needs(check, c, j) ==> r == Some(Sentinel(j))
    ensures !Needs(check, c, j) ==> r == c
  {
    if Needs(check, c, j) then Some(Sentinel(j)) else c
  }

  /** Reference result of a sweep: every cell fixed where it needs it. */
  function SweptRow(check: Check, row: seq<Cell>): (r: seq<Cell>)
    ensures |r| == |row|
    ensures forall j :: 0 <= j < |row| ==> r[j] == Fix(check, row[j], j)
  {
    seq(|row|, j requires 0 <= j < |row| => Fix(check, row[j], j))
  }

  function Swept(check: Check, grid: seq<seq<Cell>>): (r: seq<seq<Cell>>)
    ensures |r| == |grid|
    ensures forall i :: 0 <= i < |grid| ==> r[i] == SweptRow(check, grid[i])
  {
    seq(|grid|, i requires 0 <= i < |grid| => SweptRow(check, grid[i]))
  }

  /** Reference count of a sweep: the cells that need fixing. */
  function RowNeeds(check: Check, row: seq<Cell>): nat {
    if |row| == 0 then 0
    else RowNeeds(check, row[..|row| - 1]) + (if Needs(check, row[|row| - 1], |row| - 1) then 1 else 0)
  }

  function GridNeeds(check: Check, grid: seq<seq<Cell>>): nat {
    if |grid| == 0 then 0
    else GridNeeds(check, grid[..|grid| - 1]) + RowNeeds(check, grid[|grid| - 1])
  }

  /** The inner loop of a sweep over one row of the array: the row, each cell
      replaced where it needs it, and the number replaced. */
  method SweepRow(check: Check, row: seq<Cell>) returns (out: seq<Cell>, count: nat)
    ensures out == SweptRow(check, row)
    ensures count == RowNeeds(check, row)
  {
    out := row;
    count := 0;
    var j := 0;
    while j < |row|
      invariant 0 <= j <= |row|
      invariant out == SweptRow(check, row[..j]) + row[j..]
      invariant count == RowNeeds(check, row[..j])
    {
      SweepStep(check, row, j);
      UpdateAt(SweptRow(check, row[..j]), row[j..], Fix(check, row[j], j));
      assert row[j..][1..] == row[j + 1..];
      if Needs(check, row[j], j) {
        out := out[j := Some(Sentinel(j))];
        count := count + 1;
      }
      j := j + 1;
    }
    assert row[..j] == row;
  }

  lemma UpdateAt<T>(a: seq<T>, b: seq<T>, v: T)
    requires |b| > 0
    ensures (a + b)[|a| := v] == a + [v] + b[1..]
  {
  }

  /** The reference sweep and count over one more cell of the row. */
  lemma SweepStep(check: Check, row: seq<Cell>, j: nat)
    requires j < |row|
    ensures SweptRow(check, row[..j + 1]) == SweptRow(check, row[..j]) + [Fix(check, row[j], j)]
    ensures RowNeeds(check, row[..j + 1]) == RowNeeds(check, row[..j]) + (if Needs(check, row[j], j) then 1 else 0)
  {
    assert row[..j + 1][..j] == row[..j];
  }

  /** The sweep's nested loops (picture_recovery.py:18-27 and 35-51): a copy of
      the array, each cell replaced where it needs it, and the number replaced.
      The column loop runs over the array's width, which is every row's length. */
  method Sweep(check: Check, grid: seq<seq<Cell>>) returns (out: seq<seq<Cell>>, error: nat)
    requires Rectangular(grid)
    ensures out == Swept(check, grid)
    ensures error == GridNeeds(check, grid)
  {
    out := grid;
    error := 0;
    var i := 0;
    while i < |grid|
      invariant 0 <= i <= |grid| && |out| == |grid|
      invariant forall k :: 0 <= k < i ==> out[k] == SweptRow(check, grid[k])
      invariant forall k :: i <= k < |grid| ==> out[k] == grid[k]
      invariant error == GridNeeds(check, grid[..i])
    {
      assert grid[..i + 1][..i] == grid[..i];
      var row, count := SweepRow(check, out[i]);
      out := out[i := row];
      error := error + count;
      i := i + 1;
    }
    assert grid[..i] == grid;
  }

  /** fill_individual_nulls_with_G (picture_recovery.py:12-29). */
  method FillIndividualNulls(grid: seq<seq<Cell>>) returns (out: seq<seq<Cell>>, error: nat)
    requires Rectangular(grid)
    ensures |out| == |grid| && error == GridNeeds(NullCheck, grid)
    ensures forall i :: 0 <= i < |grid| ==> |out[i]| == |grid[i]|
    ensures forall i, j :: 0 <= i < |grid| && 0 <= j < |grid[i]| ==>
              out[i][j] == if j < 5 && IsEmptyOrNull(grid[i][j]) then Some(Sentinel(j)) else grid[i][j]
  {
    out, error := Sweep(NullCheck, grid);
  }

  /** fix_length_with_G (picture_recovery.py:32-52): a cell of the first five
      columns whose stripped text (None counting as "") has the wrong length is
      replaced; a cell of the right length is kept as it was, unstripped. */
  method FixLength(grid: seq<seq<Cell>>) returns (out: seq<seq<Cell>>, error: nat)
    requires Rectangular(grid)
    ensures |out| == |grid| && error == GridNeeds(LengthCheck, grid)
    ensures forall i :: 0 <= i < |grid| ==> |out[i]| == |grid[i]|
    ensures forall i, j :: 0 <= i < |grid| && 0 <= j < |grid[i]| && j < 5 ==>
              out[i][j].Some? && |Strip(out[i][j].value)| == PayloadLength(j)
    ensures forall i, j :: 0 <= i < |grid| && 0 <= j < |grid[i]| && !Needs(LengthCheck, grid[i][j], j) ==>
              out[i][j] == grid[i][j]
    ensures forall i, j :: 0 <= i < |grid| && 0 <= j < |grid[i]| && Needs(LengthCheck, grid[i][j], j) ==>
              out[i][j] == Some(Sentinel(j))
  {
    out, error := Sweep(LengthCheck, grid);
    forall i, j | 0 <= i < |grid| && 0 <= j < |grid[i]| && j < 5
      ensures out[i][j].Some? && |Strip(out[i][j].value)| == PayloadLength(j)
    {
      if Needs(LengthCheck, grid[i][j], j) {
        StripNoSpace(Sentinel(j));
      }
    }
  }

  // What the sweeps guarantee

  /** A filler cell passes both checks. */
  lemma SentinelPasses(check: Check, j: nat)
    requires j < 5
    ensures !Needs(check, Some(Sentinel(j)), j)
  {
    StripNoSpace(Sentinel(j));
    assert |Lower(Strip(Sentinel(j)))| == PayloadLength(j);
  }

  /** After a sweep no cell needs that sweep any more. */
  lemma FixSettles(check: Check, c: Cell, j: nat)
    ensures !Needs(check, Fix(check, c, j), j)
    ensures Fix(check, Fix(check, c, j), j) == Fix(check, c, j)
  {
    if Needs(check, c, j) {
      SentinelPasses(check, j);
    }
  }

  lemma {:induction false} RowNeedsNone(check: Check, row: seq<Cell>)
    requires forall j :: 0 <= j < |row| ==> !Needs(check, row[j], j)
    ensures RowNeeds(check, row) == 0
  {
    if |row| > 0 {
      RowNeedsNone(check, row[..|row| - 1]);
    }
  }

  lemma {:induction false} GridNeedsNone(check: Check, grid: seq<seq<Cell>>)
    requires forall i, j :: 0 <= i < |grid| && 0 <= j < |grid[i]| ==> !Needs(check, grid[i][j], j)
    ensures GridNeeds(check, grid) == 0
  {
    if |grid| > 0 {
      GridNeedsNone(check, grid[..|grid| - 1]);
      RowNeedsNone(check, grid[|grid| - 1]);
    }
  }

  /** A sweep over an array with nothing to fix changes nothing. */
  lemma SweptNone(check: Check, grid: seq<seq<Cell>>)
    requires forall i, j :: 0 <= i < |grid| && 0 <= j < |grid[i]| ==> !Needs(check, grid[i][j], j)
    ensures Swept(check, grid) == grid
    ensures GridNeeds(check, grid) == 0
  {
    forall i | 0 <= i < |grid|
      ensures SweptRow(check, grid[i]) == grid[i]
    {
    }
    GridNeedsNone(check, grid);
  }

  /** Running a sweep a second time changes nothing and counts nothing. */
  lemma SweepIdempotent(check: Check, grid: seq<seq<Cell>>)
    ensures Swept(check, Swept(check, grid)) == Swept(check, grid)
    ensures GridNeeds(check, Swept(check, grid)) == 0
  {
    var once := Swept(check, grid);
    forall i, j | 0 <= i < |once| && 0 <= j < |once[i]|
      ensures !Needs(check, once[i][j], j) && Fix(check, once[i][j], j) == once[i][j]
    {
      FixSettles(check, grid[i][j], j);
    }
    forall i | 0 <= i < |once|
      ensures SweptRow(check, once[i]) == once[i]
    {
    }
    GridNeedsNone(check, once);
  }

  /** Only the first five columns are checked: at most five replacements a row. */
  lemma {:induction false} RowNeedsBound(check: Check, row: seq<Cell>)
    ensures RowNeeds(check, row) <= if |row| < 5 then |row| else 5
  {
    if |row| > 0 {
      RowNeedsBound(check, row[..|row| - 1]);
    }
  }

  lemma {:induction false} GridNeedsBound(check: Check, grid: seq<seq<Cell>>)
    ensures GridNeeds(check, grid) <= 5 * |grid|
  {
    if |grid| > 0 {
      GridNeedsBound(check, grid[..|grid| - 1]);
      RowNeedsBound(check, grid[|grid| - 1]);
    }
  }
}

=== FILE: packer.dfy ===
/** The encoder's bit packer (Encoding/encoding.py): each 8-bit group is split
    2/3/3 and written as one nucleotide and two codewords; a 700-bit image row
    becomes 87 such groups and a 4-bit tail written as two nucleotides. */
module Packer {
  import opened Results
  import opened Seqs
  import opened PyStr
  import opened Tables

  /** The three integers convert_binary_parts returns. */
  datatype ByteFields = ByteFields(first: nat, middle: nat, last: nat)

  /** The 2/3/3 split of an 8-character string: its bit-ness and value are those of its parts. */
  lemma ByteSplit(s: string)
    requires |s| == 8
    ensures IsBits(s) <==> IsBits(s[..2]) && IsBits(s[2..5]) && IsBits(s[5..8])
    ensures BitsValue(s) == BitsValue(s[..2]) * 64 + BitsValue(s[2..5]) * 8 + BitsValue(s[5..8])
  {
    var a, b, c := s[..2], s[2..5], s[5..8];
    assert s == (a + b) + c;
    IsBitsAppend(a + b, c);
    IsBitsAppend(a, b);
    ByteSplitValue(a, b, c);
  }

  lemma ByteSplitValue(a: string, b: string, c: string)
    requires |b| == 3 && |c| == 3
    ensures BitsValue(a + b + c) == BitsValue(a) * 64 + BitsValue(b) * 8 + BitsValue(c)
  {
    BitsValueAppend(a + b, c);
    BitsValueAppend(a, b);
    assert Pow2(3) == 8;
    var x, y := BitsValue(a), BitsValue(b);
    assert BitsValue(a + b + c) == (x * 8 + y) * 8 + BitsValue(c);
    assert (x * 8 + y) * 8 == x * 64 + y * 8;
  }

  /** convert_binary_parts: an 8-character bit string as its 2-, 3- and 3-bit fields.
      Any other length, or a character other than '0'/'1', raises ValueError. */
  function ConvertBinaryParts(s: string): (r: Result<ByteFields>)
    ensures |s| != 8 ==> r == Err(ValueError)
    ensures |s| == 8 ==> (r.Ok? <==> IsBits(s))
    ensures r.Err? ==> r.fault == ValueError
    ensures r.Ok? ==> r.value.first < 4 && r.value.middle < 8 && r.value.last < 8
    ensures r.Ok? ==> r.value.first * 64 + r.value.middle * 8 + r.value.last == BitsValue(s)
  {
    if |s| != 8 then Err(ValueError)
    else
      // the source's `if part else 0` guards never fire: every part is non-empty here
      ByteSplit(s);
      var a, b, c := ParseBinary(s[..2]), ParseBinary(s[2..5]), ParseBinary(s[5..8]);
      if a.None? || b.None? || c.None? then Err(ValueError)
      else Ok(ByteFields(a.value, b.value, c.value))
  }

  /** last_four_bits: `int(s[:2], 2)` and `int(s[2:], 2)`; raises ValueError
      when either part is empty or not made of bits. */
  function LastFourBits(s: string): (r: Result<(nat, nat)>)
    ensures r.Ok? <==> |s| >= 3 && IsBits(s)
    ensures r.Err? ==> r.fault == ValueError
    ensures r.Ok? ==> r.value.0 < 4 && r.value.1 < Pow2(|s| - 2)
    ensures r.Ok? ==> r.value.0 * Pow2(|s| - 2) + r.value.1 == BitsValue(s)
  {
    var a := ParseBinary(Slice(s, 0, 2));
    var b := ParseBinary(s[Min(2, |s|)..]);
    if a.None? || b.None? then Err(ValueError)
    else
      assert s == s[..2] + s[2..];
      IsBitsAppend(s[..2], s[2..]);
      BitsValueAppend(s[..2], s[2..]);
      Ok((a.value, b.value))
  }

  /** The five nucleotides of one group: get_mapping_value of the first field,
      get_tri_mapping_value of the other two, in that order. */
  function PackFields(f: ByteFields): (r: string)
    requires f.first < 4 && f.middle < 8 && f.last < 8
    ensures |r| == 5 && IsNucleotideText(r)
    ensures r[..1] == IntToNucleotide[f.first]
    ensures r[1..3] == IntToDinucleotide[f.middle] && r[3..5] == IntToDinucleotide[f.last]
  {
    NucleotideOfInt(f.first).value + DinucleotideOfInt(f.middle).value + DinucleotideOfInt(f.last).value
  }

  /** One 8-bit group packed into five nucleotides. */
  function PackByte(g: string): (r: string)
    requires |g| == 8 && IsBits(g)
    ensures |r| == 5 && IsNucleotideText(r)
  {
    PackFields(ConvertBinaryParts(g).value)
  }

  /** The five nucleotides of a group are its three fields through the bit tables. */
  lemma PackByteFields(g: string)
    requires |g| == 8 && IsBits(g)
    ensures NucleotideOfBits(g[..2]).Some? && DinucleotideOfBits(g[2..5]).Some? && DinucleotideOfBits(g[5..8]).Some?
    ensures PackByte(g) == NucleotideOfBits(g[..2]).value + DinucleotideOfBits(g[2..5]).value + DinucleotideOfBits(g[5..8]).value
  {
    ByteSplit(g);
    NucleotideOfBitsAgrees(g[..2]);
    DinucleotideOfBitsAgrees(g[2..5]);
    DinucleotideOfBitsAgrees(g[5..8]);
    var f := ConvertBinaryParts(g).value;
    assert f == ByteFields(BitsValue(g[..2]), BitsValue(g[2..5]), BitsValue(g[5..8]));
  }

  /** The source's `for i in range(87)` loop over full groups: the concatenation
      of each group's five nucleotides; the first bad group raises ValueError. */
  function PackGroups(groups: seq<string>): (r: Result<string>)
    ensures r.Ok? <==> forall k :: 0 <= k < |groups| ==> |groups[k]| == 8 && IsBits(groups[k])
    ensures r.Err? ==> r.fault == ValueError
    ensures r.Ok? ==> |r.value| == 5 * |groups| && IsNucleotideText(r.value)
  {
    if |groups| == 0 then Ok("")
    else
      var f :- ConvertBinaryParts(groups[0]);
      var rest :- PackGroups(groups[1..]);
      assert forall k :: 1 <= k < |groups| ==> groups[k] == groups[1..][k - 1];
      Ok(PackFields(f) + rest)
  }

  lemma {:induction false} IsBitsFlatten(gs: seq<string>)
    ensures IsBits(Flatten(gs)) <==> forall k :: 0 <= k < |gs| ==> IsBits(gs[k])
  {
    if |gs| > 0 {
      IsBitsFlatten(gs[1..]);
      IsBitsAppend(gs[0], Flatten(gs[1..]));
      assert forall k :: 1 <= k < |gs| ==> gs[k] == gs[1..][k - 1];
    }
  }

  /** How `split_string_into_groups(row)` looks around index 87. */
  lemma RowGroups(bits: string)
    ensures |bits| <= 696 ==> |Chunks(bits, 8)| <= 87
    ensures |bits| > 696 ==>
              && |Chunks(bits, 8)| >= 88
              && Chunks(bits, 8)[..87] == Chunks(bits[..696], 8)
              && Chunks(bits, 8)[87] == bits[696..Min(704, |bits|)]
  {
    if |bits| <= 696 {
      ChunksCountBound(bits, 8, 87);
    } else {
      var p, q := bits[..696], bits[696..];
      assert bits == p + q;
      ChunksSplit(p, q, 8, 87);
      ChunksExact(p, 8, 87);
    }
  }

  /** The groups before the tail are the full 8-bit groups of the first 696 bits. */
  lemma FullGroups(bits: string)
    requires |bits| >= 696
    ensures |Chunks(bits[..696], 8)| == 87
    ensures forall k :: 0 <= k < 87 ==> |Chunks(bits[..696], 8)[k]| == 8
    ensures IsBits(bits[..696]) <==> forall k :: 0 <= k < 87 ==> IsBits(Chunks(bits[..696], 8)[k])
  {
    ChunksExact(bits[..696], 8, 87);
    ChunksJoin(bits[..696], 8);
    IsBitsFlatten(Chunks(bits[..696], 8));
  }

  lemma RowTail(bits: string)
    ensures |bits| >= 696 ==> (IsBits(bits) <==> IsBits(bits[..696]) && IsBits(bits[696..]))
    ensures Pow2(2) == 4
  {
    if |bits| >= 696 {
      assert bits == bits[..696] + bits[696..];
      IsBitsAppend(bits[..696], bits[696..]);
    }
  }

  /** Packing a list of groups packs each group in turn. */
  lemma {:induction false} PackGroupsEach(groups: seq<string>)
    requires forall k :: 0 <= k < |groups| ==> |groups[k]| == 8 && IsBits(groups[k])
    ensures PackGroups(groups).Ok?
    ensures PackGroups(groups).value
         == Flatten(seq(|groups|, k requires 0 <= k < |groups| => PackByte(groups[k])))
  {
    if |groups| > 0 {
      PackGroupsEach(groups[1..]);
      var each := seq(|groups|, k requires 0 <= k < |groups| => PackByte(groups[k]));
      assert each[1..] == seq(|groups| - 1, k requires 0 <= k < |groups| - 1 => PackByte(groups[1..][k]));
    }
  }

  /** The body of the encoder's row loop (encoding.py:310-327) for one row of
      joined 2-bit codes: 87 packed groups, then the two tail nucleotides. */
  function PackRow(bits: string): (r: Result<string>)
    ensures |bits| < 699 ==> r.Err?
    ensures |bits| == 700 ==> (r.Ok? <==> IsBits(bits))
    ensures r.Ok? ==> |r.value| == 437 && IsNucleotideText(r.value)
  {
    RowGroups(bits);
    RowTail(bits);
    var m := Chunks(bits, 8);
    if |m| <= 87 then Err(IndexError)
    else
      assert |bits| == 700 ==> m[87] == bits[696..] && |m[87]| == 4;
      var tail :- LastFourBits(m[87]);
      var d1, d2 := NucleotideOfInt(tail.0), NucleotideOfInt(tail.1);
      FullGroups(bits);
      var body :- PackGroups(m[..87]);
      if d1.None? || d2.None? then Err(TypeError)
      else Ok(body + d1.value + d2.value)
  }

  /** A 700-bit row packs as its 87 full groups, then its last four bits as two
      nucleotides. */
  lemma PackRowParts(bits: string) returns (groups: seq<string>)
    requires |bits| == 700 && IsBits(bits)
    ensures groups == Chunks(bits[..696], 8) && |groups| == 87
    ensures forall k :: 0 <= k < 87 ==> |groups[k]| == 8 && IsBits(groups[k])
    ensures Flatten(groups) == bits[..696]
    ensures NucleotideOfBits(bits[696..698]).Some? && NucleotideOfBits(bits[698..700]).Some?
    ensures PackRow(bits) == Ok(Flatten(seq(87, k requires 0 <= k < 87 => PackByte(groups[k])))
                                + NucleotideOfBits(bits[696..698]).value + NucleotideOfBits(bits[698..700]).value)
  {
    RowGroups(bits);
    RowTail(bits);
    FullGroups(bits);
    ChunksJoin(bits[..696], 8);
    groups := Chunks(bits[..696], 8);
    PackGroupsEach(groups);
    var t := bits[696..];
    assert t[..2] == bits[696..698] && t[2..] == bits[698..700];
    assert IsBits(t[..2]) && IsBits(t[2..]);
    NucleotideOfBitsAgrees(t[..2]);
    NucleotideOfBitsAgrees(t[2..]);
    assert LastFourBits(t) == Ok((BitsValue(t[..2]), BitsValue(t[2..])));
    var m := Chunks(bits, 8);
    assert m[..87] == groups && m[87] == t;
    var each := seq(87, k requires 0 <= k < 87 => PackByte(groups[k]));
    assert PackGroups(m[..87]) == Ok(Flatten(each));
  }
}

=== FILE: pystr.dfy ===
/** The pieces of Python's `str` and `int` behaviour the codec relies on:
    whitespace stripping, case mapping, `zfill`, `str(n)`, `bin(n)` and `int(s, 2)`. */
module PyStr {
  import opened Results

  /** `c.isspace()`: the characters `str.split()` and `str.strip()` treat as whitespace. */
  predicate IsSpace(c: char) {
    || c == ' '
    || '\t' <= c <= '\r'
    || '\U{1C}' <= c <= '\U{1F}'
    || c == '\U{85}' || c == '\U{A0}' || c == '\U{1680}'
    || '\U{2000}' <= c <= '\U{200A}'
    || c == '\U{2028}' || c == '\U{2029}' || c == '\U{202F}' || c == '\U{205F}' || c == '\U{3000}'
  }

  predicate NoSpace(s: string) {
    forall i :: 0 <= i < |s| ==> !IsSpace(s[i])
  }

  /** `s.lstrip()`: the suffix left after dropping leading whitespace. */
  function StripLeft(s: string): (r: string)
    ensures |r| <= |s| && r == s[|s| - |r|..]
    ensures r == [] || !IsSpace(r[0])
    ensures forall i :: 0 <= i < |s| - |r| ==> IsSpace(s[i])
  {
    if |s| > 0 && IsSpace(s[0]) then StripLeft(s[1..]) else s
  }

  /** `s.rstrip()`: the prefix left after dropping trailing whitespace. */
  function StripRight(s: string): (r: string)
    ensures |r| <= |s| && r == s[..|r|]
    ensures r == [] || !IsSpace(r[|r| - 1])
    ensures forall i :: |r| <= i < |s| ==> IsSpace(s[i])
  {
    if |s| > 0 && IsSpace(s[|s| - 1]) then StripRight(s[..|s| - 1]) else s
  }

  /** `s.strip()`. */
  function Strip(s: string): string {
    StripRight(StripLeft(s))
  }

  /** The longest prefix of `s` without whitespace. */
  function TakeWord(s: string): (r: string)
    ensures |r| <= |s| && r == s[..|r|] && NoSpace(r)
    ensures |r| == |s| || IsSpace(s[|r|])
  {
    if |s| == 0 || IsSpace(s[0]) then [] else [s[0]] + TakeWord(s[1..])
  }

  lemma StripNoSpace(s: string)
    requires NoSpace(s)
    ensures Strip(s) == s
  {
    if |s| > 0 {
      assert !IsSpace(s[0]) && !IsSpace(s[|s| - 1]);
    }
  }

  /** `c.upper()` on the ASCII letters; no other character upper-cases to a nucleotide letter. */
  function Upper(c: char): char {
    if 'a' <= c <= 'z' then (c as int - 32) as char else c
  }

  /** `c.lower()` on the ASCII letters. */
  function LowerChar(c: char): char {
    if 'A' <= c <= 'Z' then (c as int + 32) as char else c
  }

  /** `s.lower()`, character by character. */
  function Lower(s: string): (r: string)
    ensures |r| == |s|
    ensures forall i :: 0 <= i < |s| ==> r[i] == LowerChar(s[i])
  {
    seq(|s|, i requires 0 <= i < |s| => LowerChar(s[i]))
  }

  /** `c * n` for a one-character string `c`. */
  function Repeat(c: char, n: nat): (r: string)
    ensures |r| == n
    ensures forall i :: 0 <= i < n ==> r[i] == c
  {
    seq(n, _ => c)
  }

  predicate IsDigit(c: char) {
    '0' <= c <= '9'
  }

  predicate IsDigits(s: string) {
    forall i :: 0 <= i < |s| ==> IsDigit(s[i])
  }

  function DigitChar(d: nat): (c: char)
    requires d < 10
    ensures IsDigit(c)
  {
    (d + '0' as int) as char
  }

  function DigitValue(c: char): (d: nat)
    requires IsDigit(c)
    ensures d < 10 && DigitChar(d) == c
  {
    c as int - '0' as int
  }

  /** The number a digit string spells, most significant digit first. */
  function DigitsValue(s: string): nat
    requires IsDigits(s)
  {
    if |s| == 0 then 0 else 10 * DigitsValue(s[..|s| - 1]) + DigitValue(s[|s| - 1])
  }

  /** `str(n)` for a natural number: the decimal digits of `n`, with no leading zero. */
  function DecimalString(n: nat): (r: string)
    ensures |r| >= 1 && IsDigits(r)
    ensures DigitsValue(r) == n
    ensures r[0] == '0' ==> n == 0 && |r| == 1
    ensures n < 10 ==> r == [DigitChar(n)]
  {
    if n < 10 then [DigitChar(n)]
    else
      var r := DecimalString(n / 10) + [DigitChar(n % 10)];
      assert r[..|r| - 1] == DecimalString(n / 10);
      r
  }

  /** `s.zfill(width)` for a string without a sign: left-pad with '0' up to `width`. */
  function ZFill(s: string, width: nat): (r: string)
    ensures |r| == if |s| >= width then |s| else width
    ensures r[|r| - |s|..] == s
    ensures forall i :: 0 <= i < |r| - |s| ==> r[i] == '0'
    ensures IsDigits(s) ==> IsDigits(r)
  {
    if |s| >= width then s
    else
      var r := Repeat('0', width - |s|) + s;
      assert forall i :: width - |s| <= i < |r| ==> r[i] == s[i - (width - |s|)];
      r
  }

  /** A three-digit number, zero-padded, spells its hundreds, tens and units. */
  lemma ZFill3(n: nat)
    requires n < 1000
    ensures ZFill(DecimalString(n), 3) == [DigitChar(n / 100), DigitChar(n / 10 % 10), DigitChar(n % 10)]
  {
    var h, t, u := n / 100, n / 10 % 10, n % 10;
    if n >= 100 {
      assert n / 10 / 10 == h && n / 10 % 10 == t && n / 10 >= 10;
      DecimalTwo(n / 10);
      DecimalStep(n);
    } else if n >= 10 {
      assert h == 0 && n / 10 == t;
      DecimalTwo(n);
      PadOne(DigitChar(t), DigitChar(u));
    } else {
      assert h == 0 && t == 0 && u == n;
      PadTwo(DigitChar(u));
    }
  }

  lemma PadOne(a: char, b: char)
    ensures ZFill([a, b], 3) == ['0', a, b]
  {
    assert ZFill([a, b], 3) == Repeat('0', 1) + [a, b];
  }

  lemma PadTwo(a: char)
    ensures ZFill([a], 3) == ['0', '0', a]
  {
    assert ZFill([a], 3) == Repeat('0', 2) + [a];
  }

  lemma DecimalStep(n: nat)
    requires n >= 10
    ensures DecimalString(n) == DecimalString(n / 10) + [DigitChar(n % 10)]
  {
  }

  lemma DecimalTwo(n: nat)
    requires 10 <= n < 100
    ensures DecimalString(n) == [DigitChar(n / 10), DigitChar(n % 10)]
  {
    DecimalStep(n);
  }

  predicate IsBit(c: char) {
    c == '0' || c == '1'
  }

  /** A string of '0' and '1' characters, the source's representation of bits. */
  predicate IsBits(s: string) {
    forall i :: 0 <= i < |s| ==> IsBit(s[i])
  }

  function Pow2(k: nat): (r: nat)
    ensures r >= 1
  {
    if k == 0 then 1 else 2 * Pow2(k - 1)
  }

  /** The number a bit string spells, most significant bit first. */
  function BitsValue(s: string): nat {
    if |s| == 0 then 0 else 2 * BitsValue(s[..|s| - 1]) + (if s[|s| - 1] == '1' then 1 else 0)
  }

  /** `int(s, 2)` on the strings the codec produces: fails on the empty string and
      on any character other than '0' and '1'. */
  function ParseBinary(s: string): (r: Option<nat>)
    ensures r.Some? <==> |s| > 0 && IsBits(s)
    ensures r.Some? ==> r.value == BitsValue(s) && r.value < Pow2(|s|)
  {
    if |s| > 0 && IsBits(s) then BitsValueBound(s); Some(BitsValue(s)) else None
  }

  /** `bin(n)[2:]`: the binary spelling of `n` without leading zeros ("0" for zero). */
  function BinaryString(n: nat): (r: string)
    ensures |r| >= 1 && IsBits(r)
    ensures BitsValue(r) == n
    ensures n < 4 ==> |r| <= 2
    ensures n < 8 ==> |r| <= 3
    ensures n < 16 ==> |r| <= 4
    ensures r[0] == '1' || r == "0"
  {
    if n < 2 then [if n == 1 then '1' else '0']
    else
      var h := BinaryString(n / 2);
      var r := h + [if n % 2 == 1 then '1' else '0'];
      assert r[0] == h[0];
      assert r[..|r| - 1] == h;
      assert BitsValue(r) == 2 * BitsValue(h) + n % 2;
      assert n < 4 ==> n / 2 < 2 && |h| == 1;
      assert n < 8 ==> n / 2 < 4;
      assert n < 16 ==> n / 2 < 8;
      r
  }

  function BitValue(c: char): nat {
    if c == '1' then 1 else 0
  }

  /** The value of a three-bit string, digit by digit. */
  lemma BitsValue3(s: string)
    requires |s| == 3
    ensures BitsValue(s) == 4 * BitValue(s[0]) + 2 * BitValue(s[1]) + BitValue(s[2])
  {
    var s2, s1 := s[..2], s[..1];
    assert s2[..1] == s1 && s1[..0] == [];
    assert BitsValue(s1) == BitValue(s[0]);
    assert BitsValue(s2) == 2 * BitValue(s[0]) + BitValue(s[1]);
  }

  lemma {:induction false} BitsValueBound(s: string)
    ensures BitsValue(s) < Pow2(|s|)
  {
    if |s| > 0 {
      BitsValueBound(s[..|s| - 1]);
    }
  }

  /** The value of `a + b` is `a` shifted left by `|b|` bits plus `b`. */
  lemma {:induction false} BitsValueAppend(a: string, b: string)
    ensures BitsValue(a + b) == BitsValue(a) * Pow2(|b|) + BitsValue(b)
    decreases |b|
  {
    if |b| == 0 {
      assert a + b == a;
    } else {
      var b' := b[..|b| - 1];
      var bit := if b[|b| - 1] == '1' then 1 else 0;
      assert (a + b)[..|a + b| - 1] == a + b';
      assert (a + b)[|a + b| - 1] == b[|b| - 1];
      BitsValueAppend(a, b');
      assert BitsValue(a + b) == 2 * BitsValue(a + b') + bit;
      assert BitsValue(b) == 2 * BitsValue(b') + bit;
      assert Pow2(|b|) == 2 * Pow2(|b'|);
      ShiftStep(BitsValue(a), Pow2(|b'|), BitsValue(b'), bit);
    }
  }

  lemma ShiftStep(x: nat, p: nat, v: nat, bit: nat)
    ensures 2 * (x * p + v) + bit == x * (2 * p) + (2 * v + bit)
  {
  }

  lemma {:induction false} BitsValueZeros(k: nat)
    ensures BitsValue(Repeat('0', k)) == 0
  {
    if k > 0 {
      assert Repeat('0', k)[..k - 1] == Repeat('0', k - 1);
      BitsValueZeros(k - 1);
    }
  }

  /** Leading zeros do not change the value: `int(s.zfill(w), 2) == int(s, 2)`. */
  lemma ZFillValue(s: string, width: nat)
    requires IsBits(s)
    ensures IsBits(ZFill(s, width))
    ensures BitsValue(ZFill(s, width)) == BitsValue(s)
  {
    if |s| < width {
      BitsValueAppend(Repeat('0', width - |s|), s);
      BitsValueZeros(width - |s|);
    }
  }

  /** Two bit strings of the same length and value are equal. */
  lemma {:induction false} BitsValueInjective(a: string, b: string)
    requires |a| == |b| && IsBits(a) && IsBits(b) && BitsValue(a) == BitsValue(b)
    ensures a == b
  {
    if |a| > 0 {
      var a', b' := a[..|a| - 1], b[..|b| - 1];
      assert IsBits(a') && IsBits(b');
      assert a[|a| - 1] == b[|b| - 1];
      BitsValueInjective(a', b');
      assert a == a' + [a[|a| - 1]] && b == b' + [b[|b| - 1]];
    }
  }

  lemma IsBitsAppend(a: string, b: string)
    ensures IsBits(a + b) <==> IsBits(a) && IsBits(b)
  {
    if IsBits(a) && IsBits(b) {
      forall i | 0 <= i < |a + b| ensures IsBit((a + b)[i]) {
        if i >= |a| { assert (a + b)[i] == b[i - |a|]; }
      }
    }
    if IsBits(a + b) {
      forall i | 0 <= i < |a| ensures IsBit(a[i]) {
        assert (a + b)[i] == a[i];
      }
      forall i | 0 <= i < |b| ensures IsBit(b[i]) {
        assert (a + b)[|a| + i] == b[i];
      }
    }
  }
}

=== FILE: rasterdecoder.dfy ===
/** The picture decoder (Decoding/to_picture.py): each 437-nucleotide matrix row
    is read back as 87 five-nucleotide groups and a two-nucleotide tail, giving
    700 bits; the bits are cut into 2-bit colour codes and the codes into pixels.
    Unreadable fields are counted and read as zero bits. */
module RasterDecoder {
  import opened Results
  import opened Seqs
  import opened PyStr
  import opened Tables
  import opened Packer

  /** Bits read back, and the number of fields that could not be read. */
  datatype Decoded = Decoded(bits: string, errors: nat)

  /** The number of fields of a group that are not in their table: the first
      letter in any case, then the codewords [1:3] and [3:5]. */
  function UnreadableFields(single: string): (r: nat)
    requires |single| > 0
    ensures r <= 3
  {
    (if IsNucleotide(Upper(single[0])) then 0 else 1)
    + (if Slice(single, 1, 3) in Codewords then 0 else 1)
    + (if Slice(single, 3, 5) in Codewords then 0 else 1)
  }

  /** The unreadable fields of each group of a list. */
  function FieldErrors(chunks: seq<string>): (r: seq<nat>)
    requires forall k :: 0 <= k < |chunks| ==> |chunks[k]| > 0
    ensures |r| == |chunks| && forall k :: 0 <= k < |chunks| ==> r[k] == UnreadableFields(chunks[k])
  {
    seq(|chunks|, k requires 0 <= k < |chunks| => UnreadableFields(chunks[k]))
  }

  /** The unreadable group fields of a joined matrix row: those of the groups of row[0:435]. */
  function RowUnreadable(row: string): nat {
    var front := Slice(row, 0, 435);
    ChunksNonEmpty(front, 5);
    Sum(FieldErrors(Chunks(front, 5)))
  }

  lemma ChunksNonEmpty(s: string, n: nat)
    requires n > 0
    ensures forall k :: 0 <= k < |Chunks(s, n)| ==> |Chunks(s, n)[k]| > 0
  {
  }

  /** One group of up to five nucleotides (to_picture.py:185-203): char_to_number
      of the first, get_tri_mapping_value of [1:3] and [3:5]; a field that is not
      in its table counts one error and reads as '00' or '000'. */
  function DecodeChunk(single: string): (r: Decoded)
    requires |single| > 0
    ensures |r.bits| == 8 && IsBits(r.bits)
    ensures r.errors == UnreadableFields(single)
    ensures r.errors == 0 <==>
              IsNucleotide(Upper(single[0])) && Slice(single, 1, 3) in Codewords && Slice(single, 3, 5) in Codewords
  {
    var a := BitsOfNucleotideAnyCase(single[0]);
    var b := BitsOfDinucleotide(Slice(single, 1, 3));
    var c := BitsOfDinucleotide(Slice(single, 3, 5));
    var bits := a.GetOr("00") + b.GetOr("000") + c.GetOr("000");
    IsBitsAppend(a.GetOr("00"), b.GetOr("000"));
    IsBitsAppend(a.GetOr("00") + b.GetOr("000"), c.GetOr("000"));
    Decoded(bits, (if a.None? then 1 else 0) + (if b.None? then 1 else 0) + (if c.None? then 1 else 0))
  }

  /** The three fields of a group of five, as DecodeChunk reads them. */
  lemma ChunkFields(single: string)
    requires |single| == 5
    ensures DecodeChunk(single).bits
         == BitsOfNucleotideAnyCase(single[0]).GetOr("00")
          + BitsOfDinucleotide(single[1..3]).GetOr("000")
          + BitsOfDinucleotide(single[3..5]).GetOr("000")
  {
  }

  /** Eight bits cut as 2 + 3 + 3 pack to the letters of their three fields. */
  lemma PackOfFields(x: string, y: string, z: string)
    requires |x| == 2 && |y| == 3 && |z| == 3 && IsBits(x) && IsBits(y) && IsBits(z)
    ensures |x + y + z| == 8 && IsBits(x + y + z)
    ensures NucleotideOfBits(x).Some? && DinucleotideOfBits(y).Some? && DinucleotideOfBits(z).Some?
    ensures PackByte(x + y + z) == NucleotideOfBits(x).value + DinucleotideOfBits(y).value + DinucleotideOfBits(z).value
  {
    IsBitsAppend(x, y);
    IsBitsAppend(x + y, z);
    var g := x + y + z;
    ThreeParts(g, x, y, z);
    assert g[..2] == x && g[2..5] == y && g[5..8] == z;
    PackByteFields(g);
  }

  /** Decoding a packed group gives its eight bits back, with no error. */
  lemma ChunkRoundTrip(g: string)
    requires |g| == 8 && IsBits(g)
    ensures DecodeChunk(PackByte(g)) == Decoded(g, 0)
  {
    var x, y, z := g[..2], g[2..5], g[5..];
    CutTwice(g, 2, 5);
    assert g == x + y + z;
    PackOfFields(x, y, z);
    var n, d1, d2 := NucleotideOfBits(x).value, DinucleotideOfBits(y).value, DinucleotideOfBits(z).value;
    var p := PackByte(g);
    assert |d1| == 2 && |d2| == 2;
    ThreeParts(p, n, d1, d2);
    assert p[0] == n[0] && Upper(p[0]) == p[0] && n == [p[0]];
    NucleotideRoundTrip(x);
    DinucleotideRoundTrip(y);
    DinucleotideRoundTrip(z);
    ChunkFields(p);
  }

  /** An upper-case group that decodes without error is the packing of its bits. */
  lemma ChunkReencode(single: string)
    requires |single| == 5 && IsNucleotideText(single) && DecodeChunk(single).errors == 0
    ensures PackByte(DecodeChunk(single).bits) == single
  {
    var a, b, c := single[..1], single[1..3], single[3..5];
    assert Upper(single[0]) == single[0] && a == [single[0]];
    NucleotideRoundTrip(a);
    DinucleotideRoundTrip(b);
    DinucleotideRoundTrip(c);
    ChunkFields(single);
    var x, y, z := BitsOfNucleotide(a).value, BitsOfDinucleotide(b).value, BitsOfDinucleotide(c).value;
    assert DecodeChunk(single).bits == x + y + z;
    PackOfFields(x, y, z);
    CutTwice(single, 1, 3);
  }

  /** The groups of a row, in order: their bits joined and their errors added. */
  function DecodeChunks(chunks: seq<string>): (r: Decoded)
    requires forall k :: 0 <= k < |chunks| ==> |chunks[k]| > 0
    ensures |r.bits| == 8 * |chunks| && IsBits(r.bits)
    ensures r.errors == Sum(FieldErrors(chunks)) && r.errors <= 3 * |chunks|
  {
    if |chunks| == 0 then Decoded("", 0)
    else
      var first := DecodeChunk(chunks[0]);
      var rest := DecodeChunks(chunks[1..]);
      IsBitsAppend(first.bits, rest.bits);
      assert FieldErrors(chunks)[1..] == FieldErrors(chunks[1..]);
      Decoded(first.bits + rest.bits, first.errors + rest.errors)
  }

  /** Decoding the packings of a list of groups gives the joined groups back. */
  lemma {:induction false} ChunksRoundTrip(groups: seq<string>, each: seq<string>)
    requires forall k :: 0 <= k < |groups| ==> |groups[k]| == 8 && IsBits(groups[k])
    requires |each| == |groups| && forall k :: 0 <= k < |groups| ==> each[k] == PackByte(groups[k]) && |each[k]| == 5
    ensures DecodeChunks(each) == Decoded(Flatten(groups), 0)
  {
    if |groups| > 0 {
      ChunkRoundTrip(groups[0]);
      assert forall k :: 1 <= k < |groups| ==> groups[k] == groups[1..][k - 1] && each[k] == each[1..][k - 1];
      ChunksRoundTrip(groups[1..], each[1..]);
    }
  }

  /** The bits of a list of groups are the join of each group's bits. */
  lemma {:induction false} DecodeChunksBits(chunks: seq<string>, each: seq<string>)
    requires forall k :: 0 <= k < |chunks| ==> |chunks[k]| > 0
    requires |each| == |chunks| && forall k :: 0 <= k < |chunks| ==> each[k] == DecodeChunk(chunks[k]).bits
    ensures DecodeChunks(chunks).bits == Flatten(each)
  {
    if |chunks| > 0 {
      assert forall k :: 1 <= k < |chunks| ==> chunks[k] == chunks[1..][k - 1] && each[k] == each[1..][k - 1];
      DecodeChunksBits(chunks[1..], each[1..]);
    }
  }

  /** A list of groups decodes cleanly exactly when every group does. */
  lemma {:induction false} DecodeChunksClean(chunks: seq<string>)
    requires forall k :: 0 <= k < |chunks| ==> |chunks[k]| > 0
    ensures DecodeChunks(chunks).errors == 0 <==> forall k :: 0 <= k < |chunks| ==> DecodeChunk(chunks[k]).errors == 0
  {
    if |chunks| > 0 {
      assert forall k :: 1 <= k < |chunks| ==> chunks[k] == chunks[1..][k - 1];
      DecodeChunksClean(chunks[1..]);
    }
  }

  /** The row loop body of to_picture.py:178-212 on the joined row: the groups of
      row[0:435], then get_mapping_value of row[435] and row[436]. The tail lookup
      is case-sensitive and unguarded: if either is missing, `d + e` raises TypeError. */
  function DecodeRowText(row: string): (r: Result<Decoded>)
    ensures r.Ok? <==> |row| >= 437 && IsNucleotide(row[435]) && IsNucleotide(row[436])
    ensures r.Err? ==> r.fault == TypeError
    ensures r.Ok? ==> |r.value.bits| == 700 && IsBits(r.value.bits)
    ensures r.Ok? ==> r.value.errors == RowUnreadable(row)
  {
    var front := Slice(row, 0, 435);
    var body := DecodeChunks(Chunks(front, 5));
    var tail := Slice(row, 435, 437);
    var d := BitsOfNucleotide(Slice(tail, 0, 1));
    var e := BitsOfNucleotide(Slice(tail, 1, 2));
    if d.None? || e.None? then Err(TypeError)
    else
      ChunksExact(front, 5, 87);
      IsBitsAppend(body.bits, d.value);
      IsBitsAppend(body.bits + d.value, e.value);
      Ok(Decoded(body.bits + d.value + e.value, body.errors))
  }

  lemma TailSlices(n1: string, n2: string)
    requires |n1| == 1 && |n2| == 1
    ensures Slice(n1 + n2, 0, 1) == n1 && Slice(n1 + n2, 1, 2) == n2
  {
    assert (n1 + n2)[1..2] == n2;
  }

  /** A 437-nucleotide row decodes as its 87 groups, then its two tail letters. */
  lemma RowTextOf(body: string, n1: string, n2: string)
    requires |body| == 435 && |n1| == 1 && |n2| == 1 && IsNucleotide(n1[0]) && IsNucleotide(n2[0])
    ensures BitsOfNucleotide(n1).Some? && BitsOfNucleotide(n2).Some?
    ensures DecodeRowText(body + n1 + n2)
         == Ok(Decoded(DecodeChunks(Chunks(body, 5)).bits + BitsOfNucleotide(n1).value + BitsOfNucleotide(n2).value,
                       DecodeChunks(Chunks(body, 5)).errors))
  {
    var row := body + n1 + n2;
    assert Slice(row, 0, 435) == body;
    assert Slice(row, 435, 437) == n1 + n2;
    TailSlices(n1, n2);
  }

  /** A packed row is 435 nucleotides that decode to its first 696 bits, then
      one nucleotide for each of the last two bit pairs. */
  lemma PackedRowParts(bits: string) returns (body: string, n1: string, n2: string)
    requires |bits| == 700 && IsBits(bits)
    ensures PackRow(bits) == Ok(body + n1 + n2)
    ensures |body| == 435 && DecodeChunks(Chunks(body, 5)) == Decoded(bits[..696], 0)
    ensures |n1| == 1 && |n2| == 1 && IsNucleotide(n1[0]) && IsNucleotide(n2[0])
    ensures BitsOfNucleotide(n1) == Some(bits[696..698]) && BitsOfNucleotide(n2) == Some(bits[698..700])
  {
    var groups := PackRowParts(bits);
    var each := seq(87, k requires 0 <= k < 87 => PackByte(groups[k]));
    body := Flatten(each);
    n1, n2 := NucleotideOfBits(bits[696..698]).value, NucleotideOfBits(bits[698..700]).value;
    assert Uniform(each, 5);
    FlattenUniformLength(each, 5);
    ChunksOfFlatten(each, 5);
    ChunksRoundTrip(groups, each);
    NucleotideRoundTrip(bits[696..698]);
    NucleotideRoundTrip(bits[698..700]);
  }

  /** Decoding a packed 700-bit row gives the row back, with no error. */
  lemma RowRoundTrip(bits: string)
    requires |bits| == 700 && IsBits(bits)
    ensures PackRow(bits).Ok?
    ensures DecodeRowText(PackRow(bits).value) == Ok(Decoded(bits, 0))
  {
    var body, n1, n2 := PackedRowParts(bits);
    RowTextOf(body, n1, n2);
    CutTwice(bits, 696, 698);
  }

  /** An upper-case 437-nucleotide row that decodes without error is the packing
      of the bits it decodes to. */
  lemma RowReencode(row: string)
    requires |row| == 437 && IsNucleotideText(row)
    ensures DecodeRowText(row).Ok?
    ensures DecodeRowText(row).value.errors == 0 ==> PackRow(DecodeRowText(row).value.bits) == Ok(row)
  {
    var body, n1, n2 := row[..435], row[435..436], row[436..437];
    assert row == body + n1 + n2;
    assert IsNucleotide(row[435]) && IsNucleotide(row[436]);
    RowTextOf(body, n1, n2);
    var chunks := Chunks(body, 5);
    ChunksExact(body, 5, 87);
    ChunksJoin(body, 5);
    DecodeChunksClean(chunks);
    var d := DecodeRowText(row).value;
    if d.errors == 0 {
      var front := seq(87, k requires 0 <= k < 87 => DecodeChunk(chunks[k]).bits);
      DecodeChunksBits(chunks, front);
      var x, y := BitsOfNucleotide(n1).value, BitsOfNucleotide(n2).value;
      assert d.bits == Flatten(front) + x + y;
      assert Uniform(front, 8);
      FlattenUniformLength(front, 8);
      ReencodeChunks(body, chunks, front);
      ReencodeTail(d.bits, Flatten(front), x, y, n1, n2);
      var groups := PackRowParts(d.bits);
      ChunksOfFlatten(front, 8);
      assert groups == front;
      PackedEach(groups, chunks);
    }
  }

  lemma PackedEach(groups: seq<string>, chunks: seq<string>)
    requires |groups| == 87 && |chunks| == 87
    requires forall k :: 0 <= k < 87 ==> |groups[k]| == 8 && IsBits(groups[k]) && PackByte(groups[k]) == chunks[k]
    ensures seq(87, k requires 0 <= k < 87 => PackByte(groups[k])) == chunks
  {
  }

  /** Each clean group re-packs to itself. */
  lemma ReencodeChunks(body: string, chunks: seq<string>, front: seq<string>)
    requires |body| == 435 && IsNucleotideText(body) && chunks == Chunks(body, 5)
    requires |chunks| == 87 && Uniform(chunks, 5) && Flatten(chunks) == body
    requires front == seq(87, k requires 0 <= k < 87 => DecodeChunk(chunks[k]).bits)
    requires forall k :: 0 <= k < 87 ==> DecodeChunk(chunks[k]).errors == 0
    ensures forall k :: 0 <= k < 87 ==> |front[k]| == 8 && IsBits(front[k]) && PackByte(front[k]) == chunks[k]
  {
    forall k | 0 <= k < 87
      ensures IsNucleotideText(chunks[k])
    {
      forall j | 0 <= j < 5
        ensures IsNucleotide(chunks[k][j])
      {
        FlattenAt(chunks, 5, k, j);
      }
    }
    forall k | 0 <= k < 87
      ensures PackByte(front[k]) == chunks[k]
    {
      ChunkReencode(chunks[k]);
    }
  }

  /** The last four bits re-pack to the two tail letters. */
  lemma ReencodeTail(bits: string, front: string, x: string, y: string, n1: string, n2: string)
    requires |front| == 696 && bits == front + x + y
    requires |n1| == 1 && |n2| == 1 && IsNucleotide(n1[0]) && IsNucleotide(n2[0])
    requires BitsOfNucleotide(n1) == Some(x) && BitsOfNucleotide(n2) == Some(y)
    ensures |bits| == 700 && bits[..696] == front && bits[696..698] == x && bits[698..700] == y
    ensures NucleotideOfBits(x) == Some(n1) && NucleotideOfBits(y) == Some(n2)
  {
    NucleotideRoundTrip(n1);
    NucleotideRoundTrip(n2);
  }

  /** `''.join(data_array[i])`, then the row decoded. */
  function DecodeRow(cells: seq<string>): (r: Result<Decoded>)
    ensures r.Ok? ==> |r.value.bits| == 700 && IsBits(r.value.bits)
    ensures r.Ok? ==> r.value.errors == RowUnreadable(Flatten(cells))
  {
    DecodeRowText(Flatten(cells))
  }

  /** The rows present among the first n, each decoded. */
  function RowResults(data: seq<seq<string>>, n: nat): (r: seq<Result<Decoded>>)
    ensures |r| == Min(n, |data|) && forall i :: 0 <= i < |r| ==> r[i] == DecodeRow(data[i])
  {
    seq(Min(n, |data|), i requires 0 <= i < Min(n, |data|) => DecodeRow(data[i]))
  }

  /** The first n rows decoded in order: a row whose tail is unreadable raises
      TypeError, and running past the last row raises IndexError. */
  function DecodeRows(data: seq<seq<string>>, n: nat): (r: Result<seq<Decoded>>)
    ensures r.Ok? ==> |r.value| == n
    ensures r.Err? ==> r.fault == IndexError || r.fault == TypeError
  {
    var rs := RowResults(data, n);
    var all := AllOk(rs);
    AllOkMeaning(rs);
    if all.Err? then Err(all.fault)
    else if n > |data| then Err(IndexError)
    else all
  }

  /** The first n rows decode exactly when there are n rows and each decodes,
      and then the list holds their results in order. */
  lemma DecodeRowsMeaning(data: seq<seq<string>>, n: nat)
    ensures DecodeRows(data, n).Ok? <==> n <= |data| && forall i :: 0 <= i < n ==> DecodeRow(data[i]).Ok?
    ensures DecodeRows(data, n).Ok? ==> forall i :: 0 <= i < n ==> DecodeRows(data, n).value[i] == DecodeRow(data[i]).value
  {
    AllOkMeaning(RowResults(data, n));
  }

  /** Rows that each decode to their entry of ds decode together to ds. */
  lemma DecodeRowsAll(data: seq<seq<string>>, n: nat, ds: seq<Decoded>)
    requires n <= |data| && |ds| == n
    requires forall i :: 0 <= i < n ==> DecodeRow(data[i]) == Ok(ds[i])
    ensures DecodeRows(data, n) == Ok(ds)
  {
    DecodeRowsMeaning(data, n);
    var r := DecodeRows(data, n);
    assert r.Ok?;
    assert r.value == ds;
  }

  /** fill_matrix (to_picture.py:80-94): 341 strings of 700 bits to a 341 x 350
      matrix of 2-character codes; any other shape raises ValueError. */
  function FillMatrix(rows: seq<string>): (r: Result<seq<seq<string>>>)
    ensures r.Ok? <==> |rows| == 341 && forall i :: 0 <= i < |rows| ==> |rows[i]| == 700
    ensures r.Err? ==> r.fault == ValueError
    ensures r.Ok? ==> |r.value| == 341 && forall i :: 0 <= i < 341 ==> |r.value[i]| == 350
    ensures r.Ok? ==> forall i, j :: 0 <= i < 341 && 0 <= j < 350 ==> |r.value[i][j]| == 2
    ensures r.Ok? ==> forall i :: 0 <= i < 341 ==> Flatten(r.value[i]) == rows[i]
  {
    if |rows| != 341 then Err(ValueError)
    else if exists i :: 0 <= i < |rows| && |rows[i]| != 700 then Err(ValueError)
    else
      var m := seq(341, i requires 0 <= i < 341 => Pairs(rows[i]));
      Ok(m)
  }

  /** A 700-character row as its 350 consecutive pairs. */
  function Pairs(s: string): (r: seq<string>)
    requires |s| == 700
    ensures |r| == 350 && forall j :: 0 <= j < 350 ==> r[j] == s[2 * j..2 * j + 2]
    ensures Flatten(r) == s
  {
    var r := seq(350, j requires 0 <= j < 350 => s[2 * j..2 * j + 2]);
    PairsJoin(s, r);
    r
  }

  lemma PairsJoin(s: string, r: seq<string>)
    requires |s| == 700 && |r| == 350 && forall j :: 0 <= j < 350 ==> r[j] == s[2 * j..2 * j + 2]
    ensures Flatten(r) == s
  {
    ChunksExact(s, 2, 350);
    forall j | 0 <= j < 350
      ensures Chunks(s, 2)[j] == r[j]
    {
      ChunkAt(s, 2, 350, j, 0);
      ChunkAt(s, 2, 350, j, 1);
    }
    assert Chunks(s, 2) == r;
    ChunksJoin(s, 2);
  }

  /** One row of restore_pixel_matrix: the colours of its first `width` codes;
      IndexError if the row is shorter, ValueError at the first unknown code. */
  function RestoreRow(row: seq<string>, width: nat): (r: Result<seq<Rgb>>)
    ensures r.Ok? <==> width <= |row| && forall x :: 0 <= x < width ==> row[x] in CodeToColor
    ensures r.Ok? ==> |r.value| == width && forall x :: 0 <= x < width ==> r.value[x] == CodeToColor[row[x]]
    decreases width
  {
    if width == 0 then Ok([])
    else if |row| == 0 then Err(IndexError)
    else if row[0] !in CodeToColor then Err(ValueError)
    else
      assert forall x :: 1 <= x < |row| ==> row[x] == row[1..][x - 1];
      var rest :- RestoreRow(row[1..], width - 1);
      Ok([CodeToColor[row[0]]] + rest)
  }

  function RestoreRows(m: seq<seq<string>>, width: nat): (r: Result<seq<seq<Rgb>>>)
    ensures r.Ok? <==> forall y :: 0 <= y < |m| ==> RestoreRow(m[y], width).Ok?
    ensures r.Ok? ==> |r.value| == |m| && forall y :: 0 <= y < |m| ==> r.value[y] == RestoreRow(m[y], width).value
  {
    if |m| == 0 then Ok([])
    else
      assert forall y :: 1 <= y < |m| ==> m[y] == m[1..][y - 1];
      var first :- RestoreRow(m[0], width);
      var rest :- RestoreRows(m[1..], width);
      Ok([first] + rest)
  }

  /** restore_pixel_matrix (to_picture.py:96-112): the width is that of the first row. */
  function RestorePixelMatrix(m: seq<seq<string>>): (r: Result<seq<seq<Rgb>>>)
    ensures var w := if |m| > 0 then |m[0]| else 0;
      r.Ok? <==> forall y :: 0 <= y < |m| ==> RestoreRow(m[y], w).Ok?
    ensures var w := if |m| > 0 then |m[0]| else 0;
      r.Ok? <==> forall y :: 0 <= y < |m| ==> w <= |m[y]| && forall x :: 0 <= x < w ==> m[y][x] in CodeToColor
    ensures r.Ok? ==> |r.value| == |m|
    ensures r.Ok? ==> forall y :: 0 <= y < |m| ==> |r.value[y]| == |m[0]|
    ensures r.Ok? ==> forall y, x :: 0 <= y < |m| && 0 <= x < |r.value[y]| ==>
              x < |m[y]| && m[y][x] in CodeToColor && r.value[y][x] == CodeToColor[m[y][x]]
  {
    RestoreRows(m, if |m| > 0 then |m[0]| else 0)
  }

  /** Sum of the decoding errors of a list of rows. */
  function ErrorSum(ds: seq<Decoded>): nat {
    if |ds| == 0 then 0 else ds[0].errors + ErrorSum(ds[1..])
  }

  function BitRows(ds: seq<Decoded>): (r: seq<string>)
    ensures |r| == |ds| && forall i :: 0 <= i < |ds| ==> r[i] == ds[i].bits
  {
    seq(|ds|, i requires 0 <= i < |ds| => ds[i].bits)
  }

  /** No decoding error anywhere exactly when no row has one. */
  lemma {:induction false} ErrorSumZero(ds: seq<Decoded>)
    ensures ErrorSum(ds) == 0 <==> forall i :: 0 <= i < |ds| ==> ds[i].errors == 0
  {
    if |ds| > 0 {
      ErrorSumZero(ds[1..]);
      assert forall i :: 1 <= i < |ds| ==> ds[i] == ds[1..][i - 1];
    }
  }

  /** Every pair of a bit string is a colour code. */
  lemma PairsAreCodes(bits: string, n: nat)
    requires |bits| == 2 * n && IsBits(bits)
    ensures forall x :: 0 <= x < n ==> bits[2 * x..2 * x + 2] in CodeToColor
  {
    ColorTables();
    forall x | 0 <= x < n
      ensures bits[2 * x..2 * x + 2] in CodeToColor
    {
      var c := bits[2 * x..2 * x + 2];
      assert c[0] == bits[2 * x] && c[1] == bits[2 * x + 1];
      assert |c| == 2 && IsBits(c);
    }
  }

  /** The pairs of a 700-bit row restore to their colours. */
  lemma RestorePairs(bits: string)
    requires |bits| == 700 && IsBits(bits)
    ensures RestoreRow(Pairs(bits), 350).Ok?
    ensures forall x :: 0 <= x < 350 ==> RestoreRow(Pairs(bits), 350).value[x] == PairColor(bits[2 * x], bits[2 * x + 1])
  {
    PairsAreCodes(bits, 350);
    var p := Pairs(bits);
    forall x | 0 <= x < 350
      ensures p[x] in CodeToColor && CodeToColor[p[x]] == PairColor(bits[2 * x], bits[2 * x + 1])
    {
      assert p[x] == [bits[2 * x], bits[2 * x + 1]];
    }
  }

  /** 341 decoded rows of 700 bits always fill the matrix and restore to pixels. */
  lemma RasterCodes(ds: seq<Decoded>)
    requires |ds| == 341 && forall i :: 0 <= i < 341 ==> |ds[i].bits| == 700 && IsBits(ds[i].bits)
    ensures FillMatrix(BitRows(ds)).Ok?
    ensures RestorePixelMatrix(FillMatrix(BitRows(ds)).value).Ok?
    ensures var px := RestorePixelMatrix(FillMatrix(BitRows(ds)).value).value;
      |px| == 341 && forall y :: 0 <= y < 341 ==> |px[y]| == 350
    ensures var px := RestorePixelMatrix(FillMatrix(BitRows(ds)).value).value;
      forall y, x :: 0 <= y < 341 && 0 <= x < 350 ==> px[y][x] == PairColor(ds[y].bits[2 * x], ds[y].bits[2 * x + 1])
  {
    var m := FillMatrix(BitRows(ds)).value;
    forall y | 0 <= y < 341
      ensures m[y] == Pairs(ds[y].bits) && RestoreRow(m[y], 350).Ok?
      ensures forall x :: 0 <= x < 350 ==> RestoreRow(m[y], 350).value[x] == PairColor(ds[y].bits[2 * x], ds[y].bits[2 * x + 1])
    {
      RestorePairs(ds[y].bits);
    }
    assert |m[0]| == 350;

  }

  /** The rows DecodeRows returns are 700-bit strings. */
  lemma DecodedRows(data: seq<seq<string>>, ds: seq<Decoded>)
    requires DecodeRows(data, 341) == Ok(ds)
    ensures 341 <= |data| && |ds| == 341
    ensures forall i :: 0 <= i < 341 ==>
              DecodeRow(data[i]).Ok? && ds[i] == DecodeRow(data[i]).value
              && |ds[i].bits| == 700 && IsBits(ds[i].bits)
  {
    DecodeRowsMeaning(data, 341);
  }

  /** The unreadable group fields of each of the first n rows. */
  function RowErrors(data: seq<seq<string>>, n: nat): (r: seq<nat>)
    requires n <= |data|
    ensures |r| == n && forall i :: 0 <= i < n ==> r[i] == RowUnreadable(Flatten(data[i]))
  {
    seq(n, i requires 0 <= i < n => RowUnreadable(Flatten(data[i])))
  }

  lemma {:induction false} ErrorSumIs(ds: seq<Decoded>, xs: seq<nat>)
    requires |ds| == |xs| && forall i :: 0 <= i < |ds| ==> ds[i].errors == xs[i]
    ensures ErrorSum(ds) == Sum(xs)
  {
    if |ds| > 0 {
      assert forall i :: 1 <= i < |ds| ==> ds[i] == ds[1..][i - 1] && xs[i] == xs[1..][i - 1];
      ErrorSumIs(ds[1..], xs[1..]);
    }
  }

  /** The decoding errors of the rows are their unreadable group fields. */
  lemma RasterErrors(data: seq<seq<string>>, ds: seq<Decoded>)
    requires DecodeRows(data, 341) == Ok(ds)
    ensures 341 <= |data| && ErrorSum(ds) == Sum(RowErrors(data, 341))
  {
    DecodedRows(data, ds);
    ErrorSumIs(ds, RowErrors(data, 341));
  }

  /** The decoder's main block (to_picture.py:177-215) on the matrix read from CSV:
      the pixels and the number of unreadable group fields. */
  function DecodeRaster(data: seq<seq<string>>): (r: Result<(seq<seq<Rgb>>, nat)>)
    ensures r.Ok? <==> 341 <= |data| && forall i :: 0 <= i < 341 ==> DecodeRow(data[i]).Ok?
    ensures r.Err? ==> r.fault == IndexError || r.fault == TypeError
    ensures r.Ok? ==> |r.value.0| == 341 && forall y :: 0 <= y < 341 ==> |r.value.0[y]| == 350
    ensures r.Ok? ==> r.value.1 == Sum(RowErrors(data, 341))
    ensures r.Ok? ==> (r.value.1 == 0 <==> forall i :: 0 <= i < 341 ==> DecodeRow(data[i]).value.errors == 0)
  {
    DecodeRowsMeaning(data, 341);
    var ds :- DecodeRows(data, 341);
    DecodedRows(data, ds);
    RasterCodes(ds);
    ErrorSumZero(ds);
    RasterErrors(data, ds);
    Ok((RestorePixelMatrix(FillMatrix(BitRows(ds)).value).value, ErrorSum(ds)))
  }

  /** Each decoded pixel is the colour of the matching pair of its row's bits. */
  lemma RasterPixels(data: seq<seq<string>>, rows: seq<Decoded>)
    requires DecodeRows(data, 341) == Ok(rows)
    ensures 341 <= |data| && |rows| == 341
    ensures forall y :: 0 <= y < 341 ==>
              DecodeRow(data[y]) == Ok(rows[y]) && |rows[y].bits| == 700 && IsBits(rows[y].bits)
    ensures DecodeRaster(data).Ok? && |DecodeRaster(data).value.0| == 341
    ensures forall y :: 0 <= y < 341 ==> |DecodeRaster(data).value.0[y]| == 350
    ensures forall y, x :: 0 <= y < 341 && 0 <= x < 350 ==>
              DecodeRaster(data).value.0[y][x] == PairColor(rows[y].bits[2 * x], rows[y].bits[2 * x + 1])
  {
    DecodedRows(data, rows);
    RasterCodes(rows);
    var px := RestorePixelMatrix(FillMatrix(BitRows(rows)).value).value;
    assert DecodeRaster(data) == Ok((px, ErrorSum(rows)));
  }
}

=== FILE: reconstructor.dfy ===
/** The pool reader (Decoding/recovery.py): sequencing reads are placed into a
    341 x 5 matrix by the address in their first ten nucleotides, with a running
    error score and a count of placed reads. */
module Reconstructor {
  import opened Results
  import opened Seqs
  import opened PyStr
  import opened Addressing

  const Rows: nat := 341
  const Cols: nat := 5

  /** A line of whitespace only (or empty). */
  predicate Blank(line: string) {
    forall i :: 0 <= i < |line| ==> IsSpace(line[i])
  }

  /** `line.split(maxsplit=1)[0]` (recovery.py:25): the first whitespace-delimited
      word of a line; IndexError on a blank line. */
  function FirstToken(line: string): (r: Result<string>)
    ensures r.Err? <==> Blank(line)
    ensures r.Err? ==> r.fault == IndexError
    ensures r.Ok? ==> |r.value| > 0 && NoSpace(r.value)
  {
    var t := StripLeft(line);
    if |t| == 0 then Err(IndexError)
    else
      assert !IsSpace(line[|line| - |t|]);
      Ok(TakeWord(t))
  }

  /** A read followed by a space and anything else yields that read. */
  lemma FirstTokenOf(read: string, rest: string)
    requires |read| > 0 && NoSpace(read)
    requires rest == [] || IsSpace(rest[0])
    ensures FirstToken(read + rest) == Ok(read)
  {
    var line := read + rest;
    assert StripLeft(line) == line by {
      assert !IsSpace(line[0]);
    }
    TakeWordOf(read, rest);
  }

  lemma {:induction false} TakeWordOf(w: string, rest: string)
    requires NoSpace(w) && (rest == [] || IsSpace(rest[0]))
    ensures TakeWord(w + rest) == w
  {
    if |w| > 0 {
      assert (w + rest)[1..] == w[1..] + rest;
      TakeWordOf(w[1..], rest);
    } else {
      assert w + rest == rest;
    }
  }

  /** recovery.py:23-26: the first word of every line after the header line;
      a blank line stops the reader with IndexError before any read is placed. */
  function FirstTokens(lines: seq<string>): (r: Result<seq<string>>)
    ensures r.Err? ==> r.fault == IndexError
    ensures r.Ok? ==> |r.value| == |lines|
  {
    AllOkMeaning(Tokens(lines));
    AllOk(Tokens(lines))
  }

  /** The first word of each line, or its IndexError. */
  function Tokens(lines: seq<string>): (r: seq<Result<string>>)
    ensures |r| == |lines| && forall k :: 0 <= k < |lines| ==> r[k] == FirstToken(lines[k])
  {
    seq(|lines|, k requires 0 <= k < |lines| => FirstToken(lines[k]))
  }

  /** The reader gets past its first loop exactly when no line is blank, and
      then holds the first word of every line, in order. */
  lemma FirstTokensMeaning(lines: seq<string>)
    ensures FirstTokens(lines).Ok? <==> forall k :: 0 <= k < |lines| ==> !Blank(lines[k])
    ensures FirstTokens(lines).Ok? ==>
              forall k :: 0 <= k < |lines| ==> FirstTokens(lines).value[k] == FirstToken(lines[k]).value
  {
    AllOkMeaning(Tokens(lines));
  }

  /** Lines that are single words are their own first word. */
  lemma FirstTokensOfReads(rs: seq<string>)
    requires forall k :: 0 <= k < |rs| ==> |rs[k]| > 0 && NoSpace(rs[k])
    ensures FirstTokens(rs) == Ok(rs)
  {
    var r := FirstTokens(rs);
    FirstTokensMeaning(rs);
    assert r.Ok? by {
      ReadsAreTokens(rs);
      assert forall k :: 0 <= k < |rs| ==> !Blank(rs[k]);
    }
    assert r.value == rs by {
      ReadsAreTokens(rs);
    }
  }

  lemma ReadsAreTokens(rs: seq<string>)
    requires forall k :: 0 <= k < |rs| ==> |rs[k]| > 0 && NoSpace(rs[k])
    ensures forall k :: 0 <= k < |rs| ==> FirstToken(rs[k]) == Ok(rs[k])
  {
    forall k | 0 <= k < |rs|
      ensures FirstToken(rs[k]) == Ok(rs[k])
    {
      WordIsToken(rs[k]);
    }
  }

  lemma WordIsToken(w: string)
    requires |w| > 0 && NoSpace(w)
    ensures FirstToken(w) == Ok(w)
  {
    var none: string := [];
    assert w + none == w;
    TakeWordOf(w, none);
    assert !IsSpace(w[0]) && StripLeft(w) == w;
  }

  /** NumPy's index into an axis of length n: -n <= i < n, negative from the end. */
  function AxisIndex(i: int, n: nat): (r: Option<nat>)
    ensures r.Some? <==> -(n as int) <= i < n
    ensures r.Some? ==> r.value < n && (r.value as int == i || r.value as int == i + n)
  {
    if -(n as int) <= i < 0 then Some(i + n) else if 0 <= i < n then Some(i) else None
  }

  /** What the reader does with one read. */
  datatype Disposition =
    | BadAddress              // a field is not in its table: the join raises TypeError
    | OutOfRange              // the matrix index raises IndexError
    | Target(i: nat, j: nat)  // the cell the read is addressed to

  /** recovery.py:53-91, where a read goes. Row 0 and column 0 index the matrix
      at -1, that is, the last row and the last column. */
  function Locate(read: string): (d: Disposition)
    ensures d == BadAddress <==> !AddressShaped(read)
    ensures d.Target? ==> d.i < Rows && d.j < Cols
    ensures AddressShaped(read) ==>
              var c := DecodeAddress(read).value;
              && (d == OutOfRange <==> c.row > Rows || c.col > Cols)
              && (d.Target? ==> d.i == (if c.row == 0 then Rows - 1 else c.row - 1))
              && (d.Target? ==> d.j == (if c.col == 0 then Cols - 1 else c.col - 1))
  {
    match DecodeAddress(read)
    case None => BadAddress
    case Some(c) =>
      match (AxisIndex(c.row - 1, Rows), AxisIndex(c.col - 1, Cols))
      case (Some(i), Some(j)) => Target(i, j)
      case _ => OutOfRange
  }

  /** A read is long enough to be kept: the source keeps reads of 100 or 87 nucleotides. */
  predicate Keepable(read: string) {
    |read| == 100 || |read| == 87
  }

  /** The matrix (`None` for an empty cell), the error score and the placed-read count. */
  datatype Pool = Pool(matrix: seq<seq<Option<string>>>, error: nat, seqNum: nat)

  predicate Shaped(m: seq<seq<Option<string>>>) {
    |m| == Rows && forall i :: 0 <= i < |m| ==> |m[i]| == Cols
  }

  /** `np.empty((341, 5), dtype=object)`: every cell None. */
  function EmptyPool(): (p: Pool)
    ensures Shaped(p.matrix) && p.error == 0 && p.seqNum == 0
    ensures forall i, j :: 0 <= i < Rows && 0 <= j < Cols ==> p.matrix[i][j].None?
  {
    Pool(seq(Rows, _ => seq(Cols, _ => None)), 0, 0)
  }

  /** The loop body of recovery.py:53-92 for one read. */
  function StoreRead(p: Pool, read: string): (q: Pool)
    requires Shaped(p.matrix)
    ensures Shaped(q.matrix)
    ensures Locate(read) == BadAddress ==> q == p.(error := p.error + 1)
    ensures Locate(read) == OutOfRange ==> q == p.(error := p.error + 18)
    ensures Locate(read).Target? ==> q.error == p.error && q.seqNum == p.seqNum + 1
    ensures forall i, j :: 0 <= i < Rows && 0 <= j < Cols && Locate(read) != Target(i, j) ==>
              q.matrix[i][j] == p.matrix[i][j]
    ensures Locate(read).Target? ==>
              var t := Locate(read);
              q.matrix[t.i][t.j] == if p.matrix[t.i][t.j].None? && Keepable(read) then Some(Payload(read)) else p.matrix[t.i][t.j]
  {
    match Locate(read)
    case BadAddress => p.(error := p.error + 1)
    case OutOfRange => p.(error := p.error + 18)
    case Target(i, j) =>
      var m := if p.matrix[i][j].None? && Keepable(read)
        then p.matrix[i := p.matrix[i][j := Some(Payload(read))]]
        else p.matrix;
      p.(matrix := m, seqNum := p.seqNum + 1)
  }

  /** The rs placed one after another, in file order. */
  function StoreAll(p: Pool, rs: seq<string>): (q: Pool)
    requires Shaped(p.matrix)
    ensures Shaped(q.matrix)
    decreases |rs|
  {
    if |rs| == 0 then p else StoreRead(StoreAll(p, rs[..|rs| - 1]), rs[|rs| - 1])
  }

  /** The whole reader: the rs of a file (header line first) into a fresh matrix. */
  function Recover(lines: seq<string>): (r: Result<Pool>)
    ensures r.Ok? <==> forall k :: 1 <= k < |lines| ==> !Blank(lines[k])
    ensures r.Ok? ==> Shaped(r.value.matrix)
  {
    var toks := FirstTokens(Slice(lines, 1, |lines|));
    ReadLinesOk(lines);
    if toks.Err? then Err(toks.fault) else Ok(StoreAll(EmptyPool(), toks.value))
  }

  /** The lines after the header all have a first word exactly when none is blank. */
  lemma ReadLinesOk(lines: seq<string>)
    ensures FirstTokens(Slice(lines, 1, |lines|)).Ok? <==> forall k :: 1 <= k < |lines| ==> !Blank(lines[k])
  {
    var body := Slice(lines, 1, |lines|);
    assert forall k :: 1 <= k < |lines| ==> lines[k] == body[k - 1];
    FirstTokensMeaning(body);
  }

  // What the reader computes

  /** Once a cell holds a payload, no later read changes it: the first write wins. */
  lemma {:induction false} KeepsFilled(p: Pool, rs: seq<string>, i: nat, j: nat)
    requires Shaped(p.matrix) && i < Rows && j < Cols && p.matrix[i][j].Some?
    ensures StoreAll(p, rs).matrix[i][j] == p.matrix[i][j]
    decreases |rs|
  {
    if |rs| > 0 {
      KeepsFilled(p, rs[..|rs| - 1], i, j);
    }
  }

  /** The read is kept in cell (i, j) if the cell is still empty when it arrives. */
  predicate Stores(read: string, i: nat, j: nat) {
    Locate(read) == Target(i, j) && Keepable(read)
  }

  /** Reference: the payload of the first read, in file order, that is addressed
      to (i, j) and has a keepable length. */
  function FirstStore(rs: seq<string>, i: nat, j: nat): Option<string> {
    if |rs| == 0 then None
    else if Stores(rs[0], i, j) then Some(Payload(rs[0]))
    else FirstStore(rs[1..], i, j)
  }

  lemma {:induction false} FirstStoreSnoc(rs: seq<string>, read: string, i: nat, j: nat)
    ensures FirstStore(rs + [read], i, j)
         == if FirstStore(rs, i, j).Some? then FirstStore(rs, i, j)
            else if Stores(read, i, j) then Some(Payload(read)) else None
  {
    if |rs| == 0 {
      assert [read][1..] == [];
    } else {
      assert (rs + [read])[1..] == rs[1..] + [read];
      FirstStoreSnoc(rs[1..], read, i, j);
    }
  }

  /** Every cell of the reader's matrix is whatever it held before, or else the
      payload of the first read that may be stored there. */
  lemma {:induction false} CellIsFirstStore(p: Pool, rs: seq<string>, i: nat, j: nat)
    requires Shaped(p.matrix) && i < Rows && j < Cols
    ensures StoreAll(p, rs).matrix[i][j]
         == if p.matrix[i][j].Some? then p.matrix[i][j] else FirstStore(rs, i, j)
    decreases |rs|
  {
    if |rs| > 0 {
      var init, last := rs[..|rs| - 1], rs[|rs| - 1];
      assert rs == init + [last];
      CellIsFirstStore(p, init, i, j);
      FirstStoreSnoc(init, last, i, j);
    }
  }

  /** The first read that may be stored in (i, j) is the one FirstStore picks. */
  lemma {:induction false} FirstStoreIs(rs: seq<string>, n: nat, i: nat, j: nat)
    requires n < |rs| && Stores(rs[n], i, j)
    requires forall m :: 0 <= m < n ==> !Stores(rs[m], i, j)
    ensures FirstStore(rs, i, j) == Some(Payload(rs[n]))
  {
    if n > 0 {
      var t := rs[1..];
      assert t[n - 1] == rs[n];
      forall m | 0 <= m < n - 1
        ensures !Stores(t[m], i, j)
      {
        assert t[m] == rs[m + 1];
      }
      FirstStoreIs(t, n - 1, i, j);
      assert !Stores(rs[0], i, j);
    }
  }

  /** The reader's matrix, cell by cell, from a fresh start. */
  lemma ReadMatrix(rs: seq<string>, i: nat, j: nat)
    requires i < Rows && j < Cols
    ensures StoreAll(EmptyPool(), rs).matrix[i][j] == FirstStore(rs, i, j)
  {
    CellIsFirstStore(EmptyPool(), rs, i, j);
  }

  /** Reads whose address does not decode. */
  function CountBad(rs: seq<string>): nat {
    if |rs| == 0 then 0 else CountBad(rs[..|rs| - 1]) + (if Locate(rs[|rs| - 1]) == BadAddress then 1 else 0)
  }

  /** Reads whose address decodes outside the matrix. */
  function CountOut(rs: seq<string>): nat {
    if |rs| == 0 then 0 else CountOut(rs[..|rs| - 1]) + (if Locate(rs[|rs| - 1]) == OutOfRange then 1 else 0)
  }

  /** Reads addressed to a cell of the matrix, kept or not. */
  function CountTargeted(rs: seq<string>): nat {
    if |rs| == 0 then 0 else CountTargeted(rs[..|rs| - 1]) + (if Locate(rs[|rs| - 1]).Target? then 1 else 0)
  }

  /** The score adds 1 per undecodable address and 18 per address off the matrix;
      the counter adds 1 per read addressed to a cell, whether it is kept or not. */
  lemma {:induction false} ReadCounts(p: Pool, rs: seq<string>)
    requires Shaped(p.matrix)
    ensures StoreAll(p, rs).error == p.error + CountBad(rs) + 18 * CountOut(rs)
    ensures StoreAll(p, rs).seqNum == p.seqNum + CountTargeted(rs)
    ensures CountBad(rs) + CountOut(rs) + CountTargeted(rs) == |rs|
    decreases |rs|
  {
    if |rs| > 0 {
      ReadCounts(p, rs[..|rs| - 1]);
    }
  }

  /** When every read is addressed to a cell, the score stays 0 and every read is counted. */
  lemma {:induction false} AllTargeted(rs: seq<string>)
    requires forall k :: 0 <= k < |rs| ==> Locate(rs[k]).Target?
    ensures CountBad(rs) == 0 && CountOut(rs) == 0 && CountTargeted(rs) == |rs|
    decreases |rs|
  {
    if |rs| > 0 {
      assert forall k :: 0 <= k < |rs| - 1 ==> rs[..|rs| - 1][k] == rs[k];
      AllTargeted(rs[..|rs| - 1]);
    }
  }

  /** Reads all addressed to cells of the matrix add nothing to the score and
      one each to the counter. */
  lemma TargetedCounts(p: Pool, rs: seq<string>)
    requires Shaped(p.matrix)
    requires forall k :: 0 <= k < |rs| ==> Locate(rs[k]).Target?
    ensures StoreAll(p, rs).error == p.error && StoreAll(p, rs).seqNum == p.seqNum + |rs|
  {
    AllTargeted(rs);
    ReadCounts(p, rs);
  }
}

=== FILE: results.dfy ===
/** Failure-carrying datatypes standing in for Python's `None` returns and raised exceptions. */
module Results {

  /** `dict.get(key, None)`: either a value or Python's `None`. */
  datatype Option<+T> = None | Some(value: T) {
    /** The value, or `default` when None (the source's `if x is None: x = default`). */
    function GetOr(default: T): T {
      if Some? then value else default
    }
  }

  /** The Python exception classes the modelled code can raise. */
  datatype Fault = IndexError | ValueError | TypeError

  /** A computation that either returns a value or raises one of the faults above. */
  datatype Result<+T> = Ok(value: T) | Err(fault: Fault) {
    predicate IsFailure() {
      Err?
    }

    function PropagateFailure<U>(): Result<U>
      requires Err?
    {
      Err(fault)
    }

    function Extract(): T
      requires Ok?
    {
      value
    }
  }

  /** The values of a list of results in order, or the fault of the first one that failed. */
  function AllOk<T>(rs: seq<Result<T>>): (r: Result<seq<T>>)
    ensures r.Ok? ==> |r.value| == |rs|
  {
    if |rs| == 0 then Ok([])
    else if rs[0].Err? then Err(rs[0].fault)
    else
      var rest := AllOk(rs[1..]);
      if rest.Err? then Err(rest.fault) else Ok([rs[0].value] + rest.value)
  }

  /** A list of results succeeds exactly when each does, with their values; when
      one fails, the fault is that of the first failure. */
  lemma {:induction false} AllOkMeaning<T>(rs: seq<Result<T>>)
    ensures AllOk(rs).Ok? <==> forall k :: 0 <= k < |rs| ==> rs[k].Ok?
    ensures AllOk(rs).Ok? ==> forall k :: 0 <= k < |rs| ==> AllOk(rs).value[k] == rs[k].value
    ensures AllOk(rs).Err? ==> exists k :: 0 <= k < |rs| && rs[k] == Err(AllOk(rs).fault)
                                  && forall m :: 0 <= m < k ==> rs[m].Ok?
  {
    if |rs| > 0 && rs[0].Ok? {
      AllOkMeaning(rs[1..]);
      assert forall k :: 1 <= k < |rs| ==> rs[k] == rs[1..][k - 1];
      if AllOk(rs).Err? {
        var k :| 0 <= k < |rs[1..]| && rs[1..][k] == Err(AllOk(rs).fault) && forall m :: 0 <= m < k ==> rs[1..][m].Ok?;
        assert rs[k + 1] == Err(AllOk(rs).fault);
        assert forall m :: 0 <= m < k + 1 ==> rs[m].Ok?;
      }
    } else if |rs| > 0 {
      assert rs[0] == Err(AllOk(rs).fault);
    }
  }
}

=== FILE: seqs.dfy ===
/** Sequence utilities shared by every stage: joining, fixed-size grouping, zipping. */
module Seqs {

  function Min(a: int, b: int): int {
    if a <= b then a else b
  }

  /** Concatenation of a list of sequences: `''.join(xs)` for strings and
      `itertools.chain.from_iterable(xs)` for lists. */
  function Flatten<T>(rows: seq<seq<T>>): seq<T> {
    if |rows| == 0 then [] else rows[0] + Flatten(rows[1..])
  }

  /** The total of a list of counts. */
  function Sum(xs: seq<nat>): nat {
    if |xs| == 0 then 0 else xs[0] + Sum(xs[1..])
  }

  /** Python's `s[i:j]` for non-negative bounds: out-of-range bounds are clipped
      and a reversed range is empty. */
  function Slice<T>(s: seq<T>, i: nat, j: nat): (r: seq<T>)
    ensures i <= j <= |s| ==> r == s[i..j]
    ensures i <= |s| <= j ==> r == s[i..]
    ensures j <= i || |s| <= i ==> r == []
    ensures |r| == if Min(j, |s|) <= Min(i, |s|) then 0 else Min(j, |s|) - Min(i, |s|)
  {
    var lo := Min(i, |s|);
    var hi := Min(j, |s|);
    if hi <= lo then [] else s[lo..hi]
  }

  /** `[s[i:i + n] for i in range(0, len(s), n)]`: consecutive groups of `n`
      elements, the last one possibly shorter. */
  function Chunks<T>(s: seq<T>, n: nat): (r: seq<seq<T>>)
    requires n > 0
    ensures forall k :: 0 <= k < |r| ==> 0 < |r[k]| <= n
    ensures forall k :: 0 <= k < |r| - 1 ==> |r[k]| == n
    decreases |s|
  {
    if |s| == 0 then []
    else if |s| <= n then [s]
    else [s[..n]] + Chunks(s[n..], n)
  }

  /** Joining the chunks gives back the sequence. */
  lemma {:induction false} ChunksJoin<T>(s: seq<T>, n: nat)
    requires n > 0
    ensures Flatten(Chunks(s, n)) == s
    decreases |s|
  {
    if |s| > n {
      ChunksJoin(s[n..], n);
      assert s == s[..n] + s[n..];
    }
  }

  /** `[b + a for a, b in zip(list1, list2)]`: every element of `list2` put in
      front of the matching element of `list1`; the longer list is cut short. */
  function PrependEach<T>(list1: seq<seq<T>>, list2: seq<seq<T>>): (r: seq<seq<T>>)
    ensures |r| == Min(|list1|, |list2|)
    ensures forall k :: 0 <= k < |r| ==> r[k] == list2[k] + list1[k]
  {
    if |list1| == 0 || |list2| == 0 then []
    else [list2[0] + list1[0]] + PrependEach(list1[1..], list2[1..])
  }

  /** Every row of `rows` has exactly `w` elements. */
  ghost predicate Uniform<T>(rows: seq<seq<T>>, w: nat) {
    forall i :: 0 <= i < |rows| ==> |rows[i]| == w
  }

  lemma {:induction false} FlattenAppend<T>(a: seq<seq<T>>, b: seq<seq<T>>)
    ensures Flatten(a + b) == Flatten(a) + Flatten(b)
  {
    if |a| == 0 {
      assert a + b == b;
    } else {
      assert (a + b)[1..] == a[1..] + b;
      FlattenAppend(a[1..], b);
    }
  }

  /** Joining `|rows|` rows of width `w` gives `w * |rows|` elements. */
  lemma {:induction false} FlattenUniformLength<T>(rows: seq<seq<T>>, w: nat)
    requires Uniform(rows, w)
    ensures |Flatten(rows)| == w * |rows|
  {
    if |rows| > 0 {
      FlattenUniformLength(rows[1..], w);
      assert w * |rows| == w + w * (|rows| - 1);
    }
  }

  /** In rows of width `w`, element `w * i + j` of the join is `rows[i][j]`. */
  lemma {:induction false} FlattenAt<T>(rows: seq<seq<T>>, w: nat, i: nat, j: nat)
    requires Uniform(rows, w) && i < |rows| && j < w
    ensures w * i + j < |Flatten(rows)|
    ensures Flatten(rows)[w * i + j] == rows[i][j]
  {
    FlattenUniformLength(rows, w);
    if i > 0 {
      FlattenAt(rows[1..], w, i - 1, j);
      assert w * i + j == w + (w * (i - 1) + j);
    }
  }

  /** A first group of exactly `n` elements becomes the first chunk. */
  lemma ChunksCons<T>(a: seq<T>, s: seq<T>, n: nat)
    requires n > 0 && |a| == n
    ensures Chunks(a + s, n) == [a] + Chunks(s, n)
  {
    if |s| == 0 {
      assert a + s == a;
    } else {
      assert (a + s)[..n] == a;
      assert (a + s)[n..] == s;
    }
  }

  /** Re-splitting rows of width `n` after joining them returns the rows. */
  lemma {:induction false} ChunksOfFlatten<T>(rows: seq<seq<T>>, n: nat)
    requires n > 0 && Uniform(rows, n)
    ensures Chunks(Flatten(rows), n) == rows
  {
    if |rows| > 0 {
      ChunksOfFlatten(rows[1..], n);
      ChunksCons(rows[0], Flatten(rows[1..]), n);
      assert [rows[0]] + rows[1..] == rows;
    }
  }

  /** A sequence of at most `k * n` elements has at most `k` chunks. */
  lemma {:induction false} ChunksCountBound<T>(s: seq<T>, n: nat, k: nat)
    requires n > 0 && |s| <= k * n
    ensures |Chunks(s, n)| <= k
    decreases k
  {
    if |s| > n {
      assert k * n == n + (k - 1) * n;
      ChunksCountBound(s[n..], n, k - 1);
    }
  }

  /** Chunking a prefix of `k` full groups and then the rest gives the same
      chunks as chunking the whole. */
  lemma {:induction false} ChunksSplit<T>(p: seq<T>, q: seq<T>, n: nat, k: nat)
    requires n > 0 && |p| == k * n
    ensures Chunks(p + q, n) == Chunks(p, n) + Chunks(q, n)
    decreases k
  {
    if k == 0 {
      assert p == [];
      assert p + q == q;
      assert Chunks(p, n) == [];
    } else {
      var h, t := p[..n], p[n..];
      LessOneGroup(|p|, n, k);
      ChunksSplit(t, q, n, k - 1);
      assert p == h + t;
      ChunksUnfold(h, t, q, n);
    }
  }

  /** A sequence of `k * n` elements splits into exactly `k` full groups. */
  lemma {:induction false} ChunksExact<T>(s: seq<T>, n: nat, k: nat)
    requires n > 0 && |s| == k * n
    ensures |Chunks(s, n)| == k
    ensures Uniform(Chunks(s, n), n)
    decreases k
  {
    if k == 0 {
      assert s == [];
    } else {
      var h, t := s[..n], s[n..];
      LessOneGroup(|s|, n, k);
      ChunksExact(t, n, k - 1);
      assert s == h + t;
      ChunksUnfold(h, t, [], n);
    }
  }

  /** Element j of chunk i of a sequence of k whole chunks. */
  lemma ChunkAt<T>(s: seq<T>, n: nat, k: nat, i: nat, j: nat)
    requires n > 0 && |s| == k * n && i < k && j < n
    ensures |Chunks(s, n)| == k && |Chunks(s, n)[i]| == n
    ensures n * i + j < |s| && Chunks(s, n)[i][j] == s[n * i + j]
  {
    ChunksExact(s, n, k);
    ChunksJoin(s, n);
    FlattenAt(Chunks(s, n), n, i, j);
  }

  lemma LessOneGroup(len: nat, n: nat, k: nat)
    requires n > 0 && k > 0 && len == k * n
    ensures n <= len && len - n == (k - 1) * n
  {
  }

  lemma ChunksUnfold<T>(h: seq<T>, t: seq<T>, q: seq<T>, n: nat)
    requires n > 0 && |h| == n
    ensures Chunks(h + t, n) == [h] + Chunks(t, n)
    ensures Chunks(h + t + q, n) == [h] + Chunks(t + q, n)
    ensures (h + t)[..n] == h && (h + t)[n..] == t
  {
    ChunksCons(h, t, n);
    assert h + t + q == h + (t + q);
    ChunksCons(h, t + q, n);
  }

  /** Joining two grids of the same shape cell by cell commutes with joining rows. */
  lemma {:induction false} PrependFlatten<T>(a: seq<seq<seq<T>>>, b: seq<seq<seq<T>>>)
    requires |a| == |b|
    requires forall i :: 0 <= i < |a| ==> |a[i]| == |b[i]|
    ensures PrependEach(Flatten(a), Flatten(b))
         == Flatten(seq(|a|, i requires 0 <= i < |a| => PrependEach(a[i], b[i])))
  {
    var g := seq(|a|, i requires 0 <= i < |a| => PrependEach(a[i], b[i]));
    if |a| > 0 {
      PrependFlatten(a[1..], b[1..]);
      assert g[1..] == seq(|a[1..]|, i requires 0 <= i < |a[1..]| => PrependEach(a[1..][i], b[1..][i]));
      PrependAppend(a[0], Flatten(a[1..]), b[0], Flatten(b[1..]));
    }
  }

  lemma {:induction false} PrependAppend<T>(a1: seq<seq<T>>, a2: seq<seq<T>>, b1: seq<seq<T>>, b2: seq<seq<T>>)
    requires |a1| == |b1|
    ensures PrependEach(a1 + a2, b1 + b2) == PrependEach(a1, b1) + PrependEach(a2, b2)
  {
  }

  /** A sequence cut at two points is the join of its three parts, and the parts
      of a join of three are its pieces. */
  lemma ThreeParts<T>(s: seq<T>, a: seq<T>, b: seq<T>, c: seq<T>)
    requires s == a + b + c
    ensures s[..|a|] == a && s[|a|..|a| + |b|] == b && s[|a| + |b|..] == c
  {
  }

  lemma CutTwice<T>(s: seq<T>, i: nat, j: nat)
    requires i <= j <= |s|
    ensures s == s[..i] + s[i..j] + s[j..]
    ensures s == s[..i] + s[i..j] + s[j..|s|]
  {
  }
}

=== FILE: tables.dfy ===
/** The sub-code tables of the codec: colour <-> 2-bit code, 2-bit value <->
    nucleotide, 3-bit value <-> dinucleotide, in the forms the encoder and the
    two decoders spell them. */
module Tables {
  import opened Results
  import opened PyStr

  /** An RGB pixel as PIL returns it. */
  datatype Rgb = Rgb(r: int, g: int, b: int)

  const White := Rgb(255, 255, 255)
  const Black := Rgb(0, 0, 0)
  const Red := Rgb(255, 0, 0)
  const Blue := Rgb(14, 110, 184)

  /** The encoder's COLOR_ENCODING: pixel -> 2-bit code. */
  const ColorEncoding: map<Rgb, string> := map[White := "00", Black := "01", Red := "10", Blue := "11"]

  /** The decoder's COLOR_ENCODING: 2-bit code -> pixel. */
  const CodeToColor: map<string, Rgb> := map["00" := White, "01" := Black, "10" := Red, "11" := Blue]

  /** The decoder's COLOR_ENCODING_FOR_PICTURE: pixel -> 2-bit code. */
  const PictureColorEncoding: map<Rgb, string> := map[White := "00", Black := "01", Red := "10", Blue := "11"]

  /** BINARY_TO_NUCLEOTIDE */
  const BinaryToNucleotide: map<string, string> := map["00" := "G", "01" := "C", "10" := "T", "11" := "A"]

  /** THREEBITS_TO_DINUCLEOTIDE */
  const ThreeBitsToDinucleotide: map<string, string> := map[
    "000" := "CA", "001" := "CT", "010" := "GA", "011" := "GT",
    "100" := "TC", "101" := "TG", "110" := "AC", "111" := "AG"]

  /** INT_TO_NUCLEOTIDE */
  const IntToNucleotide: map<int, string> := map[0 := "G", 1 := "C", 2 := "T", 3 := "A"]

  /** INT_TO_DINUCLEOTIDE */
  const IntToDinucleotide: map<int, string> := map[
    0 := "CA", 1 := "CT", 2 := "GA", 3 := "GT", 4 := "TC", 5 := "TG", 6 := "AC", 7 := "AG"]

  /** The decoders' nucleotide -> 2-bit mapping (char_to_number, get_mapping_value, xuhao_binary). */
  const NucleotideToBits: map<string, string> := map["G" := "00", "C" := "01", "T" := "10", "A" := "11"]

  /** The decoders' dinucleotide -> 3-bit mapping (get_tri_mapping_value, threebits_xuhao). */
  const DinucleotideToBits: map<string, string> := map[
    "CA" := "000", "CT" := "001", "GA" := "010", "GT" := "011",
    "TC" := "100", "TG" := "101", "AC" := "110", "AG" := "111"]

  /** The four nucleotide letters. */
  predicate IsNucleotide(c: char) {
    c == 'G' || c == 'C' || c == 'T' || c == 'A'
  }

  predicate IsNucleotideText(s: string) {
    forall i :: 0 <= i < |s| ==> IsNucleotide(s[i])
  }

  /** The eight two-letter codewords of the 3-bit sub-code. */
  const Codewords: set<string> := {"CA", "CT", "GA", "GT", "TC", "TG", "AC", "AG"}

  /** `dict.get(key, None)` */
  function Get<K, V>(m: map<K, V>, k: K): (r: Option<V>)
    ensures r.Some? <==> k in m
    ensures r.Some? ==> r.value == m[k]
  {
    if k in m then Some(m[k]) else None
  }

  // Encoder lookups (encoding.py)

  /** get_mapping_value: 0..3 -> nucleotide. */
  function NucleotideOfInt(x: int): (r: Option<string>)
    ensures r.Some? <==> 0 <= x < 4
    ensures r.Some? ==> |r.value| == 1 && IsNucleotide(r.value[0])
  {
    Get(IntToNucleotide, x)
  }

  /** get_tri_mapping_value: 0..7 -> codeword. */
  function DinucleotideOfInt(x: int): (r: Option<string>)
    ensures r.Some? <==> 0 <= x < 8
    ensures r.Some? ==> r.value in Codewords
    ensures r.Some? ==> |r.value| == 2 && IsNucleotideText(r.value)
  {
    Get(IntToDinucleotide, x)
  }

  /** xuhao_binary: a 2-bit string -> nucleotide. */
  function NucleotideOfBits(x: string): (r: Option<string>)
    ensures r.Some? ==> |x| == 2 && IsBits(x)
    ensures r.Some? ==> |r.value| == 1 && IsNucleotide(r.value[0])
  {
    Get(BinaryToNucleotide, x)
  }

  /** xuhao_threebits: a 3-bit string -> codeword. */
  function DinucleotideOfBits(x: string): (r: Option<string>)
    ensures r.Some? ==> |x| == 3 && IsBits(x)
    ensures r.Some? ==> r.value in Codewords && |r.value| == 2
  {
    Get(ThreeBitsToDinucleotide, x)
  }

  // Decoder lookups (to_picture.py, recovery.py)

  /** get_mapping_value (to_picture.py) and xuhao_binary (recovery.py): exact-case lookup. */
  function BitsOfNucleotide(x: string): (r: Option<string>)
    ensures r.Some? <==> |x| == 1 && IsNucleotide(x[0])
    ensures r.Some? ==> |r.value| == 2 && IsBits(r.value)
  {
    if |x| == 1 then
      assert x == [x[0]];
      Get(NucleotideToBits, x)
    else
      Get(NucleotideToBits, x)
  }

  /** char_to_number: the lookup after `char.upper()`, so lower-case letters decode too. */
  function BitsOfNucleotideAnyCase(c: char): (r: Option<string>)
    ensures r.Some? <==> IsNucleotide(Upper(c))
    ensures r.Some? ==> |r.value| == 2 && IsBits(r.value)
  {
    Get(NucleotideToBits, [Upper(c)])
  }

  /** get_tri_mapping_value (to_picture.py) and threebits_xuhao (recovery.py). */
  function BitsOfDinucleotide(x: string): (r: Option<string>)
    ensures r.Some? <==> x in Codewords
    ensures r.Some? ==> |r.value| == 3 && IsBits(r.value)
  {
    Get(DinucleotideToBits, x)
  }

  // Properties of the tables

  lemma TwoBitCases(s: string)
    requires |s| == 2 && IsBits(s)
    ensures s == "00" || s == "01" || s == "10" || s == "11"
  {
    assert s == [s[0], s[1]];
  }

  lemma ThreeBitCases(s: string)
    requires |s| == 3 && IsBits(s)
    ensures s == "000" || s == "001" || s == "010" || s == "011"
         || s == "100" || s == "101" || s == "110" || s == "111"
  {
    assert s == [s[0], s[1], s[2]];
  }

  /** INT_TO_NUCLEOTIDE and INT_TO_DINUCLEOTIDE are injective on their keys. */
  lemma IntTablesInjective()
    ensures forall x, y :: 0 <= x < 4 && 0 <= y < 4 && x != y ==> IntToNucleotide[x] != IntToNucleotide[y]
    ensures forall x, y :: 0 <= x < 8 && 0 <= y < 8 && x != y ==> IntToDinucleotide[x] != IntToDinucleotide[y]
  {
  }

  /** xuhao_binary is defined on exactly the 2-bit strings and agrees with
      get_mapping_value on their value. */
  lemma NucleotideOfBitsAgrees(x: string)
    ensures NucleotideOfBits(x).Some? <==> |x| == 2 && IsBits(x)
    ensures |x| == 2 && IsBits(x) ==> NucleotideOfBits(x) == NucleotideOfInt(BitsValue(x))
  {
    if |x| == 2 && IsBits(x) {
      TwoBitCases(x);
      TwoBitEntries();
      if x == "00" {} else if x == "01" {} else if x == "10" {} else {}
    }
  }

  /** BINARY_TO_NUCLEOTIDE and INT_TO_NUCLEOTIDE entry by entry, with the values of the 2-bit strings. */
  lemma TwoBitEntries()
    ensures BitsValue("00") == 0 && BitsValue("01") == 1 && BitsValue("10") == 2 && BitsValue("11") == 3
    ensures NucleotideOfBits("00") == Some("G") && NucleotideOfBits("01") == Some("C")
    ensures NucleotideOfBits("10") == Some("T") && NucleotideOfBits("11") == Some("A")
    ensures NucleotideOfInt(0) == Some("G") && NucleotideOfInt(1) == Some("C")
    ensures NucleotideOfInt(2) == Some("T") && NucleotideOfInt(3) == Some("A")
  {
    assert "00"[..1] == "0" && "01"[..1] == "0" && "10"[..1] == "1" && "11"[..1] == "1";
  }

  /** The values of the eight 3-bit strings. */
  lemma ThreeBitValues()
    ensures BitsValue("000") == 0 && BitsValue("001") == 1 && BitsValue("010") == 2 && BitsValue("011") == 3
    ensures BitsValue("100") == 4 && BitsValue("101") == 5 && BitsValue("110") == 6 && BitsValue("111") == 7
  {
    BitsValue3("000"); BitsValue3("001"); BitsValue3("010"); BitsValue3("011");
    BitsValue3("100"); BitsValue3("101"); BitsValue3("110"); BitsValue3("111");
  }

  /** xuhao_threebits is defined on exactly the 3-bit strings and agrees with
      get_tri_mapping_value on their value. */
  lemma DinucleotideOfBitsAgrees(x: string)
    ensures DinucleotideOfBits(x).Some? <==> |x| == 3 && IsBits(x)
    ensures |x| == 3 && IsBits(x) ==> DinucleotideOfBits(x) == DinucleotideOfInt(BitsValue(x))
  {
    if |x| == 3 && IsBits(x) {
      DinucleotideOfBitsValue(x);
    }
  }

  lemma DinucleotideOfBitsValue(x: string)
    requires |x| == 3 && IsBits(x)
    ensures DinucleotideOfBits(x).Some?
    ensures DinucleotideOfBits(x) == DinucleotideOfInt(BitsValue(x))
  {
    ThreeBitCases(x);
    ThreeBitValues();
    ThreeBitEntries();
    IntDinucleotideEntries();
    if x == "000" {} else if x == "001" {} else if x == "010" {} else if x == "011" {}
    else if x == "100" {} else if x == "101" {} else if x == "110" {} else {}
  }

  /** THREEBITS_TO_DINUCLEOTIDE entry by entry. */
  lemma ThreeBitEntries()
    ensures DinucleotideOfBits("000") == Some("CA") && DinucleotideOfBits("001") == Some("CT")
    ensures DinucleotideOfBits("010") == Some("GA") && DinucleotideOfBits("011") == Some("GT")
    ensures DinucleotideOfBits("100") == Some("TC") && DinucleotideOfBits("101") == Some("TG")
    ensures DinucleotideOfBits("110") == Some("AC") && DinucleotideOfBits("111") == Some("AG")
  {
  }

  /** INT_TO_DINUCLEOTIDE entry by entry. */
  lemma IntDinucleotideEntries()
    ensures DinucleotideOfInt(0) == Some("CA") && DinucleotideOfInt(1) == Some("CT")
    ensures DinucleotideOfInt(2) == Some("GA") && DinucleotideOfInt(3) == Some("GT")
    ensures DinucleotideOfInt(4) == Some("TC") && DinucleotideOfInt(5) == Some("TG")
    ensures DinucleotideOfInt(6) == Some("AC") && DinucleotideOfInt(7) == Some("AG")
  {
  }

  /** Decoding the nucleotide of a 2-bit string gives the string back, and
      encoding the bits of a nucleotide gives the nucleotide back. */
  lemma NucleotideRoundTrip(x: string)
    ensures |x| == 2 && IsBits(x) ==>
              NucleotideOfBits(x).Some? && BitsOfNucleotide(NucleotideOfBits(x).value) == Some(x)
    ensures |x| == 1 && IsNucleotide(x[0]) ==>
              BitsOfNucleotide(x).Some? && NucleotideOfBits(BitsOfNucleotide(x).value) == Some(x)
  {
    if |x| == 2 && IsBits(x) {
      TwoBitCases(x);
    }
    if |x| == 1 && IsNucleotide(x[0]) {
      assert x == [x[0]];
    }
  }

  /** The same two directions for the 3-bit sub-code. */
  lemma DinucleotideRoundTrip(x: string)
    ensures |x| == 3 && IsBits(x) ==>
              DinucleotideOfBits(x).Some? && BitsOfDinucleotide(DinucleotideOfBits(x).value) == Some(x)
    ensures x in Codewords ==>
              BitsOfDinucleotide(x).Some? && DinucleotideOfBits(BitsOfDinucleotide(x).value) == Some(x)
  {
    if |x| == 3 && IsBits(x) {
      ThreeBitCases(x);
    }
  }

  /** char_to_number ignores case; get_mapping_value and xuhao_binary do not. */
  lemma CaseSensitivity(c: char)
    ensures BitsOfNucleotideAnyCase(c) == BitsOfNucleotideAnyCase(Upper(c))
    ensures IsNucleotide(c) ==> BitsOfNucleotideAnyCase(c) == BitsOfNucleotide([c])
    ensures IsNucleotide(Upper(c)) && !IsNucleotide(c) ==>
              BitsOfNucleotideAnyCase(c).Some? && BitsOfNucleotide([c]).None?
  {
  }

  /** "GG" and "AT" are not codewords, so the 3-bit decoders return None for them. */
  lemma NotCodewords()
    ensures BitsOfDinucleotide("GG").None? && BitsOfDinucleotide("AT").None?
  {
  }

  /** The two decoder colour tables are mutual inverses, and the decoder's
      pixel -> code table is the encoder's. */
  lemma ColorTables()
    ensures PictureColorEncoding == ColorEncoding
    ensures forall p :: p in ColorEncoding ==> ColorEncoding[p] in CodeToColor && CodeToColor[ColorEncoding[p]] == p
    ensures forall c :: c in CodeToColor ==> CodeToColor[c] in ColorEncoding && ColorEncoding[CodeToColor[c]] == c
    ensures forall c :: c in CodeToColor <==> |c| == 2 && IsBits(c)
  {
    forall c ensures c in CodeToColor <==> |c| == 2 && IsBits(c) {
      if |c| == 2 && IsBits(c) {
        TwoBitCases(c);
      }
    }
  }

  /** The colour of the code spelled by two bit characters (any character other
      than '0' is read as '1'; only bit characters are ever passed). */
  function PairColor(hi: char, lo: char): (c: Rgb)
    ensures IsBit(hi) && IsBit(lo) ==> [hi, lo] in CodeToColor && c == CodeToColor[[hi, lo]]
  {
    if hi == '0' then (if lo == '0' then White else Black)
    else (if lo == '0' then Red else Blue)
  }
}
